=== FILE: README.md ===
# Android Settings: Ethernet dialog and status, battery-usage list controller

This Dafny project models three pieces of the Android Settings app.

- **Ethernet static-IP dialog** (`EthernetDialog`).
  - It checks dotted-quad IPv4 text (`NotIpAddress`).
  - It selects an error code over the five static fields (`isValidAddress`).
  - It dispatches a save to DHCP or static configuration (`handle_saveconf`, `setDhcp`, `setStatic`).
  - It maps the proxy spinner to and from `ProxySettings` (`setProxy`, `updateInfo`, `showProxyFields`).
  - It keeps the interface table that the Ethernet link-state listener updates.
  - It pre-fills the dialog's fields from the current link (`getEthernetInfo`).
- **Ethernet status** (`EthernetInfo`, `EthernetSettings`).
  - The digest of the active link: the last IPv4 and IPv6 address, the gateway of the first default route or else of the last route, the first two DNS servers, and the MAC address as lowercase hex pairs.
  - The status screen's seven fields. Each is normalised to `"0.0.0.0"` when null or empty, then copied into the seven preference summaries.
- **Battery-usage list controller** (`BatteryChartPreferenceControllerV2`).
  - The daily/hourly chart selection, the saved-state bundle, and the select listeners.
  - The slot title and the usage summary rules.
  - The search for one app's usage entry.
  - The bookkeeping of the app list: a preference group, which is an ordered list, and a key-to-preference cache.
  - `refreshUi` rebuilds that list for the selected slot.

Project layout:

- `java_lang.dfy` (module `JavaLang`) models the Java library behaviour the code relies on: `Integer.parseInt` (optional sign, decimal digits, 32-bit range, an exception as `None`), `String.valueOf(int)`, `indexOf`, and `%02x` on a signed Java `byte`.
- `net_platform.dfy` holds the platform values: link addresses, routes, link properties, `IpConfiguration`, `ProxyInfo`, the hardware-address lookup.
- `dotted_quad.dfy` holds `NotIpAddress` as the loop it is, proved against a block-splitting specification, and the prefix-to-netmask conversion.
- `ethernet_info.dfy`, `ethernet_settings.dfy` and `ethernet_dialog.dfy` hold the Ethernet classes.
- `battery_usage_rules.dfy` holds the controller's pure rules.
- `preference_list.dfy` holds the specification functions of the list loops.
- `battery_chart_controller.dfy` holds the controller class.

Java `null` is `Option`. An exception the code catches is an explicit outcome. Foreign parsers and validators are function parameters: `InetAddresses.parseNumericAddress` is `parse`, `ProxySelector.validate` is `validate`, and `DataProcessor.contains` over the hidden packages is `hidden`. Work posted to a UI handler runs at once, in order.

The model follows the code as written:

- `isValidAddress` checks the address, then the prefix, then the gateway, then the two DNS servers. Each failing check overwrites the code, so the last failing field is reported (DNS 5 over gateway 4 over prefix 3 over address 2).
- `NotIpAddress` accepts one trailing dot after four blocks (`"1.2.3.4."`), signed blocks (`"+1"`, `"-0"`) and leading zeros, because each block goes through `Integer.parseInt`.
- `getEthernetInfo` falls back to `"0.0.0.0"` for all five fields when building the `EthernetInfo` throws, including the prefix field. A later save then throws inside `isValidAddress` on that prefix. The exception is swallowed, so nothing is saved and no message is shown. `FallbackPrefixThrows` and `HandleSaveConf` state this.

## Model

| member | source | states |
|---|---|---|
| JavaLang.ParseIntToString | src/com/android/settings/ethernet/EthernetDialog.java:435 | `Integer.parseInt` reads back every 32-bit value that `String.valueOf` prints, as the pre-filled prefix field needs |
| JavaLang.IndexOf | src/com/android/settings/ethernet/EthernetDialog.java:371 | `String.indexOf(c, from)` answers -1 or a position at or after `from` that holds `c` |
| JavaLang.IndexOfSpec | src/com/android/settings/ethernet/EthernetDialog.java:371 | and that position is the first one: -1 exactly when `c` does not occur at or after `from` |
| JavaLang.HexByteRoundTrip | src/com/android/settings/ethernet/EthernetInfo.java:159 | `%02x` of a Java byte is two hex digits whose value is the byte read as unsigned |
| DottedQuad.NotIpAddress | src/com/android/settings/ethernet/EthernetDialog.java:353-374 | the loop returns false exactly when the text splits on '.' into four blocks that each parse to an int in [0,255] (`IsIpAddress`) |
| DottedQuad.ScanStep | src/com/android/settings/ethernet/EthernetDialog.java:357-372 | one loop step: the block from `start` to the next '.' (or the end) is the next block of the split, and the split resumes after that dot |
| DottedQuad.ScanFromRest | src/com/android/settings/ethernet/EthernetDialog.java:357-372 | the loop's walk over positions, cutting where `indexOf('.', start)` points, reads exactly the blocks of the '.'-split of what is left, in order |
| DottedQuad.CheckFromBlocks | src/com/android/settings/ethernet/EthernetDialog.java:357-373 | the loop's answer from any position is the answer of the same test run over the blocks it reads |
| DottedQuad.CheckBlocksIff | src/com/android/settings/ethernet/EthernetDialog.java:361-373 | for any block test (the loop uses "parses to an int in [0,255]"): stopping at the first failing block, and otherwise comparing the count with 4, answers exactly "not four blocks that all pass" |
| DottedQuad.AcceptedIsDottedQuad | src/com/android/settings/ethernet/EthernetDialog.java:353-374 | accepted text is four dot-free valid blocks joined by '.', optionally followed by a single '.' |
| DottedQuad.DottedQuadAccepted | src/com/android/settings/ethernet/EthernetDialog.java:353-374 | conversely, four dot-free valid blocks joined by '.' are accepted, with or without one trailing '.' |
| DottedQuad.EmptyRejected | src/com/android/settings/ethernet/EthernetDialog.java:371-373 | the empty string is rejected (zero blocks) |
| DottedQuad.EmptyBlockRejected | src/com/android/settings/ethernet/EthernetDialog.java:361-364 | an empty block anywhere (a leading dot, "..") rejects the text, because `parseInt("")` throws |
| DottedQuad.WrongBlockCountRejected | src/com/android/settings/ethernet/EthernetDialog.java:371-373 | valid blocks in any number other than four are rejected, with or without a trailing dot |
| DottedQuad.BlockExamples | src/com/android/settings/ethernet/EthernetDialog.java:361-368 | "+1", "-0", "007" and "255" are valid blocks; "256", "-1", "", "+" and "1a" are not |
| DottedQuad.ScanJoinDots | src/com/android/settings/ethernet/EthernetDialog.java:357-370 | splitting a '.'-join of dot-free blocks whose last block is non-empty gives the blocks back |
| DottedQuad.JoinScan | src/com/android/settings/ethernet/EthernetDialog.java:357-370 | any non-empty text is the join of its blocks, or that join plus one '.' |
| DottedQuad.MaskIsLeadingOnes | src/com/android/settings/ethernet/EthernetDialog.java:416-422 | the netmask of a prefix length p in [0,32] has exactly its top p bits set |
| DottedQuad.MaskTextAccepted | src/com/android/settings/ethernet/EthernetDialog.java:416-422 | every prefix length in [0,32] has a netmask, and its text passes the dotted-quad check |
| EthInfo.LastIndexOfFamily | src/com/android/settings/ethernet/EthernetInfo.java:100-107 | the index of the last link address of a family, or -1 exactly when there is none |
| EthInfo.FirstDefaultIndex | src/com/android/settings/ethernet/EthernetInfo.java:111-118 | the index of the first default route, or -1 exactly when there is none |
| EthInfo.GatewayChoice | src/com/android/settings/ethernet/EthernetInfo.java:109-124 | the gateway is absent exactly for no routes; otherwise it is that of the first default route, or of the last route when none is default |
| EthInfo.LastAddressWins | src/com/android/settings/ethernet/EthernetInfo.java:100-107 | an IPv4 address at the end of the list sets the IPv4 text and the prefix, and leaves the IPv6 choice as it was |
| EthInfo.NoAddressKeepsDefault | src/com/android/settings/ethernet/EthernetInfo.java:44-56 | with no address of a family, that family's field keeps its initial value |
| EthInfo.ExtraDnsIgnored | src/com/android/settings/ethernet/EthernetInfo.java:125-131 | DNS servers after the second change neither DNS field |
| EthInfo.GetMacAddress | src/com/android/settings/ethernet/EthernetInfo.java:137-162 | the loop builds `MacText`: "??:??:??:??:??:??" for no interface, a failed lookup or a null address, else the bytes as hex pairs joined by ':' |
| EthInfo.MacJoinGroups | src/com/android/settings/ethernet/EthernetInfo.java:154-161 | n ≥ 1 bytes give length 3n−1, with byte i's two hex digits at positions 3i and 3i+1; zero bytes give "" |
| EthInfo.MacJoinSeparators | src/com/android/settings/ethernet/EthernetInfo.java:155-158 | a ':' sits between consecutive hex pairs, at positions 3i+2 |
| EthInfo.MacJoinInjective | src/com/android/settings/ethernet/EthernetInfo.java:154-161 | different byte strings give different MAC texts |
| EthInfo.UnknownMacIsNotBytes | src/com/android/settings/ethernet/EthernetInfo.java:139-152 | the unknown-MAC placeholder is not the text of any byte string |
| EthInfo.EthernetInfo.constructor | src/com/android/settings/ethernet/EthernetInfo.java:58-61 | a new EthernetInfo holds `DigestOf` its link properties and hardware address |
| EthInfo.EthernetInfo.GetEthInfo | src/com/android/settings/ethernet/EthernetInfo.java:63-135 | each field becomes its selection rule's result; a field whose list is empty keeps its value |
| EthInfo.EthernetInfo.SelectAddresses | src/com/android/settings/ethernet/EthernetInfo.java:100-107 | the address loop leaves the last IPv4 address and its prefix, and the last IPv6 address |
| EthInfo.EthernetInfo.SelectGateway | src/com/android/settings/ethernet/EthernetInfo.java:109-124 | the route loop with its break leaves `GatewayFor(routes)`, or the old value for no routes |
| EthInfo.EthernetInfo.SelectDns | src/com/android/settings/ethernet/EthernetInfo.java:125-131 | DNS 1 is the first server and DNS 2 the second, each kept when the list is too short |
| EthSettings.Normalize | src/com/android/settings/ethernet/EthernetSettings.java:162-189 | the shown value is never empty, and it is the placeholder or the value itself |
| EthSettings.NormalizeKeeps | src/com/android/settings/ethernet/EthernetSettings.java:162-189 | a value is shown unchanged exactly when it is non-null and non-empty |
| EthSettings.NormalizeIdempotent | src/com/android/settings/ethernet/EthernetSettings.java:162-189 | normalising a shown value again changes nothing |
| EthSettings.SevenWrites | src/com/android/settings/ethernet/EthernetSettings.java:221-229 | the seven `setStringSummary` calls in a row equal one map union with the seven keyed writes |
| EthSettings.UpdatedFieldsShown | src/com/android/settings/ethernet/EthernetSettings.java:159-219 | after either branch every field is non-null and non-empty, and normalising again is the identity |
| EthSettings.NetmaskShown | src/com/android/settings/ethernet/EthernetSettings.java:170-173 | a prefix in [0,32] shows its netmask; any other shows the placeholder |
| EthSettings.OtherSummariesUntouched | src/com/android/settings/ethernet/EthernetSettings.java:221-229 | no preference outside the seven gains, loses or changes a summary |
| EthSettings.EthernetSettings.constructor | src/com/android/settings/ethernet/EthernetSettings.java:54-60 | the seven fields start out null; they are modelled per instance, while the source's static fields are null only before the first instance writes them |
| EthSettings.EthernetSettings.GetNullInfo | src/com/android/settings/ethernet/EthernetSettings.java:195-203 | all seven fields become "0.0.0.0" |
| EthSettings.EthernetSettings.GetEthInfo | src/com/android/settings/ethernet/EthernetSettings.java:159-193 | each field is the digest's value normalised; the netmask comes from the prefix length |
| EthSettings.EthernetSettings.SetSummary | src/com/android/settings/ethernet/EthernetSettings.java:221-238 | the summaries become the old ones overwritten by the seven fields under their own keys |
| EthSettings.EthernetSettings.UpdateEthStatus | src/com/android/settings/ethernet/EthernetSettings.java:205-219 | not connected: placeholders everywhere. Connected: the digest's fields. A throw while reading the link changes nothing |
| EthDialog.ValidationCode | src/com/android/settings/ethernet/EthernetDialog.java:398-414 | the result is absent (the parse exception) exactly when the prefix text does not parse; otherwise it is one of 0, 2, 3, 4 or 5 |
| EthDialog.ValidationZeroIff | src/com/android/settings/ethernet/EthernetDialog.java:398-414 | the code is 0 exactly when the address, gateway and both DNS texts are dotted quads and the prefix is in [0,32] |
| EthDialog.ValidationLastFailureWins | src/com/android/settings/ethernet/EthernetDialog.java:399-413 | 5 exactly when a DNS text fails; 4 when the gateway fails and no DNS does; 3 when only the prefix and possibly the address fail; 2 when only the address fails |
| EthDialog.MessageFor | src/com/android/settings/ethernet/EthernetDialog.java:376-396 | a message exists exactly for codes 1 to 5 |
| EthDialog.MessagesDistinct | src/com/android/settings/ethernet/EthernetDialog.java:376-396 | different codes show different messages |
| EthDialog.FailedValidationHasMessage | src/com/android/settings/ethernet/EthernetDialog.java:340-345 | every failed validation code has a message, and it is not the save-failure one |
| EthDialog.SpinnerPositionFor | src/com/android/settings/ethernet/EthernetDialog.java:238-245 | `updateInfo` selects STATIC→1, PAC→2 and anything else→0 |
| EthDialog.ProxyMappingRoundTrip | src/com/android/settings/ethernet/EthernetDialog.java:238-245 | with both views created, `updateInfo`'s mapping of proxy modes to spinner positions inverts `setProxy`: it sends the mode `setProxy` picks back to the spinner position it came from, and positions outside 0..2 give NONE. Each of NONE, STATIC and PAC survives the trip the other way |
| EthDialog.BadPortKeepsStatic | src/com/android/settings/ethernet/EthernetDialog.java:568-583 | in static mode an unparsable port leaves STATIC with no proxy |
| EthDialog.NoViewsNoProxy | src/com/android/settings/ethernet/EthernetDialog.java:566-590 | with neither the host view nor the PAC view created, the result is NONE with no proxy, whatever the position |
| EthDialog.DnsServersOf | src/com/android/settings/ethernet/EthernetDialog.java:513-530 | at most two servers; the first is the parsed DNS 1 and the second the parsed DNS 2. DNS 2 is used only after DNS 1 parsed |
| EthDialog.BuildDnsServers | src/com/android/settings/ethernet/EthernetDialog.java:513-530 | the nested try blocks build exactly `DnsServersOf` |
| NetPlatform.MulticastExamples | src/com/android/settings/ethernet/EthernetDialog.java:499 | the multicast addresses `new LinkAddress` rejects are those of 224.0.0.0/4: both ends of the block are in it, the neighbours just outside are not, and an IPv6 address never counts |
| NetPlatform.ThreeDigitFirstOctet | src/com/android/settings/ethernet/EthernetDialog.java:499 | an IPv4 host text with a three-digit first block is multicast exactly when that block's value is in [224, 239] |
| EthDialog.ValidatedSaveNeedsOnlyAddress | src/com/android/settings/ethernet/EthernetDialog.java:481-503 | after validation passed, the static configuration is built exactly when the address parses as IPv4 and is not multicast (which `new LinkAddress` rejects), with the typed prefix length |
| EthDialog.PrefilledPrefixParses | src/com/android/settings/ethernet/EthernetDialog.java:434-438 | the pre-filled prefix text always parses, to a value in [0,32] |
| EthDialog.FallbackPrefixThrows | src/com/android/settings/ethernet/EthernetDialog.java:465-470 | the fallback prefix text "0.0.0.0" does not parse, so validating it throws |
| EthDialog.EthernetDialog.constructor | src/com/android/settings/ethernet/EthernetDialog.java:98-123 | an empty interface table and a fresh configuration; no proxy views yet, no messages, no requests; records whether the `EthernetManager` it is given is non-null |
| EthDialog.EthernetDialog.OnInterfaceStateChanged | src/com/android/settings/ethernet/EthernetDialog.java:111-122 | called only when a manager exists, as the listener is registered only then; link up puts the interface's configuration; any other state removes the interface |
| EthDialog.EthernetDialog.GetEthernetInterfaceName | src/com/android/settings/ethernet/EthernetDialog.java:169-173 | null for an empty table, otherwise some key of it |
| EthDialog.EthernetDialog.GetIfaceName | src/com/android/settings/ethernet/EthernetDialog.java:155-164 | the same as `getEthernetInterfaceName`, so "eth0" is returned only when it is in the table |
| EthDialog.EthernetDialog.EthernetIpConfiguration | src/com/android/settings/ethernet/EthernetDialog.java:178-182 | a configuration exists exactly when the table is non-empty |
| EthDialog.EthernetDialog.SetProxy | src/com/android/settings/ethernet/EthernetDialog.java:563-594 | the proxy kind and proxy become `ProxyFromViews` of the views |
| EthDialog.EthernetDialog.SetDhcp | src/com/android/settings/ethernet/EthernetDialog.java:548-561 | the configuration becomes DHCP with the new proxy, stored under `getifaceName()`; it always succeeds |
| EthDialog.EthernetDialog.SetStatic | src/com/android/settings/ethernet/EthernetDialog.java:474-546 | the proxy is taken from the views. A build failure (bad prefix, missing or multicast address) leaves only the STATIC assignment; otherwise the configuration takes the static part and the proxy. It succeeds only with a built configuration, a manager and a non-empty table, and always then unless the table holds the null name; success sends one request carrying the configuration for a non-null interface of the table, failure sends none |
| EthDialog.EthernetDialog.IsValidAddress | src/com/android/settings/ethernet/EthernetDialog.java:398-414 | the overwriting checks compute `ValidationCode` of the five texts |
| EthDialog.EthernetDialog.PrintErrorMsg | src/com/android/settings/ethernet/EthernetDialog.java:376-396 | codes 1 to 5 append their message; other codes show nothing |
| EthDialog.EthernetDialog.HandleSaveConf | src/com/android/settings/ethernet/EthernetDialog.java:325-351 | DHCP: the proxy from the views, the configuration switched to DHCP with it and written under some key of the table (null if empty), no message. Static: every validation failure leaves configuration, proxy, table and requests alone; an unparsable prefix shows nothing and a failed code shows its message. Code 0 sets the proxy and the static configuration, then either sends one request carrying it for a non-null interface name and shows nothing, or shows the save failure and sends nothing. The request is sent whenever the configuration builds, a manager exists and the table is non-empty without the null name. The failure is shown when the configuration cannot be built, there is no manager or the table is empty |
| EthDialog.EthernetDialog.OnClick | src/com/android/settings/ethernet/EthernetDialog.java:144-153 | any other button changes nothing; the positive button has every effect of `handle_saveconf` listed above |
| EthDialog.EthernetDialog.GetEthernetInfo | src/com/android/settings/ethernet/EthernetDialog.java:424-472 | the texts are pre-filled from the digest with defaults, or all "0.0.0.0" when reading the link throws |
| EthDialog.EthernetDialog.UpdateInfo | src/com/android/settings/ethernet/EthernetDialog.java:217-252 | when Ethernet is available (a manager and a non-empty table) and connected: the configuration's assignment, radio state and address layout; the pre-fill for STATIC; its proxy kind and spinner position. Otherwise nothing changes, radio buttons and layout included |
| EthDialog.EthernetDialog.ShowIpAssignment | src/com/android/settings/ethernet/EthernetDialog.java:227-237 | STATIC checks Manual, shows the address layout and pre-fills; any other assignment checks DHCP and hides it |
| EthDialog.EthernetDialog.SelectProxyPosition | src/com/android/settings/ethernet/EthernetDialog.java:238-245 | the stored kind and the spinner position follow `SpinnerPositionFor` |
| EthDialog.EthernetDialog.ShowProxyFields | src/com/android/settings/ethernet/EthernetDialog.java:285-323 | static fields are visible exactly at position 1 and the PAC field at position 2. A view is created on first need and filled from a stored proxy of the matching kind |
| EthDialog.SelectedModeSaved | src/com/android/settings/ethernet/EthernetDialog.java:238-245 | once the selection has created its views, `setProxy` records the selected position's mode: NONE, STATIC or PAC for 0, 1, 2 and NONE otherwise, read back to the same position |
| EthDialog.EthernetDialog.OnProxyItemSelected | src/com/android/settings/ethernet/EthernetDialog.java:133-137 | the position is stored; the static fields are visible exactly at position 1 and the PAC field at position 2; the selected mode's view is created and filled from a stored proxy of the matching kind |
| EthDialog.EthernetDialog.OnManualClick | src/com/android/settings/ethernet/EthernetDialog.java:267-273 | STATIC, address layout shown, texts pre-filled |
| EthDialog.EthernetDialog.OnDhcpClick | src/com/android/settings/ethernet/EthernetDialog.java:274-279 | DHCP, address layout hidden |
| BatteryUsageRules.SlotInformation | src/com/android/settings/fuelgauge/batteryusage/BatteryChartPreferenceControllerV2.java:530-556 | null exactly when there is no data or everything is selected (`isAllSelected`) |
| BatteryUsageRules.SlotInRange | src/com/android/settings/fuelgauge/batteryusage/BatteryChartPreferenceControllerV2.java:530-556 | with indices inside the text lists the slot is a text, never an index exception |
| BatteryUsageRules.SlotWholeDay | src/com/android/settings/fuelgauge/batteryusage/BatteryChartPreferenceControllerV2.java:540-543 | a day with every hour selected is titled by its full day text |
| BatteryUsageRules.SlotHourRange | src/com/android/settings/fuelgauge/batteryusage/BatteryChartPreferenceControllerV2.java:545-555 | an hour is titled texts[h] + ("-" or " - ") + texts[h+1], prefixed by the day text and one space unless there is one day, with nothing else in the text |
| BatteryUsageRules.UsageTimeInfo | src/com/android/settings/fuelgauge/batteryusage/BatteryChartPreferenceControllerV2.java:590-605 | "less than a minute" exactly under a minute; the background flag picks the background texts; timed texts carry the time |
| BatteryUsageRules.PreferenceSummary | src/com/android/settings/fuelgauge/batteryusage/BatteryChartPreferenceControllerV2.java:559-588 | no summary exactly for a hidden package or a zero total; otherwise one or two lines |
| BatteryUsageRules.SummaryBackgroundFirst | src/com/android/settings/fuelgauge/batteryusage/BatteryChartPreferenceControllerV2.java:570-578 | the first line is a background text exactly when the foreground time is 0 and the background time is not; it is then the only line and carries the background time; otherwise it is the total |
| BatteryUsageRules.SummaryTwoLines | src/com/android/settings/fuelgauge/batteryusage/BatteryChartPreferenceControllerV2.java:579-586 | a second line appears exactly for a total of a minute or more with background time, and it is the background time |
| BatteryUsageRules.SaveIndices | src/com/android/settings/fuelgauge/batteryusage/BatteryChartPreferenceControllerV2.java:177-186 | the three keys are added and every other entry is kept |
| BatteryUsageRules.SaveThenRestore | src/com/android/settings/fuelgauge/batteryusage/BatteryChartPreferenceControllerV2.java:148-186 | restoring a saved bundle gives back the saved indices and flag, whatever the state is now |
| BatteryUsageRules.RestoreWithoutKeys | src/com/android/settings/fuelgauge/batteryusage/BatteryChartPreferenceControllerV2.java:148-160 | a bundle without the keys, or with values of another type, restores nothing |
| BatteryUsageRules.GetAppBatteryUsageData | src/com/android/settings/fuelgauge/batteryusage/BatteryChartPreferenceControllerV2.java:677-696 | null for a null package or null entries; otherwise the first UID-consumer entry of that user and package, or null when none matches |
| PreferenceList.FindPreference | src/com/android/settings/fuelgauge/batteryusage/BatteryChartPreferenceControllerV2.java:437 | the index of the first preference with the key, or -1 exactly when no preference has it |
| PreferenceList.Kept | src/com/android/settings/fuelgauge/batteryusage/BatteryChartPreferenceControllerV2.java:432-436 | the entries kept are exactly the entries of the list with a label and an icon |
| PreferenceList.PlaceEntryFacts | src/com/android/settings/fuelgauge/batteryusage/BatteryChartPreferenceControllerV2.java:429-463 | one iteration adds at most the entry's key, keeps keys distinct, advances the order once per kept entry, and caches every newly added key |
| PreferenceList.PlaceAllFacts | src/com/android/settings/fuelgauge/batteryusage/BatteryChartPreferenceControllerV2.java:424-465 | the group's keys become the old ones plus the kept entries'; keys stay distinct; one order per kept entry; new keys cached; other preferences untouched |
| PreferenceList.KeptEntriesShown | src/com/android/settings/fuelgauge/batteryusage/BatteryChartPreferenceControllerV2.java:424-465 | afterwards every kept entry's key is in the group |
| PreferenceList.PlaceAllFresh | src/com/android/settings/fuelgauge/batteryusage/BatteryChartPreferenceControllerV2.java:428-464 | kept entries with new, distinct keys are appended in order with consecutive orders from the group's size |
| PreferenceList.CacheAllKeys | src/com/android/settings/fuelgauge/batteryusage/BatteryChartPreferenceControllerV2.java:467-481 | the cache afterwards holds its old keys plus every non-empty key of the group |
| PreferenceList.CacheAllLast | src/com/android/settings/fuelgauge/batteryusage/BatteryChartPreferenceControllerV2.java:473-479 | a keyed preference that no later one shares its key with is what the cache holds under that key |
| PreferenceList.CacheAllOther | src/com/android/settings/fuelgauge/batteryusage/BatteryChartPreferenceControllerV2.java:473-479 | keys not in the group keep their cache entry or their absence |
| PreferenceList.RemoveFirstIsWithout | src/com/android/settings/fuelgauge/batteryusage/BatteryChartPreferenceControllerV2.java:492-496 | with distinct keys, removing the found preference removes every preference with that key |
| PreferenceList.CollapseAllGroup | src/com/android/settings/fuelgauge/batteryusage/BatteryChartPreferenceControllerV2.java:488-498 | collapsing leaves exactly the preferences whose key no system entry carries, in order, with keys still distinct |
| PreferenceList.CollapseAllCaches | src/com/android/settings/fuelgauge/batteryusage/BatteryChartPreferenceControllerV2.java:488-498 | every preference the collapse removes is in the cache under its key |
| PreferenceList.CollapseUntouched | src/com/android/settings/fuelgauge/batteryusage/BatteryChartPreferenceControllerV2.java:488-498 | the collapse never writes a cache key that is not in the group |
| PreferenceList.CollapseCacheGrows | src/com/android/settings/fuelgauge/batteryusage/BatteryChartPreferenceControllerV2.java:488-498 | the collapse loses no cached key |
| PreferenceList.AllPrefsShown | src/com/android/settings/fuelgauge/batteryusage/BatteryChartPreferenceControllerV2.java:394-421 | from an empty group: expanded shows the kept app and system keys plus the divider; collapsed shows the app keys and divider less the system keys; keys distinct unless the divider shares an app key |
| BatteryChartController.SlotData | src/com/android/settings/fuelgauge/batteryusage/BatteryChartPreferenceControllerV2.java:395-396 | a slot's data exists exactly when the map has the day and the hour, and it is the stored value |
| BatteryChartController.RebuiltKeepsCache | src/com/android/settings/fuelgauge/batteryusage/BatteryChartPreferenceControllerV2.java:375-381 | a rebuild loses no cached key and caches every keyed group preference; without slot data the group is empty; expanded, it shows exactly the kept entries and the divider |
| BatteryChartController.AllSlotAppEntries | src/com/android/settings/fuelgauge/batteryusage/BatteryChartPreferenceControllerV2.java:654-674 | entries exist exactly when there is history and usage data; they are the all/all slot's app entries, which the usage data must carry |
| BatteryChartController.FindAppBatteryUsage | src/com/android/settings/fuelgauge/batteryusage/BatteryChartPreferenceControllerV2.java:654-696 | null for a null package, no history or no usage data; otherwise the first app entry of the all/all slot matching package, user and UID consumer, or null when none matches |
| BatteryChartController.BatteryChartController.constructor | src/com/android/settings/fuelgauge/batteryusage/BatteryChartPreferenceControllerV2.java:93-125 | both indices ALL, collapsed, nothing loaded, empty group and cache, no footer added |
| BatteryChartController.BatteryChartController.OnCreate | src/com/android/settings/fuelgauge/batteryusage/BatteryChartPreferenceControllerV2.java:148-160 | the indices and flag become `RestoreIndices` of the bundle |
| BatteryChartController.BatteryChartController.OnSaveInstanceState | src/com/android/settings/fuelgauge/batteryusage/BatteryChartPreferenceControllerV2.java:177-186 | the written bundle restores exactly the current state under any later `onCreate`; no other entry changes |
| BatteryChartController.BatteryChartController.OnResume | src/com/android/settings/fuelgauge/batteryusage/BatteryChartPreferenceControllerV2.java:163-174 | the hour format is read again |
| BatteryChartController.BatteryChartController.OnDestroy | src/com/android/settings/fuelgauge/batteryusage/BatteryChartPreferenceControllerV2.java:189-198 | cache cleared, group emptied |
| BatteryChartController.BatteryChartController.AddFooterPreferenceIfNeeded | src/com/android/settings/fuelgauge/batteryusage/BatteryChartPreferenceControllerV2.java:612-622 | the first call with a footer titles and adds it; later calls change nothing; it is added at most once (`FooterValid`) |
| BatteryChartController.BatteryChartController.AddPreferenceToScreen | src/com/android/settings/fuelgauge/batteryusage/BatteryChartPreferenceControllerV2.java:424-465 | the loop leaves the group and cache of `Placed` (see `PlaceAllFacts`, `PlaceAllFresh`) |
| BatteryChartController.BatteryChartController.RemoveAndCacheAllPrefs | src/com/android/settings/fuelgauge/batteryusage/BatteryChartPreferenceControllerV2.java:467-481 | the group becomes empty and the cache `CacheAll` of the old group (see `CacheAllKeys`) |
| BatteryChartController.BatteryChartController.CollapseSystemEntries | src/com/android/settings/fuelgauge/batteryusage/BatteryChartPreferenceControllerV2.java:488-498 | the loop leaves the group and cache of `CollapseAll` (see `CollapseAllGroup`, `CollapseAllCaches`) |
| BatteryChartController.BatteryChartController.RefreshExpandUi | src/com/android/settings/fuelgauge/batteryusage/BatteryChartPreferenceControllerV2.java:483-499 | expanded adds the slot's system entries; collapsed removes and caches them |
| BatteryChartController.BatteryChartController.OnExpand | src/com/android/settings/fuelgauge/batteryusage/BatteryChartPreferenceControllerV2.java:252-259 | the flag is stored and the system entries are shown or hidden to match |
| BatteryChartController.BatteryChartController.AddSlotPreferences | src/com/android/settings/fuelgauge/batteryusage/BatteryChartPreferenceControllerV2.java:403-420 | app entries, then the divider at the group's size when there are system entries, then `refreshExpandUi`: the list of `AllPrefs` |
| BatteryChartController.BatteryChartController.AddAllPreferences | src/com/android/settings/fuelgauge/batteryusage/BatteryChartPreferenceControllerV2.java:394-421 | the footer is titled by whether the slot has items; a missing slot changes no list |
| BatteryChartController.BatteryChartController.RefreshCategoryTitle | src/com/android/settings/fuelgauge/batteryusage/BatteryChartPreferenceControllerV2.java:502-513 | the titles are built from the current slot information |
| BatteryChartController.BatteryChartController.RebuildList | src/com/android/settings/fuelgauge/batteryusage/BatteryChartPreferenceControllerV2.java:375-381 | the posted work leaves the list of `Rebuilt` for the selected slot, titles the footer by whether the slot has items if it was not added yet, and sets the titles from the slot information |
| BatteryChartController.BatteryChartController.ShowCharts | src/com/android/settings/fuelgauge/batteryusage/BatteryChartPreferenceControllerV2.java:352-372 | one day of data hides the daily chart and selects day 0; the hourly chart is hidden exactly for all days, else it shows the selected day's hours |
| BatteryChartController.BatteryChartController.RefreshUi | src/com/android/settings/fuelgauge/batteryusage/BatteryChartPreferenceControllerV2.java:340-384 | false and nothing changed without usage data or a chart view; false, with the daily chart hidden, the hourly one emptied and the list and titles left alone, without level data; otherwise true, with the charts showing the selection, the list rebuilt for the selected slot (`Rebuilt`) and the titles set from its slot information, and a footer not yet added titled by whether the slot has items (`RefreshedFrom`) |
| BatteryChartController.BatteryChartController.OnDailyChartSelect | src/com/android/settings/fuelgauge/batteryusage/BatteryChartPreferenceControllerV2.java:312-321 | the current day changes nothing; a new day resets the hour to ALL, is kept unless one-day data forces day 0, and leaves the list, titles and footer title as `refreshUi` does (`RefreshedFrom`: list, titles and footer title untouched without data or views, else rebuilt for the new slot) |
| BatteryChartController.BatteryChartController.OnHourlyChartSelect | src/com/android/settings/fuelgauge/batteryusage/BatteryChartPreferenceControllerV2.java:323-334 | the current hour changes nothing; otherwise the hour is stored, the day is left alone except for the one-day reset, and the list, titles and footer title are left as `refreshUi` does (`RefreshedFrom`) |
| BatteryChartController.BatteryChartController.SetBatteryChartView | src/com/android/settings/fuelgauge/batteryusage/BatteryChartPreferenceControllerV2.java:302-337 | new views are stored and the list, titles and footer title left as `refreshUi` does (`RefreshedFrom`); the same views change nothing |
| BatteryChartController.BatteryChartController.SetBatteryLevelData | src/com/android/settings/fuelgauge/batteryusage/BatteryChartPreferenceControllerV2.java:261-300 | the level data is stored. Without it, the footer is added titled as empty (if not added yet) and the list and titles are left alone; with it, the list, titles and footer title are left as `refreshUi` does (`RefreshedFrom`) |
| BatteryChartController.BatteryChartController.OnBatteryUsageMapLoaded | src/com/android/settings/fuelgauge/batteryusage/BatteryChartPreferenceControllerV2.java:267-270 | the usage data is stored; the list, titles and footer title are untouched while a view or the level data is missing, and otherwise rebuilt for the selected slot (`RefreshedFrom`) |

## Left out

- Views, dialogs and resources are reduced to booleans and values. Nothing models inflation, `LayoutParams` margins, Toast rendering (a shown message is appended to `messages`), resource strings and the exact title text (`titleSlot` records what the titles are built from), metrics logging, or `startBatteryDetailPage`.
- Handlers, the listener executor and `ensureRunningOnUiThread`: posted work runs at once, in order, on one thread. `removeCallbacksAndMessages` in `onDestroy` therefore has nothing to cancel.
- Foreign code is a function parameter or an input. `InetAddresses.parseNumericAddress`, `ProxySelector.validate`, `Uri.parse` and `ProxyUtils` are not modelled, and the `exclusionList` text is kept as typed. Nor are `EthernetManager.updateConfiguration` (a request appended to `requests`; it throws for a null interface name, which its parameter contract forbids), `DataProcessor`, `ConvertUtils` time texts, `StringUtil.formatElapsedTime` or `DateFormat.is24HourFormat`.
- Whether the active network is Ethernet (`isEthernetConnected`) is an input to `UpdateInfo` and `UpdateEthStatus`. `isEthernetAvailable` is computed from the manager's presence and the interface table.
- `ConnectivityManager` lookups that throw are an input flag (`infoThrows`). The flag covers an `EthernetInfo` built for a network without `NetworkInfo` or `NetworkCapabilities`. It also covers link properties with a null interface name: `NetworkInterface.getByName(null)` then throws inside the constructor, and `NetPlatform.LinkProperties.interfaceName` is never null in the model.
- `Integer.parseInt` accepts only ASCII digits; Java also accepts other Unicode decimal digits.
- `ArrayMap.keyAt(0)` is "some key of the map", not the hash order.
- EthDialog.EthernetDialog.SetStatic: a `LinkAddress` with a null address is taken to throw, which ends the save with failure. The multicast test (`NetPlatform.IsMulticast`) reads the first octet of the address's host text, which the platform parser gives in dotted form.
- EthInfo.EthernetInfo.GetEthInfo: null link-address, route or DNS lists inside non-null link properties are not modelled. The string fields only logged (`mIpAddresses`, `mRoutes`, `mType`, `mState`, `mBandwidth`, ...) are left out.
- EthDialog.EthernetDialog.ShowProxyFields: a stored proxy is copied into the views only when it is of the selected mode's kind. Java also copies the host, port and exclusion list of a PAC proxy, or the empty PAC URL of a direct one. Also, a spinner selection never re-fires `onItemSelected` in the model. Clicking a radio button checks it only through the platform, so `OnManualClick` and `OnDhcpClick` set both radio states explicitly.
- Preferences are values. In Java the group and the cache share preference objects, so updating a preference found in the group also changes its cached copy. The model does not track this. No later step reads such a stale copy without resetting its attributes first.
- PreferenceList.FindPreference searches the group's own list only. `PreferenceGroup.findPreference` also matches the group itself and nested groups.
- The group is an insertion-ordered list. Sorting by `order` for display is not modelled, nor are the icon, title, percent, enabled and single-line attributes set on a preference.
- BatteryChartController.AllSlotAppEntries and BatteryChartController.FindAppBatteryUsage require computed usage data to carry the all/all slot. The source looks that slot up without a null check and would throw otherwise; the usage data `DataProcessor` computes is taken to always carry it.
- BatteryChartController.SlotData: a missing day in the usage map is treated like a missing hour. In Java the first `get` then returns null and the second throws.
- BatteryChartController.BatteryChartController.ShowCharts: `mHourlyViewModels.get(mDailyChartIndex)` with an index outside the list throws in Java; the model records the selection without checking the index.
- BatteryChartController.BatteryChartController.RefreshExpandUi requires the selected slot's data to exist, because the source dereferences it without a check.
- BatteryChartController.BatteryChartController.OnExpand inherits that requirement from `RefreshExpandUi`, which it calls.
- BatteryUsageRules.GetAppBatteryUsageData: the null check on an entry's history entry is not modelled (entries always have one).
- BatteryUsageRules.PreferenceSummary: foreground plus background time is an unbounded sum, not a Java `long` that could overflow.
- `handlePreferenceTreeClick`, `displayPreference` and `BatteryDiffEntry.clearCache` (in `onResume` and `onDestroy`) are platform plumbing and are left out. `getPercentOfTotal` is floating point and is left out too.

=== FILE: battery_chart_controller.dfy ===
/**
 * BatteryChartPreferenceControllerV2: the chart selection (a day, an hour,
 * or all of them), the saved state, and the app list under the charts,
 * which every refresh rebuilds from the usage data of the selected slot.
 * The list is a value (a group and a cache of PreferenceList.Pref); the
 * controller's loops are proved against the functions of PreferenceList.
 */
module BatteryChartController {
  import opened JavaLang
  import opened BatteryUsageRules
  import opened PreferenceList

  /** The usage data, by daily index and then by hourly index. */
  type UsageMap = map<int, map<int, BatteryDiffData>>

  /**
   * mBatteryUsageMap.get(daily).get(hourly): the slot's data, or None when
   * the map, the day or the hour is missing.
   */
  function SlotData(m: Option<UsageMap>, daily: int, hourly: int): (r: Option<BatteryDiffData>)
    ensures r.Some? <==> m.Some? && daily in m.value && hourly in m.value[daily]
    ensures r.Some? ==> r.value == m.value[daily][hourly]
  {
    if m.Some? && daily in m.value && hourly in m.value[daily] then Some(m.value[daily][hourly]) else None
  }

  /**
   * What addAllPreferences passes to addFooterPreferenceIfNeeded: whether
   * the slot has data with at least one entry.
   */
  predicate ContainsItems(data: Option<BatteryDiffData>)
  {
    data.Some? && (data.value.appEntries != [] || data.value.systemEntries != [])
  }

  /**
   * The list after refreshUi's posted work: every keyed preference of the
   * group cached and the group emptied (removeAndCacheAllPrefs), then the
   * slot's preferences added (addAllPreferences) when the slot has data.
   */
  function Rebuilt(g: seq<Pref>, c: map<string, Pref>, data: Option<BatteryDiffData>, expanded: bool,
                   dividerKey: string, hidden: Option<string> -> bool): ListState
  {
    var c1 := CacheAll(c, g);
    if data.None? then ListState([], c1, 0) else AllPrefs([], c1, data.value, expanded, dividerKey, hidden)
  }

  /**
   * A rebuild loses no cached preference: the cache afterwards holds every
   * key it held and every non-empty key the group held. Without slot data
   * the group is empty; with it, expanded, the group shows exactly the kept
   * app and system entries and, when there are system entries, the divider.
   */
  lemma RebuiltKeepsCache(g: seq<Pref>, c: map<string, Pref>, data: Option<BatteryDiffData>, expanded: bool,
                          dividerKey: string, hidden: Option<string> -> bool)
    ensures var r := Rebuilt(g, c, data, expanded, dividerKey, hidden);
            && c.Keys + (KeysOf(g) - {""}) <= r.cache.Keys
            && (data.None? ==> r.group == [])
            && (data.Some? && expanded ==>
                  KeysOf(r.group) == EntryKeys(Kept(data.value.appEntries)) + EntryKeys(Kept(data.value.systemEntries))
                                     + (if data.value.systemEntries == [] then {} else {dividerKey}))
  {
    var c1 := CacheAll(c, g);
    CacheAllKeys(c, g);
    if data.Some? {
      var d := data.value;
      AllPrefsShown(c1, d, expanded, dividerKey, hidden);
      var s1 := Placed([], c1, d.appEntries, hidden);
      PlaceAllFacts(ListState([], c1, 0), d.appEntries, hidden);
      var g2 := if d.systemEntries == [] then s1.group else s1.group + [Divider(dividerKey, |s1.group|)];
      if expanded {
        PlaceAllFacts(ListState(g2, s1.cache, |g2|), d.systemEntries, hidden);
      } else {
        CollapseCacheGrows(ListState(g2, s1.cache, 0), d.systemEntries);
      }
    }
  }

  /**
   * getAppBatteryUsageData(context): None when there is no battery history
   * (null or empty) or the usage data could not be computed; otherwise the
   * app entries of the all/all slot. The slot is looked up without a null
   * check, so the source demands that computed usage data carries it.
   */
  function AllSlotAppEntries(historyEmpty: bool, usage: Option<UsageMap>): (r: Option<seq<BatteryDiffEntry>>)
    requires !historyEmpty && usage.Some? ==> SlotData(usage, SELECTED_INDEX_ALL, SELECTED_INDEX_ALL).Some?
    ensures r.Some? <==> !historyEmpty && usage.Some?
    ensures r.Some? ==> r.value == SlotData(usage, SELECTED_INDEX_ALL, SELECTED_INDEX_ALL).value.appEntries
  {
    if historyEmpty || usage.None? then None
    else Some(SlotData(usage, SELECTED_INDEX_ALL, SELECTED_INDEX_ALL).value.appEntries)
  }

  /**
   * getAppBatteryUsageData(context, packageName, userId) with the history
   * and usage data as inputs: the first app entry of the all/all slot that
   * belongs to the package and user as a UID consumer.
   */
  method FindAppBatteryUsage(historyEmpty: bool, usage: Option<UsageMap>, packageName: Option<string>, userId: int)
    returns (r: Option<BatteryDiffEntry>)
    requires !historyEmpty && usage.Some? ==> SlotData(usage, SELECTED_INDEX_ALL, SELECTED_INDEX_ALL).Some?
    ensures packageName.None? || historyEmpty || usage.None? ==> r.None?
    ensures packageName.Some? && !historyEmpty && usage.Some? ==>
              var es := SlotData(usage, SELECTED_INDEX_ALL, SELECTED_INDEX_ALL).value.appEntries;
              && (r.None? ==> forall i :: 0 <= i < |es| ==> !MatchesApp(es[i], packageName.value, userId))
              && (r.Some? ==> exists i :: && 0 <= i < |es| && es[i] == r.value
                                          && MatchesApp(r.value, packageName.value, userId)
                                          && forall j :: 0 <= j < i ==> !MatchesApp(es[j], packageName.value, userId))
  {
    if packageName.None? {
      return None;
    }
    var entries := AllSlotAppEntries(historyEmpty, usage);
    r := GetAppBatteryUsageData(entries, packageName, userId);
  }

  /** The hourly chart's view model: the day it belongs to and the hour it selects. */
  datatype HourlyModel = HourlyModel(day: int, selected: int)

  class BatteryChartController {
    var dailyChartIndex: int
    var hourlyChartIndex: int
    var isExpanded: bool
    var is24HourFormat: bool

    /** The battery level data; None stands for the three null view-model fields. */
    var levelData: Option<ChartData>
    var usageMap: Option<UsageMap>

    /** The two chart views, by identity; None until setBatteryChartView's posted work ran. */
    var dailyView: Option<int>
    var hourlyView: Option<int>
    var dailyChartVisible: bool
    var hourlyChartVisible: bool
    /** The index the daily view model selects, once shown. */
    var dailyViewSelected: Option<int>
    /** The hourly view model the hourly chart shows; None after setViewModel(null). */
    var hourlyViewModel: Option<HourlyModel>

    var group: seq<Pref>
    var cache: map<string, Pref>
    /** The expand divider's key, and whether it exists (with the expanded state it was created with). */
    const dividerKey: string
    var dividerCreated: Option<bool>
    /** The slot information the category and divider titles were last built from. */
    var titleSlot: Option<Slot>

    /** Whether the screen has a footer preference. */
    const hasFooter: bool
    var isFooterPrefAdded: bool
    /** The footer's title: whether it was set for a list with items. */
    var footerTitle: Option<bool>
    /** How many times the footer was added to the screen. */
    var footerAdds: nat

    /** isValidToShowSummary's complement: the packages whose summary is hidden. */
    const hidden: Option<string> -> bool

    /** The footer is added at most once, and only when it exists and was flagged added. */
    predicate FooterValid()
      reads this`isFooterPrefAdded, this`footerTitle, this`footerAdds
    {
      && (isFooterPrefAdded ==> hasFooter)
      && footerAdds == (if isFooterPrefAdded then 1 else 0)
      && (footerTitle.Some? <==> isFooterPrefAdded)
    }

    function Indices(): ChartIndices
      reads this`dailyChartIndex, this`hourlyChartIndex, this`isExpanded
    {
      ChartIndices(dailyChartIndex, hourlyChartIndex, isExpanded)
    }

    /** refreshUi can do anything only once the usage data and both chart views are there. */
    predicate CanRefresh()
      reads this`usageMap, this`dailyView, this`hourlyView
    {
      usageMap.Some? && dailyView.Some? && hourlyView.Some?
    }

    /** The data of the selected slot. */
    function SelectedData(): Option<BatteryDiffData>
      reads this`usageMap, this`dailyChartIndex, this`hourlyChartIndex
    {
      SlotData(usageMap, dailyChartIndex, hourlyChartIndex)
    }

    /**
     * What refreshUi leaves behind, given the list, cache, title slot and
     * footer title it started from: all four untouched until the usage data
     * and both views exist, and untouched with the daily chart hidden and the
     * hourly one emptied when there is no level data; otherwise the charts
     * show the selection, the list is rebuilt for the selected slot under its
     * title, and a footer not yet added is titled by whether the slot has
     * items.
     */
    predicate RefreshedFrom(g0: seq<Pref>, c0: map<string, Pref>, t0: Option<Slot>, ft0: Option<bool>)
      reads this
    {
      if !CanRefresh() || levelData.None? then
        && group == g0 && cache == c0 && titleSlot == t0 && footerTitle == ft0
        && (CanRefresh() ==> !dailyChartVisible && hourlyViewModel.None?)
      else
        var r := Rebuilt(g0, c0, SelectedData(), isExpanded, dividerKey, hidden);
        && group == r.group && cache == r.cache
        && titleSlot == Some(SlotInformation(levelData, dailyChartIndex, hourlyChartIndex, is24HourFormat))
        && footerTitle == (if ft0.None? && hasFooter then Some(ContainsItems(SelectedData())) else ft0)
        && (InOneDay(levelData) ==> dailyChartIndex == 0 && !dailyChartVisible)
        && (!InOneDay(levelData) ==> dailyChartVisible)
        && (dailyChartIndex == SELECTED_INDEX_ALL <==> !hourlyChartVisible)
        && (dailyChartIndex != SELECTED_INDEX_ALL ==>
              hourlyViewModel == Some(HourlyModel(dailyChartIndex, hourlyChartIndex)))
    }

    /** A controller after displayPreference: everything selected, nothing loaded, an empty list. */
    constructor(dividerKey: string, hasFooter: bool, hidden: Option<string> -> bool, is24HourFormat: bool)
      ensures Indices() == ChartIndices(SELECTED_INDEX_ALL, SELECTED_INDEX_ALL, false)
      ensures levelData.None? && usageMap.None? && dailyView.None? && hourlyView.None?
      ensures group == [] && cache == map[] && dividerCreated.None? && titleSlot.None?
      ensures this.dividerKey == dividerKey && this.hasFooter == hasFooter && this.hidden == hidden
      ensures this.is24HourFormat == is24HourFormat
      ensures !isFooterPrefAdded && FooterValid()
    {
      dailyChartIndex := SELECTED_INDEX_ALL;
      hourlyChartIndex := SELECTED_INDEX_ALL;
      isExpanded := false;
      this.is24HourFormat := is24HourFormat;
      levelData := None;
      usageMap := None;
      dailyView := None;
      hourlyView := None;
      dailyChartVisible := true;
      hourlyChartVisible := true;
      dailyViewSelected := None;
      hourlyViewModel := None;
      group := [];
      cache := map[];
      this.dividerKey := dividerKey;
      dividerCreated := None;
      titleSlot := None;
      this.hasFooter := hasFooter;
      isFooterPrefAdded := false;
      footerTitle := None;
      footerAdds := 0;
      this.hidden := hidden;
    }

    /** onCreate: the indices and the expanded flag restored from the bundle, if any. */
    method OnCreate(savedInstanceState: Option<Bundle>)
      modifies this`dailyChartIndex, this`hourlyChartIndex, this`isExpanded
      ensures Indices() == RestoreIndices(savedInstanceState, old(Indices()))
    {
      if savedInstanceState.None? {
        return;
      }
      var b := savedInstanceState.value;
      dailyChartIndex := GetInt(b, KEY_DAILY_CHART_INDEX, dailyChartIndex);
      hourlyChartIndex := GetInt(b, KEY_HOURLY_CHART_INDEX, hourlyChartIndex);
      isExpanded := GetBoolean(b, KEY_EXPAND_SYSTEM_INFO, isExpanded);
    }

    /**
     * onSaveInstanceState: the bundle, if any, with the state written into
     * it, so that any later onCreate restores exactly this state; no other
     * entry of the bundle changes.
     */
    method OnSaveInstanceState(savedInstance: Option<Bundle>) returns (r: Option<Bundle>)
      ensures r.Some? <==> savedInstance.Some?
      ensures forall current :: r.Some? ==> RestoreIndices(r, current) == Indices()
      ensures r.Some? ==> forall k :: k in savedInstance.value ==> k in r.value
      ensures r.Some? ==>
                forall k :: k in savedInstance.value && k !in {KEY_DAILY_CHART_INDEX, KEY_HOURLY_CHART_INDEX, KEY_EXPAND_SYSTEM_INFO} ==>
                  r.value[k] == savedInstance.value[k]
    {
      if savedInstance.None? {
        return None;
      }
      r := Some(SaveIndices(savedInstance.value, Indices()));
      forall current
        ensures RestoreIndices(r, current) == Indices()
      {
        SaveThenRestore(savedInstance.value, Indices(), current);
      }
    }

    /** onResume: the hour format read again. */
    method OnResume(is24HourFormat: bool)
      modifies this`is24HourFormat
      ensures this.is24HourFormat == is24HourFormat
    {
      this.is24HourFormat := is24HourFormat;
    }

    /** onDestroy: the cache cleared and the group emptied. */
    method OnDestroy()
      modifies this`cache, this`group
      ensures cache == map[] && group == []
    {
      cache := map[];
      group := [];
    }

    /**
     * addFooterPreferenceIfNeeded: the first call with a footer present
     * titles it by whether the list has items and adds it to the screen;
     * every other call changes nothing.
     */
    method AddFooterPreferenceIfNeeded(containAppItems: bool)
      requires FooterValid()
      modifies this`isFooterPrefAdded, this`footerTitle, this`footerAdds
      ensures FooterValid()
      ensures old(isFooterPrefAdded) || !hasFooter ==>
                isFooterPrefAdded == old(isFooterPrefAdded) && footerTitle == old(footerTitle)
      ensures !old(isFooterPrefAdded) && hasFooter ==> isFooterPrefAdded && footerTitle == Some(containAppItems)
    {
      if isFooterPrefAdded || !hasFooter {
        return;
      }
      isFooterPrefAdded := true;
      footerTitle := Some(containAppItems);
      footerAdds := footerAdds + 1;
    }

    /**
     * addPreferenceToScreen: each entry with a label and an icon gets a
     * preference at the next order, updating the one already in the group
     * under its key, or appended and cached.
     */
    method AddPreferenceToScreen(entries: seq<BatteryDiffEntry>)
      modifies this`group, this`cache
      ensures var r := Placed(old(group), old(cache), entries, hidden);
              group == r.group && cache == r.cache
    {
      if entries == [] {
        return;
      }
      ghost var init := ListState(group, cache, |group|);
      var prefIndex := |group|;
      var i := 0;
      while i < |entries|
        invariant 0 <= i <= |entries|
        invariant PlaceAll(init, entries, hidden) == PlaceAll(ListState(group, cache, prefIndex), entries[i..], hidden)
      {
        ghost var s := ListState(group, cache, prefIndex);
        var entry := entries[i];
        assert entries[i..][1..] == entries[i + 1..];
        if HasResources(entry) {
          var pref := PrefFor(entry, prefIndex, hidden);
          var j := FindPreference(group, pref.key);
          if j >= 0 {
            group := group[j := pref];
          } else {
            cache := cache[pref.key := pref];
            group := group + [pref];
          }
          prefIndex := prefIndex + 1;
        }
        assert ListState(group, cache, prefIndex) == PlaceEntry(s, entry, hidden);
        i := i + 1;
      }
      assert entries[|entries|..] == [];
    }

    /** removeAndCacheAllPrefs: every keyed preference of the group cached, then the group emptied. */
    method RemoveAndCacheAllPrefs()
      modifies this`group, this`cache
      ensures group == [] && cache == CacheAll(old(cache), old(group))
    {
      if group == [] {
        return;
      }
      var index := 0;
      while index < |group|
        invariant 0 <= index <= |group| && group == old(group)
        invariant cache == CacheAll(old(cache), group[..index])
      {
        var pref := group[index];
        assert group[..index + 1][..index] == group[..index];
        if pref.key != "" {
          cache := cache[pref.key := pref];
        }
        index := index + 1;
      }
      assert group[..|group|] == group;
      group := [];
    }

    /**
     * The collapsed branch of refreshExpandUi: the preference of each system
     * entry, if in the group, removed from it and cached.
     */
    method CollapseSystemEntries(entries: seq<BatteryDiffEntry>)
      modifies this`group, this`cache
      ensures var r := CollapseAll(ListState(old(group), old(cache), 0), entries);
              group == r.group && cache == r.cache
    {
      ghost var init := ListState(group, cache, 0);
      var i := 0;
      while i < |entries|
        invariant 0 <= i <= |entries|
        invariant CollapseAll(init, entries) == CollapseAll(ListState(group, cache, 0), entries[i..])
      {
        ghost var s := ListState(group, cache, 0);
        assert entries[i..][1..] == entries[i + 1..];
        var j := FindPreference(group, EntryKey(entries[i]));
        if j >= 0 {
          var pref := group[j];
          group := group[..j] + group[j + 1..];
          cache := cache[pref.key := pref];
        }
        assert ListState(group, cache, 0) == RemoveEntry(s, entries[i]);
        i := i + 1;
      }
      assert entries[|entries|..] == [];
    }

    /**
     * refreshExpandUi: the selected slot's system entries shown when
     * expanded and hidden when collapsed. The source dereferences the slot's
     * data without a check, so it must exist.
     */
    method RefreshExpandUi()
      requires SelectedData().Some?
      modifies this`group, this`cache
      ensures var es := SelectedData().value.systemEntries;
              var r := if isExpanded then Placed(old(group), old(cache), es, hidden)
                       else CollapseAll(ListState(old(group), old(cache), 0), es);
              group == r.group && cache == r.cache
    {
      var systemEntries := SelectedData().value.systemEntries;
      if isExpanded {
        AddPreferenceToScreen(systemEntries);
      } else {
        CollapseSystemEntries(systemEntries);
      }
    }

    /** onExpand: the flag stored and the system entries shown or hidden to match. */
    method OnExpand(expanded: bool)
      requires SelectedData().Some?
      modifies this`isExpanded, this`group, this`cache
      ensures isExpanded == expanded
      ensures var es := SelectedData().value.systemEntries;
              var r := if expanded then Placed(old(group), old(cache), es, hidden)
                       else CollapseAll(ListState(old(group), old(cache), 0), es);
              group == r.group && cache == r.cache
    {
      isExpanded := expanded;
      RefreshExpandUi();
    }

    /**
     * addAllPreferences once the slot's data exists: its app entries, the
     * divider (created on first use) when there are system entries, and
     * refreshExpandUi.
     */
    method AddSlotPreferences(data: BatteryDiffData)
      requires SelectedData() == Some(data)
      modifies this`group, this`cache, this`dividerCreated
      ensures var r := AllPrefs(old(group), old(cache), data, isExpanded, dividerKey, hidden);
              group == r.group && cache == r.cache
      ensures data.systemEntries != [] ==> dividerCreated.Some?
      ensures old(dividerCreated).Some? ==> dividerCreated == old(dividerCreated)
    {
      ghost var s1 := Placed(group, cache, data.appEntries, hidden);
      if data.appEntries != [] {
        AddPreferenceToScreen(data.appEntries);
      }
      assert group == s1.group && cache == s1.cache;
      if data.systemEntries != [] {
        if dividerCreated.None? {
          dividerCreated := Some(isExpanded);
        }
        group := group + [Divider(dividerKey, |group|)];
      }
      RefreshExpandUi();
    }

    /**
     * addAllPreferences: the footer titled by whether the slot has items;
     * then, when the slot has data, its preferences.
     */
    method AddAllPreferences()
      requires FooterValid()
      modifies this`group, this`cache, this`dividerCreated, this`isFooterPrefAdded, this`footerTitle, this`footerAdds
      ensures FooterValid()
      ensures old(isFooterPrefAdded) || !hasFooter ==>
                isFooterPrefAdded == old(isFooterPrefAdded) && footerTitle == old(footerTitle)
      ensures !old(isFooterPrefAdded) && hasFooter ==> footerTitle == Some(ContainsItems(SelectedData()))
      ensures SelectedData().None? ==> group == old(group) && cache == old(cache)
      ensures SelectedData().Some? ==>
                var r := AllPrefs(old(group), old(cache), SelectedData().value, isExpanded, dividerKey, hidden);
                group == r.group && cache == r.cache
    {
      var data := SelectedData();
      AddFooterPreferenceIfNeeded(ContainsItems(data));
      if data.Some? {
        AddSlotPreferences(data.value);
      }
    }

    /** refreshCategoryTitle: the titles rebuilt from the current slot information. */
    method RefreshCategoryTitle()
      modifies this`titleSlot
      ensures titleSlot == Some(SlotInformation(levelData, dailyChartIndex, hourlyChartIndex, is24HourFormat))
    {
      titleSlot := Some(SlotInformation(levelData, dailyChartIndex, hourlyChartIndex, is24HourFormat));
    }

    /** The work refreshUi posts: the list rebuilt for the selected slot, then the titles. */
    method RebuildList()
      requires FooterValid()
      modifies this`group, this`cache, this`dividerCreated, this`isFooterPrefAdded, this`footerTitle,
               this`footerAdds, this`titleSlot
      ensures FooterValid()
      ensures old(isFooterPrefAdded) || !hasFooter ==>
                isFooterPrefAdded == old(isFooterPrefAdded) && footerTitle == old(footerTitle)
      ensures !old(isFooterPrefAdded) && hasFooter ==> footerTitle == Some(ContainsItems(SelectedData()))
      ensures var r := Rebuilt(old(group), old(cache), SelectedData(), isExpanded, dividerKey, hidden);
              group == r.group && cache == r.cache
      ensures titleSlot == Some(SlotInformation(levelData, dailyChartIndex, hourlyChartIndex, is24HourFormat))
    {
      RemoveAndCacheAllPrefs();
      AddAllPreferences();
      RefreshCategoryTitle();
    }

    /**
     * The chart part of refreshUi once the level data exists: with one day
     * of data the daily chart is hidden and day 0 selected, otherwise it
     * shows the selected day; the hourly chart shows the selected day's
     * hours unless every day is selected.
     */
    method ShowCharts()
      requires levelData.Some?
      modifies this`dailyChartIndex, this`dailyChartVisible, this`hourlyChartVisible,
               this`dailyViewSelected, this`hourlyViewModel
      ensures InOneDay(levelData) ==> dailyChartIndex == 0 && !dailyChartVisible && dailyViewSelected == old(dailyViewSelected)
      ensures !InOneDay(levelData) ==>
                dailyChartIndex == old(dailyChartIndex) && dailyChartVisible && dailyViewSelected == Some(dailyChartIndex)
      ensures dailyChartIndex == SELECTED_INDEX_ALL ==> !hourlyChartVisible && hourlyViewModel == old(hourlyViewModel)
      ensures dailyChartIndex != SELECTED_INDEX_ALL ==>
                hourlyChartVisible && hourlyViewModel == Some(HourlyModel(dailyChartIndex, hourlyChartIndex))
    {
      if InOneDay(levelData) {
        dailyChartVisible := false;
        dailyChartIndex := 0;
      } else {
        dailyChartVisible := true;
        dailyViewSelected := Some(dailyChartIndex);
      }
      if dailyChartIndex == SELECTED_INDEX_ALL {
        hourlyChartVisible := false;
      } else {
        hourlyChartVisible := true;
        hourlyViewModel := Some(HourlyModel(dailyChartIndex, hourlyChartIndex));
      }
    }

    /**
     * refreshUi: nothing until the usage data and both chart views exist;
     * without level data the daily chart is hidden and the hourly one
     * emptied; otherwise the charts are updated and the list rebuilt for the
     * selected slot. The result says whether the list was rebuilt.
     */
    method RefreshUi() returns (ok: bool)
      requires FooterValid()
      modifies this`dailyChartIndex, this`dailyChartVisible, this`hourlyChartVisible, this`dailyViewSelected,
               this`hourlyViewModel, this`group, this`cache, this`dividerCreated, this`isFooterPrefAdded,
               this`footerTitle, this`footerAdds, this`titleSlot
      ensures FooterValid()
      ensures old(isFooterPrefAdded) ==> isFooterPrefAdded && footerTitle == old(footerTitle)
      ensures ok <==> CanRefresh() && levelData.Some?
      ensures !CanRefresh() ==> unchanged(this)
      ensures CanRefresh() && levelData.None? ==>
                && !dailyChartVisible && hourlyViewModel.None?
                && dailyChartIndex == old(dailyChartIndex) && group == old(group) && cache == old(cache)
                && footerTitle == old(footerTitle) && titleSlot == old(titleSlot)
                && hourlyChartVisible == old(hourlyChartVisible) && dailyViewSelected == old(dailyViewSelected)
                && dividerCreated == old(dividerCreated)
      ensures ok ==>
                && (InOneDay(levelData) ==> dailyChartIndex == 0 && !dailyChartVisible)
                && (!InOneDay(levelData) ==> dailyChartIndex == old(dailyChartIndex) && dailyChartVisible)
                && (dailyChartIndex == SELECTED_INDEX_ALL <==> !hourlyChartVisible)
                && (dailyChartIndex != SELECTED_INDEX_ALL ==>
                      hourlyViewModel == Some(HourlyModel(dailyChartIndex, hourlyChartIndex)))
      ensures ok ==> var r := Rebuilt(old(group), old(cache), SelectedData(), isExpanded, dividerKey, hidden);
                     group == r.group && cache == r.cache
      ensures ok ==> titleSlot == Some(SlotInformation(levelData, dailyChartIndex, hourlyChartIndex, is24HourFormat))
      ensures ok ==> footerTitle == (if old(footerTitle).None? && hasFooter then Some(ContainsItems(SelectedData()))
                                     else old(footerTitle))
      ensures RefreshedFrom(old(group), old(cache), old(titleSlot), old(footerTitle))
    {
      if !CanRefresh() {
        return false;
      }
      if levelData.None? {
        dailyChartVisible := false;
        hourlyViewModel := None;
        return false;
      }
      ShowCharts();
      RebuildList();
      ok := true;
    }

    /** The daily chart's listener: a new day selects all its hours and refreshes. */
    method OnDailyChartSelect(trapezoidIndex: int)
      requires FooterValid()
      modifies this`dailyChartIndex, this`hourlyChartIndex, this`dailyChartVisible, this`hourlyChartVisible,
               this`dailyViewSelected, this`hourlyViewModel, this`group, this`cache, this`dividerCreated,
               this`isFooterPrefAdded, this`footerTitle, this`footerAdds, this`titleSlot
      ensures FooterValid()
      ensures trapezoidIndex == old(dailyChartIndex) ==> unchanged(this)
      ensures trapezoidIndex != old(dailyChartIndex) ==> hourlyChartIndex == SELECTED_INDEX_ALL
      ensures trapezoidIndex != old(dailyChartIndex) && !(CanRefresh() && InOneDay(levelData)) ==>
                dailyChartIndex == trapezoidIndex
      ensures trapezoidIndex != old(dailyChartIndex) ==> RefreshedFrom(old(group), old(cache), old(titleSlot), old(footerTitle))
    {
      if dailyChartIndex == trapezoidIndex {
        return;
      }
      dailyChartIndex := trapezoidIndex;
      hourlyChartIndex := SELECTED_INDEX_ALL;
      var _ := RefreshUi();
    }

    /** The hourly chart's listener: a new hour is selected and the screen refreshed. */
    method OnHourlyChartSelect(trapezoidIndex: int)
      requires FooterValid()
      modifies this`hourlyChartIndex, this`dailyChartIndex, this`dailyChartVisible, this`hourlyChartVisible,
               this`dailyViewSelected, this`hourlyViewModel, this`group, this`cache, this`dividerCreated,
               this`isFooterPrefAdded, this`footerTitle, this`footerAdds, this`titleSlot
      ensures FooterValid()
      ensures trapezoidIndex == old(hourlyChartIndex) ==> unchanged(this)
      ensures hourlyChartIndex == trapezoidIndex
      ensures !(CanRefresh() && InOneDay(levelData)) ==> dailyChartIndex == old(dailyChartIndex)
      ensures trapezoidIndex != old(hourlyChartIndex) ==> RefreshedFrom(old(group), old(cache), old(titleSlot), old(footerTitle))
    {
      if hourlyChartIndex == trapezoidIndex {
        return;
      }
      hourlyChartIndex := trapezoidIndex;
      var _ := RefreshUi();
    }

    /**
     * setBatteryChartView: when either view is new, the views are stored and
     * the screen refreshed (the posted work runs at once).
     */
    method SetBatteryChartView(daily: int, hourly: int)
      requires FooterValid()
      modifies this`dailyView, this`hourlyView, this`dailyChartIndex, this`dailyChartVisible,
               this`hourlyChartVisible, this`dailyViewSelected, this`hourlyViewModel, this`group, this`cache,
               this`dividerCreated, this`isFooterPrefAdded, this`footerTitle, this`footerAdds, this`titleSlot
      ensures FooterValid()
      ensures dailyView == Some(daily) && hourlyView == Some(hourly)
      ensures old(dailyView) == Some(daily) && old(hourlyView) == Some(hourly) ==> unchanged(this)
      ensures old(dailyView) != Some(daily) || old(hourlyView) != Some(hourly) ==>
                RefreshedFrom(old(group), old(cache), old(titleSlot), old(footerTitle))
    {
      if dailyView != Some(daily) || hourlyView != Some(hourly) {
        dailyView := Some(daily);
        hourlyView := Some(hourly);
        var _ := RefreshUi();
      }
    }

    /**
     * setBatteryHistoryMap once DataProcessor has computed the level data:
     * without it the footer is added as empty and nothing refreshed;
     * with it the screen is refreshed.
     */
    method SetBatteryLevelData(level: Option<ChartData>)
      requires FooterValid()
      modifies this`levelData, this`dailyChartIndex, this`dailyChartVisible, this`hourlyChartVisible,
               this`dailyViewSelected, this`hourlyViewModel, this`group, this`cache, this`dividerCreated,
               this`isFooterPrefAdded, this`footerTitle, this`footerAdds, this`titleSlot
      ensures FooterValid()
      ensures levelData == level
      ensures level.None? && !old(isFooterPrefAdded) && hasFooter ==> footerTitle == Some(false)
      ensures level.None? ==> group == old(group) && cache == old(cache) && titleSlot == old(titleSlot)
      ensures level.Some? ==> RefreshedFrom(old(group), old(cache), old(titleSlot), old(footerTitle))
    {
      levelData := level;
      if level.None? {
        AddFooterPreferenceIfNeeded(false);
        return;
      }
      var _ := RefreshUi();
    }

    /** The callback DataProcessor calls with the usage data: stored, then the screen refreshed. */
    method OnBatteryUsageMapLoaded(m: Option<UsageMap>)
      requires FooterValid()
      modifies this`usageMap, this`dailyChartIndex, this`dailyChartVisible, this`hourlyChartVisible,
               this`dailyViewSelected, this`hourlyViewModel, this`group, this`cache, this`dividerCreated,
               this`isFooterPrefAdded, this`footerTitle, this`footerAdds, this`titleSlot
      ensures FooterValid()
      ensures usageMap == m
      ensures m.Some? && dailyView.Some? && hourlyView.Some? && levelData.Some? ==>
                var r := Rebuilt(old(group), old(cache), SelectedData(), isExpanded, dividerKey, hidden);
                group == r.group && cache == r.cache
      ensures RefreshedFrom(old(group), old(cache), old(titleSlot), old(footerTitle))
    {
      usageMap := m;
      var _ := RefreshUi();
    }
  }
}

=== FILE: battery_usage_rules.dfy ===
/**
 * The pure rules of the battery-usage list controller: which chart slot is
 * selected and how it is titled, the usage summary under each app, the
 * saved-state bundle, and the search for one app's usage entry.
 */
module BatteryUsageRules {
  import opened JavaLang

  /** BatteryChartViewModel.SELECTED_INDEX_ALL: no single slot is selected. */
  const SELECTED_INDEX_ALL: int := -1
  /** DateUtils.MINUTE_IN_MILLIS. */
  const MINUTE_IN_MILLIS: int := 60000
  /** ConvertUtils.CONSUMER_TYPE_UID_BATTERY. */
  const CONSUMER_TYPE_UID_BATTERY: int := 1

  /** The fields of a BatteryHistEntry the controller reads. */
  datatype BatteryHistEntry = BatteryHistEntry(
    packageName: Option<string>, userId: int, consumerType: int, key: string)

  /**
   * A BatteryDiffEntry: its history entry, the package name getPackageName()
   * reports, the label and whether an icon was found, and its usage times.
   */
  datatype BatteryDiffEntry = BatteryDiffEntry(
    hist: BatteryHistEntry, packageName: Option<string>,
    appLabel: Option<string>, hasIcon: bool,
    foregroundUsageTimeInMs: int, backgroundUsageTimeInMs: int)

  /** The usage of one slot: the app entries and the system entries. */
  datatype BatteryDiffData = BatteryDiffData(appEntries: seq<BatteryDiffEntry>, systemEntries: seq<BatteryDiffEntry>)

  /**
   * The battery level data once loaded: the full day-of-week text of each
   * day, and the hour texts of each day's hourly chart (one hourly view
   * model per day).
   */
  datatype ChartData = ChartData(dailyFullTexts: seq<string>, hourlyTexts: seq<seq<string>>)

  /** isBatteryLevelDataInOneDay: exactly one hourly view model. */
  predicate InOneDay(data: Option<ChartData>)
  {
    data.Some? && |data.value.hourlyTexts| == 1
  }

  /** isAllSelected: (one day of data, or every day) and every hour. */
  predicate IsAllSelected(data: Option<ChartData>, daily: int, hourly: int)
  {
    (InOneDay(data) || daily == SELECTED_INDEX_ALL) && hourly == SELECTED_INDEX_ALL
  }

  /**
   * What getSlotInformation yields: null (no data, or everything selected),
   * a slot text, or the IndexOutOfBoundsException of a list lookup.
   */
  datatype Slot = NoSlot | SlotText(text: string) | SlotIndexOutOfBounds

  function HourSeparator(is24HourFormat: bool): string
  {
    if is24HourFormat then "-" else " - "
  }

  /** The text of the hour range starting at `hourly` of day `daily`. */
  function HourRange(c: ChartData, daily: int, hourly: int, is24HourFormat: bool): string
    requires 0 <= daily < |c.hourlyTexts| && 0 <= hourly && hourly + 1 < |c.hourlyTexts[daily]|
  {
    c.hourlyTexts[daily][hourly] + HourSeparator(is24HourFormat) + c.hourlyTexts[daily][hourly + 1]
  }

  /**
   * getSlotInformation: the selected day's full text; for a selected hour,
   * the range from its text to the next one's, after the day text and a
   * space unless there is only one day.
   */
  function SlotInformation(data: Option<ChartData>, daily: int, hourly: int, is24HourFormat: bool): (r: Slot)
    ensures r == NoSlot <==> data.None? || IsAllSelected(data, daily, hourly)
  {
    if data.None? || IsAllSelected(data, daily, hourly) then NoSlot
    else
      var c := data.value;
      if daily < 0 || daily >= |c.dailyFullTexts| then SlotIndexOutOfBounds
      else if hourly == SELECTED_INDEX_ALL then SlotText(c.dailyFullTexts[daily])
      else if daily >= |c.hourlyTexts| || hourly < 0 || hourly + 1 >= |c.hourlyTexts[daily]| then SlotIndexOutOfBounds
      else
        var hour := HourRange(c, daily, hourly, is24HourFormat);
        if InOneDay(data) then SlotText(hour)
        else SlotText(c.dailyFullTexts[daily] + " " + hour)
  }

  /** Indices inside the lists never make getSlotInformation throw. */
  lemma SlotInRange(data: Option<ChartData>, daily: int, hourly: int, is24HourFormat: bool)
    requires data.Some? && !IsAllSelected(data, daily, hourly)
    requires 0 <= daily < |data.value.dailyFullTexts| && daily < |data.value.hourlyTexts|
    requires hourly == SELECTED_INDEX_ALL || (0 <= hourly && hourly + 1 < |data.value.hourlyTexts[daily]|)
    ensures SlotInformation(data, daily, hourly, is24HourFormat).SlotText?
  {
  }

  /**
   * With a day but no hour selected, the slot is that day's full text, and
   * that case only arises with more than one day.
   */
  lemma SlotWholeDay(data: Option<ChartData>, daily: int, is24HourFormat: bool)
    requires data.Some? && 0 <= daily < |data.value.dailyFullTexts|
    requires !IsAllSelected(data, daily, SELECTED_INDEX_ALL)
    ensures !InOneDay(data)
    ensures SlotInformation(data, daily, SELECTED_INDEX_ALL, is24HourFormat) == SlotText(data.value.dailyFullTexts[daily])
  {
  }

  /**
   * With an hour selected, the slot text ends with the hour range; it is
   * longer than the range exactly when there is more than one day, and then
   * it is the day's full text, one space, and the range.
   */
  lemma SlotHourRange(data: Option<ChartData>, daily: int, hourly: int, is24HourFormat: bool)
    requires data.Some? && 0 <= daily < |data.value.dailyFullTexts| && daily < |data.value.hourlyTexts|
    requires 0 <= hourly && hourly + 1 < |data.value.hourlyTexts[daily]|
    ensures var r := SlotInformation(data, daily, hourly, is24HourFormat);
            var hour := HourRange(data.value, daily, hourly, is24HourFormat);
            var day := data.value.dailyFullTexts[daily];
            && r.SlotText? && |r.text| >= |hour|
            && r.text[|r.text| - |hour|..] == hour
            && (|r.text| > |hour| <==> !InOneDay(data))
            && (!InOneDay(data) ==> r.text[..|day|] == day)
            && (!InOneDay(data) ==> |r.text| == |day| + 1 + |hour| && r.text[|day|] == ' ')
  {
    var r := SlotInformation(data, daily, hourly, is24HourFormat);
    var hour := HourRange(data.value, daily, hourly, is24HourFormat);
    var day := data.value.dailyFullTexts[daily];
    if !InOneDay(data) {
      assert r.text == (day + " ") + hour;
      assert r.text[|r.text| - |hour|..] == hour;
      assert r.text[..|day|] == day;
    }
  }

  /** The texts buildUsageTimeInfo produces: "less than a minute", or the formatted time. */
  datatype UsageText =
    | TotalLessThanOneMinute | BackgroundLessThanOneMinute
    | TotalTime(ms: int) | BackgroundTime(ms: int)

  predicate IsBackgroundText(u: UsageText)
  {
    u == BackgroundLessThanOneMinute || u.BackgroundTime?
  }

  /** buildUsageTimeInfo: under a minute gives the fixed text, otherwise the formatted time. */
  function UsageTimeInfo(ms: int, isBackground: bool): (u: UsageText)
    ensures (u == TotalLessThanOneMinute || u == BackgroundLessThanOneMinute) <==> ms < MINUTE_IN_MILLIS
    ensures IsBackgroundText(u) <==> isBackground
    ensures (u.TotalTime? || u.BackgroundTime?) ==> u.ms == ms
  {
    if ms < MINUTE_IN_MILLIS then
      (if isBackground then BackgroundLessThanOneMinute else TotalLessThanOneMinute)
    else if isBackground then BackgroundTime(ms)
    else TotalTime(ms)
  }

  /**
   * setPreferenceSummary: the summary's lines (joined by a newline), or
   * null. `showSummary` is isValidToShowSummary for the entry's package.
   */
  function PreferenceSummary(e: BatteryDiffEntry, showSummary: bool): (r: Option<seq<UsageText>>)
    ensures r.None? <==> !showSummary || e.foregroundUsageTimeInMs + e.backgroundUsageTimeInMs == 0
    ensures r.Some? ==> 1 <= |r.value| <= 2
  {
    var fg := e.foregroundUsageTimeInMs;
    var bg := e.backgroundUsageTimeInMs;
    var total := fg + bg;
    if !showSummary then None
    else if total == 0 then None
    else if fg == 0 && bg != 0 then Some([UsageTimeInfo(bg, true)])
    else if total < MINUTE_IN_MILLIS then Some([UsageTimeInfo(total, false)])
    else if bg > 0 then Some([UsageTimeInfo(total, false), UsageTimeInfo(bg, true)])
    else Some([UsageTimeInfo(total, false)])
  }

  /**
   * The summary opens with the background time exactly when there is no
   * foreground time but some background time; otherwise it opens with the
   * total.
   */
  lemma SummaryBackgroundFirst(e: BatteryDiffEntry, showSummary: bool)
    requires PreferenceSummary(e, showSummary).Some?
    ensures IsBackgroundText(PreferenceSummary(e, showSummary).value[0]) <==>
              e.foregroundUsageTimeInMs == 0 && e.backgroundUsageTimeInMs != 0
    ensures !IsBackgroundText(PreferenceSummary(e, showSummary).value[0]) ==>
              var total := e.foregroundUsageTimeInMs + e.backgroundUsageTimeInMs;
              PreferenceSummary(e, showSummary).value[0] ==
                (if total < MINUTE_IN_MILLIS then TotalLessThanOneMinute else TotalTime(total))
  ensures IsBackgroundText(PreferenceSummary(e, showSummary).value[0]) ==>
              var bg := e.backgroundUsageTimeInMs;
              PreferenceSummary(e, showSummary).value ==
                [if bg < MINUTE_IN_MILLIS then BackgroundLessThanOneMinute else BackgroundTime(bg)]
  {
  }

  /**
   * A second, background line appears exactly when there is foreground and
   * positive background time and the total reaches a minute.
   */
  lemma SummaryTwoLines(e: BatteryDiffEntry, showSummary: bool)
    requires PreferenceSummary(e, showSummary).Some?
    ensures var fg := e.foregroundUsageTimeInMs;
            var bg := e.backgroundUsageTimeInMs;
            |PreferenceSummary(e, showSummary).value| == 2 <==> fg != 0 && bg > 0 && fg + bg >= MINUTE_IN_MILLIS
    ensures |PreferenceSummary(e, showSummary).value| == 2 ==>
              PreferenceSummary(e, showSummary).value[1] == UsageTimeInfo(e.backgroundUsageTimeInMs, true)
  {
  }

  /** The values of a Bundle the controller reads and writes. */
  datatype BundleValue = IntValue(i: int) | BoolValue(b: bool) | OtherValue

  type Bundle = map<string, BundleValue>

  const KEY_EXPAND_SYSTEM_INFO: string := "expand_system_info"
  const KEY_DAILY_CHART_INDEX: string := "daily_chart_index"
  const KEY_HOURLY_CHART_INDEX: string := "hourly_chart_index"

  /** Bundle.getInt: the default when the key is missing or holds another type. */
  function GetInt(b: Bundle, key: string, default: int): int
  {
    if key in b && b[key].IntValue? then b[key].i else default
  }

  /** Bundle.getBoolean: the default when the key is missing or holds another type. */
  function GetBoolean(b: Bundle, key: string, default: bool): bool
  {
    if key in b && b[key].BoolValue? then b[key].b else default
  }

  /** The controller's saved state: the two chart indices and the expanded flag. */
  datatype ChartIndices = ChartIndices(daily: int, hourly: int, expanded: bool)

  /** onSaveInstanceState: the three values put under their keys, every other entry kept. */
  function SaveIndices(b: Bundle, s: ChartIndices): (r: Bundle)
    ensures r.Keys == b.Keys + {KEY_DAILY_CHART_INDEX, KEY_HOURLY_CHART_INDEX, KEY_EXPAND_SYSTEM_INFO}
    ensures forall k :: k in b && k !in {KEY_DAILY_CHART_INDEX, KEY_HOURLY_CHART_INDEX, KEY_EXPAND_SYSTEM_INFO} ==> r[k] == b[k]
  {
    b[KEY_DAILY_CHART_INDEX := IntValue(s.daily)]
     [KEY_HOURLY_CHART_INDEX := IntValue(s.hourly)]
     [KEY_EXPAND_SYSTEM_INFO := BoolValue(s.expanded)]
  }

  /** onCreate: each value read back with the current one as default; a null bundle keeps all three. */
  function RestoreIndices(b: Option<Bundle>, current: ChartIndices): ChartIndices
  {
    if b.None? then current
    else ChartIndices(GetInt(b.value, KEY_DAILY_CHART_INDEX, current.daily),
                      GetInt(b.value, KEY_HOURLY_CHART_INDEX, current.hourly),
                      GetBoolean(b.value, KEY_EXPAND_SYSTEM_INFO, current.expanded))
  }

  /** Saving then restoring gives back the saved state, whatever the bundle held and the state is now. */
  lemma SaveThenRestore(b: Bundle, saved: ChartIndices, current: ChartIndices)
    ensures RestoreIndices(Some(SaveIndices(b, saved)), current) == saved
  {
  }

  /** A bundle without the keys, or with values of other types, restores nothing. */
  lemma RestoreWithoutKeys(b: Bundle, current: ChartIndices)
    requires KEY_DAILY_CHART_INDEX !in b || !b[KEY_DAILY_CHART_INDEX].IntValue?
    requires KEY_HOURLY_CHART_INDEX !in b || !b[KEY_HOURLY_CHART_INDEX].IntValue?
    requires KEY_EXPAND_SYSTEM_INFO !in b || !b[KEY_EXPAND_SYSTEM_INFO].BoolValue?
    ensures RestoreIndices(Some(b), current) == current
  {
  }

  /** The entry getAppBatteryUsageData looks for: a UID consumer of that user and package. */
  predicate MatchesApp(e: BatteryDiffEntry, packageName: string, userId: int)
  {
    && e.hist.consumerType == CONSUMER_TYPE_UID_BATTERY
    && e.hist.userId == userId
    && e.packageName == Some(packageName)
  }

  /**
   * getAppBatteryUsageData(context, packageName, userId): the first matching
   * entry of `entries`, the app list of the all/all slot that the
   * one-argument overload returns (None for its null).
   */
  method GetAppBatteryUsageData(entries: Option<seq<BatteryDiffEntry>>, packageName: Option<string>, userId: int)
    returns (r: Option<BatteryDiffEntry>)
    ensures packageName.None? || entries.None? ==> r.None?
    ensures packageName.Some? && entries.Some? && r.None? ==>
              forall i :: 0 <= i < |entries.value| ==> !MatchesApp(entries.value[i], packageName.value, userId)
    ensures r.Some? ==> packageName.Some? && entries.Some?
    ensures r.Some? && packageName.Some? && entries.Some? ==>
              exists i :: && 0 <= i < |entries.value| && entries.value[i] == r.value
                          && MatchesApp(r.value, packageName.value, userId)
                          && forall j :: 0 <= j < i ==> !MatchesApp(entries.value[j], packageName.value, userId)
  {
    if packageName.None? {
      return None;
    }
    if entries.None? {
      return None;
    }
    var list := entries.value;
    var i := 0;
    while i < |list|
      invariant 0 <= i <= |list|
      invariant forall j :: 0 <= j < i ==> !MatchesApp(list[j], packageName.value, userId)
    {
      var entry := list[i];
      if entry.hist.consumerType == CONSUMER_TYPE_UID_BATTERY
        && entry.hist.userId == userId
        && entry.packageName == Some(packageName.value)
      {
        return Some(entry);
      }
      i := i + 1;
    }
    return None;
  }
}

=== FILE: dotted_quad.dfy ===
/**
 * The hand-written IPv4 checker of the Ethernet configuration dialog
 * (EthernetDialog.NotIpAddress) and the prefix-length-to-netmask conversion
 * the dialog and the status screen share.
 *
 * The checker walks the text block by block, cutting at each '.', and parses
 * every block with Integer.parseInt. `Scan` is the sequence of blocks that
 * walk visits; the checker accepts exactly when there are four and each is
 * an integer in [0, 255]. This is looser than the dotted-decimal grammar of
 * RFC 3986: signs and leading zeros pass, and so does one trailing '.'.
 */
module DottedQuad {
  import opened JavaLang

  /** Where the first block of `t` ends: its first '.', or the end of `t`. */
  function BlockEnd(t: string): (e: nat)
    ensures e <= |t|
    ensures e < |t| ==> t[e] == '.'
  {
    var i := IndexOf(t, '.', 0);
    if i == -1 then |t| else i
  }

  /** The first block holds no '.'. */
  lemma BlockEndSpec(t: string)
    ensures forall k :: 0 <= k < BlockEnd(t) ==> t[k] != '.'
  {
    IndexOfSpec(t, '.', 0);
  }

  /**
   * The blocks the checker's loop visits: cut at every '.', stopping as soon
   * as the position passes the last character. So "a.b" gives [a, b], "a."
   * gives [a] (the empty block after a trailing '.' is never visited), and
   * "a..b" gives [a, "", b].
   */
  function Scan(t: string): seq<string>
    decreases |t|
  {
    if |t| == 0 then []
    else
      var e := BlockEnd(t);
      if e == |t| then [t] else [t[..e]] + Scan(t[e + 1..])
  }

  /** A block Integer.parseInt accepts with a value in [0, 255]. */
  predicate ValidBlock(b: string)
  {
    var v := ParseInt(b);
    v.Some? && 0 <= v.value <= 255
  }

  /** What NotIpAddress(s) == false means. */
  predicate IsIpAddress(s: string)
  {
    var bs := Scan(s);
    |bs| == 4 && forall i :: 0 <= i < 4 ==> ValidBlock(bs[i])
  }

  /** The part of `s` the loop has still to read once `start` has moved to the given position. */
  function Rest(s: string, start: nat): string
  {
    if start <= |s| then s[start..] else []
  }

  /** The first block of the text from `start` on ends where indexOf('.', start) points. */
  lemma BlockEndFrom(s: string, start: nat, e: nat)
    requires start <= |s|
    requires e == (if IndexOf(s, '.', start) == -1 then |s| else IndexOf(s, '.', start))
    ensures start <= e <= |s| && BlockEnd(s[start..]) == e - start
  {
    var t := s[start..];
    IndexOfSpec(s, '.', start);
    BlockEndSpec(t);
    var be := BlockEnd(t);
    if be < |t| {
      assert s[start + be] == '.';
    }
    if e < |s| {
      assert t[e - start] == '.';
    }
  }

  /** One turn of the checker's loop peels exactly one block off the rest. */
  lemma ScanStep(s: string, start: nat, e: nat)
    requires start < |s|
    requires e == (if IndexOf(s, '.', start) == -1 then |s| else IndexOf(s, '.', start))
    ensures start <= e <= |s|
    ensures Scan(Rest(s, start)) == [s[start..e]] + Scan(Rest(s, e + 1))
  {
    BlockEndFrom(s, start, e);
    assert Rest(s, start) == s[start..];
    if e < |s| {
      ScanStepDot(s, start, e);
    } else {
      ScanStepEnd(s, start);
    }
  }

  /** A block closed by a '.': the split goes on after that dot. */
  lemma ScanStepDot(s: string, start: nat, e: nat)
    requires start <= e < |s| && BlockEnd(s[start..]) == e - start
    ensures Scan(s[start..]) == [s[start..e]] + Scan(Rest(s, e + 1))
  {
    var t := s[start..];
    var be := e - start;
    assert t[..be] == s[start..e];
    assert t[be + 1..] == s[e + 1..] == Rest(s, e + 1);
  }

  /** The last block runs to the end of the text: nothing is left after it. */
  lemma ScanStepEnd(s: string, start: nat)
    requires start < |s| && BlockEnd(s[start..]) == |s| - start
    ensures Scan(s[start..]) == [s[start..|s|]] + Scan(Rest(s, |s| + 1))
  {
    assert Rest(s, |s| + 1) == [];
    assert s[start..] == s[start..|s|];
  }

  /**
   * The rest of the checker's walk from position `start`, having counted
   * `numBlocks` blocks that pass `good`: the answer NotIpAddress gives from
   * there on when `good` is ValidBlock. The block test is a parameter so
   * that the facts about the walk hold whatever a good block is.
   */
  function CheckFrom(s: string, start: nat, numBlocks: nat, good: string -> bool): bool
    decreases |s| + 1 - start
  {
    if start >= |s| then numBlocks != 4
    else
      var i := IndexOf(s, '.', start);
      var e := if i == -1 then |s| else i;
      if !good(s[start..e]) then true else CheckFrom(s, e + 1, numBlocks + 1, good)
  }

  /** The same walk over a list of blocks. */
  function CheckBlocks(bs: seq<string>, numBlocks: nat, good: string -> bool): bool
  {
    if bs == [] then numBlocks != 4
    else if !good(bs[0]) then true
    else CheckBlocks(bs[1..], numBlocks + 1, good)
  }

  /** The blocks the walk reads from position `start` on, cut where indexOf('.') points. */
  function ScanFrom(s: string, start: nat): seq<string>
    decreases |s| + 1 - start
  {
    if start >= |s| then []
    else
      var i := IndexOf(s, '.', start);
      var e := if i == -1 then |s| else i;
      [s[start..e]] + ScanFrom(s, e + 1)
  }

  /** The walk over positions reads exactly the blocks of the split of what is left, in order. */
  lemma {:induction false} ScanFromRest(s: string, start: nat)
    ensures ScanFrom(s, start) == Scan(Rest(s, start))
    decreases |s| + 1 - start
  {
    if start >= |s| {
      assert Rest(s, start) == [];
    } else {
      var i := IndexOf(s, '.', start);
      var e := if i == -1 then |s| else i;
      assert ScanFrom(s, start) == [s[start..e]] + ScanFrom(s, e + 1);
      ScanStep(s, start, e);
      ScanFromRest(s, e + 1);
    }
  }

  /** Walking over positions answers as walking over the blocks it reads. */
  lemma {:induction false} CheckFromBlocks(s: string, start: nat, numBlocks: nat, good: string -> bool)
    ensures CheckFrom(s, start, numBlocks, good) == CheckBlocks(ScanFrom(s, start), numBlocks, good)
    decreases |s| + 1 - start
  {
    if start < |s| {
      var i := IndexOf(s, '.', start);
      var e := if i == -1 then |s| else i;
      CheckBlocksCons(s[start..e], ScanFrom(s, e + 1), numBlocks, good);
      if good(s[start..e]) {
        CheckFromBlocks(s, e + 1, numBlocks + 1, good);
      }
    }
  }

  /** The block walk looks at the first block, then goes on with the rest. */
  lemma CheckBlocksCons(block: string, rest: seq<string>, numBlocks: nat, good: string -> bool)
    ensures CheckBlocks([block] + rest, numBlocks, good)
         == if good(block) then CheckBlocks(rest, numBlocks + 1, good) else true
  {
    assert ([block] + rest)[1..] == rest;
  }

  /** The walk over blocks answers "not four good blocks". */
  lemma {:induction false} CheckBlocksIff(bs: seq<string>, numBlocks: nat, good: string -> bool)
    ensures CheckBlocks(bs, numBlocks, good)
        == !(numBlocks + |bs| == 4 && forall i :: 0 <= i < |bs| ==> good(bs[i]))
    decreases |bs|
  {
    if bs != [] {
      var tail := bs[1..];
      CheckBlocksIff(tail, numBlocks + 1, good);
      assert forall i :: 0 < i < |bs| ==> bs[i] == tail[i - 1];
      if good(bs[0]) {
        assert (forall i :: 0 <= i < |bs| ==> good(bs[i]))
            == (forall i :: 0 <= i < |tail| ==> good(tail[i]));
      }
    }
  }

  /**
   * EthernetDialog.NotIpAddress: true when `value` is NOT four dot-separated
   * integers in [0, 255]. It gives up at the first block that does not parse
   * or is out of range, and otherwise compares the number of blocks with 4.
   */
  method NotIpAddress(value: string) returns (notIp: bool)
    ensures notIp == !IsIpAddress(value)
  {
    ghost var answer := CheckFrom(value, 0, 0, ValidBlock);
    var start: nat := 0;
    var end := IndexOf(value, '.', 0);
    var numBlocks: nat := 0;
    while start < |value|
      invariant start <= |value| + 1
      invariant end == IndexOf(value, '.', start)
      invariant CheckFrom(value, start, numBlocks, ValidBlock) == answer
      decreases |value| + 1 - start
    {
      if end == -1 {
        end := |value|;
      }
      // parseInt throwing, or a value outside [0, 255], ends the check at once
      if !ValidBlock(value[start..end]) {
        notIp := true;
        break;
      }
      numBlocks := numBlocks + 1;
      start := end + 1;
      end := IndexOf(value, '.', start);
    }
    if start >= |value| {
      notIp := numBlocks != 4;
    }
    CheckFromIsIpAddress(value);
  }

  /** The whole walk answers the dotted-quad question. */
  lemma CheckFromIsIpAddress(s: string)
    ensures CheckFrom(s, 0, 0, ValidBlock) == !IsIpAddress(s)
  {
    assert Rest(s, 0) == s;
    ScanFromRest(s, 0);
    CheckFromBlocks(s, 0, 0, ValidBlock);
    CheckBlocksIff(Scan(s), 0, ValidBlock);
  }

  // ---------------------------------------------------------------------
  // An independent description: joining blocks with '.'.

  predicate Dotless(b: string) { forall k :: 0 <= k < |b| ==> b[k] != '.' }

  function JoinDots(bs: seq<string>): string
    requires |bs| >= 1
  {
    if |bs| == 1 then bs[0] else bs[0] + "." + JoinDots(bs[1..])
  }

  lemma ScanBlockThenRest(b: string, r: string)
    requires Dotless(b)
    ensures Scan(b + "." + r) == [b] + Scan(r)
  {
    var t := b + "." + r;
    var e := BlockEnd(t);
    BlockEndSpec(t);
    assert t[|b|] == '.';
    assert e == |b|;
    assert t[..e] == b;
    assert t[e + 1..] == r;
  }

  lemma ScanDotless(b: string)
    requires Dotless(b) && b != []
    ensures Scan(b) == [b]
  {
    assert BlockEnd(b) == |b|;
  }

  predicate AllDotless(bs: seq<string>) { forall i :: 0 <= i < |bs| ==> Dotless(bs[i]) }

  /** Splitting a join followed by one '.' gives the blocks back. */
  lemma {:induction false} ScanJoinDotsTrailing(bs: seq<string>)
    requires |bs| >= 1 && AllDotless(bs)
    ensures Scan(JoinDots(bs) + ".") == bs
    decreases |bs|
  {
    if |bs| == 1 {
      ScanBlockThenRest(bs[0], "");
      assert bs[0] + "." + "" == JoinDots(bs) + ".";
    } else {
      var tail := bs[1..];
      assert AllDotless(tail) by {
        forall i | 0 <= i < |tail| ensures Dotless(tail[i]) { assert tail[i] == bs[i + 1]; }
      }
      ScanJoinDotsTrailing(tail);
      var r := JoinDots(tail);
      assert JoinDots(bs) + "." == bs[0] + "." + (r + ".");
      ScanBlockThenRest(bs[0], r + ".");
      assert bs == [bs[0]] + tail;
    }
  }

  /** Splitting a join whose last block is not empty gives the blocks back. */
  lemma {:induction false} ScanJoinDots(bs: seq<string>)
    requires |bs| >= 1 && AllDotless(bs) && bs[|bs| - 1] != []
    ensures Scan(JoinDots(bs)) == bs
    decreases |bs|
  {
    if |bs| == 1 {
      assert JoinDots(bs) == bs[0];
      ScanDotless(bs[0]);
      assert bs == [bs[0]];
    } else {
      var tail := bs[1..];
      assert AllDotless(tail) by {
        forall i | 0 <= i < |tail| ensures Dotless(tail[i]) { assert tail[i] == bs[i + 1]; }
      }
      ScanJoinDots(tail);
      assert JoinDots(bs) == bs[0] + "." + JoinDots(tail);
      ScanBlockThenRest(bs[0], JoinDots(tail));
      assert bs == [bs[0]] + tail;
    }
  }

  /** Joining the visited blocks gives the text back, up to one trailing '.'. */
  lemma {:induction false} JoinScan(s: string)
    requires s != []
    ensures |Scan(s)| >= 1
    ensures AllDotless(Scan(s))
    ensures s == JoinDots(Scan(s)) || s == JoinDots(Scan(s)) + "."
    decreases |s|
  {
    var e := BlockEnd(s);
    BlockEndSpec(s);
    if e < |s| {
      var r := s[e + 1..];
      assert s == s[..e] + "." + r;
      if r == [] {
        assert Scan(s) == [s[..e]];
      } else {
        JoinScan(r);
        assert Scan(s) == [s[..e]] + Scan(r);
        assert Scan(s)[1..] == Scan(r);
      }
    }
  }

  /**
   * Everything the checker accepts is four dot-free blocks in [0, 255],
   * joined by '.', with at most one '.' after them.
   */
  lemma AcceptedIsDottedQuad(s: string)
    requires IsIpAddress(s)
    ensures var bs := Scan(s);
            && |bs| == 4
            && (forall i :: 0 <= i < 4 ==> Dotless(bs[i]) && ValidBlock(bs[i]))
            && (s == JoinDots(bs) || s == JoinDots(bs) + ".")
  {
    JoinScan(s);
  }

  /** And conversely every such text is accepted, with or without the trailing '.'. */
  lemma DottedQuadAccepted(bs: seq<string>)
    requires |bs| == 4
    requires forall i :: 0 <= i < 4 ==> Dotless(bs[i]) && ValidBlock(bs[i])
    ensures IsIpAddress(JoinDots(bs))
    ensures IsIpAddress(JoinDots(bs) + ".")
  {
    assert bs[3] != [] by { assert ParseInt(bs[3]).Some?; }
    ScanJoinDots(bs);
    ScanJoinDotsTrailing(bs);
  }

  /** Every block of the text "" is missing: the empty string is rejected. */
  lemma EmptyRejected()
    ensures !IsIpAddress("")
  {
  }

  /** An empty block (a leading '.', or ".." inside) is rejected, because parseInt("") throws. */
  lemma EmptyBlockRejected(bs: seq<string>, k: nat)
    requires |bs| >= 1 && AllDotless(bs)
    requires k < |bs| && bs[k] == []
    ensures !IsIpAddress(JoinDots(bs) + ".")
    ensures bs[|bs| - 1] != [] ==> !IsIpAddress(JoinDots(bs))
  {
    ScanJoinDotsTrailing(bs);
    if bs[|bs| - 1] != [] {
      ScanJoinDots(bs);
    }
    assert ParseInt(bs[k]).None?;
  }

  /** Only four blocks pass: three or five valid blocks are rejected. */
  lemma WrongBlockCountRejected(bs: seq<string>)
    requires |bs| >= 1 && |bs| != 4
    requires forall i :: 0 <= i < |bs| ==> Dotless(bs[i]) && ValidBlock(bs[i])
    ensures !IsIpAddress(JoinDots(bs)) && !IsIpAddress(JoinDots(bs) + ".")
  {
    assert bs[|bs| - 1] != [] by { assert ParseInt(bs[|bs| - 1]).Some?; }
    ScanJoinDots(bs);
    ScanJoinDotsTrailing(bs);
  }

  /** A block is judged by Integer.parseInt: signs and leading zeros are fine, 256 and -1 are not. */
  lemma BlockExamples()
    ensures ValidBlock("+1") && ValidBlock("-0") && ValidBlock("007") && ValidBlock("255")
    ensures !ValidBlock("256") && !ValidBlock("-1") && !ValidBlock("") && !ValidBlock("+")
    ensures !ValidBlock("1a")
  {
    assert "+1"[1..] == "1" && "-0"[1..] == "0" && "1"[..0] == "" && "0"[..0] == "";
    assert AllDigits("1") && AllDigits("0");
    assert "007"[..2] == "00" && "00"[..1] == "0";
    assert AllDigits("007") && DigitsValue("007") == 7;
    assert "255"[..2] == "25" && "256"[..2] == "25" && "25"[..1] == "2" && "2"[..0] == "";
    assert AllDigits("255") && DigitsValue("255") == 255;
    assert AllDigits("256") && DigitsValue("256") == 256;
    assert "-1"[1..] == "1";
    assert !IsDigit("1a"[1]);
  }

  // ---------------------------------------------------------------------
  // Inet4AddressUtils.getPrefixMaskAsInet4Address(...).getHostAddress()

  const MASK_OCTETS: seq<nat> := [0, 128, 192, 224, 240, 248, 252, 254, 255]

  /** Octet i (0 = most significant) of the netmask with `p` leading one bits. */
  function MaskOctet(p: int, i: nat): (v: nat)
    requires 0 <= p <= 32 && i < 4
    ensures v <= 255
  {
    var ones := p - 8 * i;
    var bits := if ones <= 0 then 0 else if ones >= 8 then 8 else ones;
    MASK_OCTETS[bits]
  }

  /**
   * EthernetDialog.ipv4PrefixLengthToSubnetMask: the dotted-decimal text of
   * the netmask for a prefix length, or None (the caught
   * IllegalArgumentException) outside [0, 32].
   */
  function PrefixLengthToSubnetMask(p: int): Option<string>
  {
    if 0 <= p <= 32 then
      Some(JoinDots([IntToString(MaskOctet(p, 0)), IntToString(MaskOctet(p, 1)),
                     IntToString(MaskOctet(p, 2)), IntToString(MaskOctet(p, 3))]))
    else None
  }

  function Pow2(n: nat): nat { if n == 0 then 1 else 2 * Pow2(n - 1) }

  /** The four octets read as one 32-bit big-endian number. */
  function MaskValue(p: int): nat
    requires 0 <= p <= 32
  {
    ((MaskOctet(p, 0) * 256 + MaskOctet(p, 1)) * 256 + MaskOctet(p, 2)) * 256 + MaskOctet(p, 3)
  }

  lemma {:induction false} Pow2Add(a: nat, b: nat)
    ensures Pow2(a + b) == Pow2(a) * Pow2(b)
    decreases a
  {
    if a > 0 {
      Pow2Add(a - 1, b);
      calc {
        Pow2(a + b);
        2 * Pow2(a - 1 + b);
        2 * (Pow2(a - 1) * Pow2(b));
        (2 * Pow2(a - 1)) * Pow2(b);
      }
    }
  }

  lemma Pow2Table()
    ensures Pow2(0) == 1 && Pow2(8) == 256 && Pow2(16) == 65536
    ensures Pow2(24) == 16777216 && Pow2(32) == 4294967296
  {
    OctetOnes(0);
    Pow2Add(8, 8);
    Pow2Add(16, 8);
    Pow2Add(24, 8);
  }

  lemma OctetOnes(bits: nat)
    requires bits <= 8
    ensures MASK_OCTETS[bits] == 256 - Pow2(8 - bits)
  {
    assert Pow2(8) == 256;
    assert Pow2(0) == 1 && Pow2(1) == 2 && Pow2(2) == 4 && Pow2(3) == 8;
    assert Pow2(4) == 16 && Pow2(5) == 32 && Pow2(6) == 64 && Pow2(7) == 128;
  }

  /**
   * The netmask is the CIDR mask of section 3.1 of RFC 4632: `p` one bits
   * followed by 32 - p zero bits, that is 2^32 - 2^(32 - p).
   */
  lemma MaskIsLeadingOnes(p: int)
    requires 0 <= p <= 32
    ensures MaskValue(p) == Pow2(32) - Pow2(32 - p)
  {
    Pow2Table();
    if p < 8 {
      MaskInOctet0(p);
    } else if p < 16 {
      MaskInOctet1(p);
    } else if p < 24 {
      MaskInOctet2(p);
    } else if p < 32 {
      MaskInOctet3(p);
    }
  }

  /** Prefix lengths below 8: only the first octet has ones. */
  lemma MaskInOctet0(p: int)
    requires 0 <= p < 8
    ensures MaskValue(p) == 4294967296 - Pow2(32 - p)
  {
    OctetOnes(p);
    Pow2Add(8 - p, 24);
    Pow2Table();
    var x := Pow2(8 - p);
    assert MaskValue(p) == (256 - x) * 16777216;
  }

  /** Prefix lengths 8 to 15: the first octet is full, the second partly. */
  lemma MaskInOctet1(p: int)
    requires 8 <= p < 16
    ensures MaskValue(p) == 4294967296 - Pow2(32 - p)
  {
    OctetOnes(p - 8);
    Pow2Add(16 - p, 16);
    Pow2Table();
    var x := Pow2(16 - p);
    assert MaskValue(p) == 255 * 16777216 + (256 - x) * 65536;
  }

  /** Prefix lengths 16 to 23: two full octets, the third partly. */
  lemma MaskInOctet2(p: int)
    requires 16 <= p < 24
    ensures MaskValue(p) == 4294967296 - Pow2(32 - p)
  {
    OctetOnes(p - 16);
    Pow2Add(24 - p, 8);
    Pow2Table();
    var x := Pow2(24 - p);
    assert MaskValue(p) == 255 * 16777216 + 255 * 65536 + (256 - x) * 256;
  }

  /** Prefix lengths 24 to 31: three full octets, the last partly. */
  lemma MaskInOctet3(p: int)
    requires 24 <= p < 32
    ensures MaskValue(p) == 4294967296 - Pow2(32 - p)
  {
    OctetOnes(p - 24);
    var x := Pow2(32 - p);
    assert MaskValue(p) == 255 * 16777216 + 255 * 65536 + 255 * 256 + (256 - x);
  }

  /** The decimal text of an octet is one good block. */
  lemma OctetTextGood(v: nat)
    requires v <= 255
    ensures Dotless(IntToString(v)) && ValidBlock(IntToString(v))
  {
    var t := IntToString(v);
    NatToStringDigits(v);
    ParseIntToString(v);
    forall k | 0 <= k < |t| ensures t[k] != '.' {
      AllDigitsAt(t, k);
    }
  }

  /** The netmask text is itself accepted by the dialog's checker. */
  lemma MaskTextAccepted(p: int)
    requires 0 <= p <= 32
    ensures PrefixLengthToSubnetMask(p).Some?
    ensures IsIpAddress(PrefixLengthToSubnetMask(p).value)
  {
    var bs := [IntToString(MaskOctet(p, 0)), IntToString(MaskOctet(p, 1)),
               IntToString(MaskOctet(p, 2)), IntToString(MaskOctet(p, 3))];
    forall i | 0 <= i < 4 ensures Dotless(bs[i]) && ValidBlock(bs[i]) {
      OctetTextGood(MaskOctet(p, i));
    }
    DottedQuadAccepted(bs);
  }
}

=== FILE: ethernet_dialog.dfy ===
/**
 * EthernetDialog: the dialog that edits the Ethernet IP configuration. It
 * keeps a table of the interfaces whose link is up, pre-fills five text
 * fields (address, prefix length, gateway, two DNS servers) from the current
 * link, validates them with the hand-written checker, and on save either
 * switches the interface to DHCP or builds a static configuration. A spinner
 * selects the proxy mode.
 */
module EthDialog {
  import opened JavaLang
  import opened NetPlatform
  import opened DottedQuad
  import opened EthInfo

  const DEFAULT_ADDRESS: string := "0.0.0.0"
  const DEFAULT_PREFIX_LEN: string := "24"
  const DEFAULT_IFACE: string := "eth0"

  /** Positions of the proxy spinner. */
  const PROXY_NONE: int := 0
  const PROXY_STATIC: int := 1
  const PROXY_PAC: int := 2

  /**
   * Stands for R.string.proxy_error_invalid_port, the result setProxy records
   * when the port does not parse: a resource id, so never 0.
   */
  const INVALID_PORT_ERROR: int := 1

  /** The five text fields of the static-IP form. */
  datatype StaticTexts = StaticTexts(ipaddr: string, prefixLen: string, gw: string, dns1: string, dns2: string)

  /**
   * The result of isValidAddress: None for the NumberFormatException a
   * non-numeric prefix throws, else the error code (0 = all valid). The
   * checks run address, prefix, gateway, DNS, each overwriting the code, so
   * the last failing one decides.
   */
  function ValidationCode(t: StaticTexts): (r: Option<int>)
    ensures r.None? <==> ParseInt(t.prefixLen).None?
    ensures r.Some? ==> r.value in {0, 2, 3, 4, 5}
  {
    var prefix := ParseInt(t.prefixLen);
    if prefix.None? then None
    else if !IsIpAddress(t.dns1) || !IsIpAddress(t.dns2) then Some(5)
    else if !IsIpAddress(t.gw) then Some(4)
    else if prefix.value < 0 || prefix.value > 32 then Some(3)
    else if !IsIpAddress(t.ipaddr) then Some(2)
    else Some(0)
  }

  /** All five fields are acceptable: four dotted quads and a prefix length in [0, 32]. */
  predicate AllValid(t: StaticTexts)
  {
    && IsIpAddress(t.ipaddr) && IsIpAddress(t.gw) && IsIpAddress(t.dns1) && IsIpAddress(t.dns2)
    && var prefix := ParseInt(t.prefixLen);
       prefix.Some? && 0 <= prefix.value <= 32
  }

  /** Code 0 exactly when everything is valid. */
  lemma ValidationZeroIff(t: StaticTexts)
    ensures ValidationCode(t) == Some(0) <==> AllValid(t)
  {
  }

  /**
   * Each code names a check that failed, and no check that runs after it
   * failed: DNS beats gateway, which beats prefix, which beats address.
   */
  lemma ValidationLastFailureWins(t: StaticTexts)
    requires ParseInt(t.prefixLen).Some?
    ensures var p := ParseInt(t.prefixLen).value;
            var dnsBad := !IsIpAddress(t.dns1) || !IsIpAddress(t.dns2);
            var gwBad := !IsIpAddress(t.gw);
            var prefixBad := p < 0 || p > 32;
            && (ValidationCode(t) == Some(5) <==> dnsBad)
            && (ValidationCode(t) == Some(4) <==> !dnsBad && gwBad)
            && (ValidationCode(t) == Some(3) <==> !dnsBad && !gwBad && prefixBad)
            && (ValidationCode(t) == Some(2) <==> !dnsBad && !gwBad && !prefixBad && !IsIpAddress(t.ipaddr))
  {
  }

  /** The toasts printErrorMsg can show. */
  datatype ErrorMessage =
    | FailedSave | InvalidIpAddress | InvalidPrefixLength | InvalidGateway | InvalidDns

  /** printErrorMsg: codes 1 to 5 each have their message; any other code shows nothing. */
  function MessageFor(code: int): (m: Option<ErrorMessage>)
    ensures m.Some? <==> 1 <= code <= 5
  {
    if code == 1 then Some(FailedSave)
    else if code == 2 then Some(InvalidIpAddress)
    else if code == 3 then Some(InvalidPrefixLength)
    else if code == 4 then Some(InvalidGateway)
    else if code == 5 then Some(InvalidDns)
    else None
  }

  /** Different codes show different messages, and every failed validation shows one. */
  lemma MessagesDistinct(a: int, b: int)
    requires MessageFor(a).Some? && MessageFor(a) == MessageFor(b)
    ensures a == b
  {
  }

  lemma FailedValidationHasMessage(t: StaticTexts)
    requires ValidationCode(t).Some? && ValidationCode(t).value != 0
    ensures MessageFor(ValidationCode(t).value).Some?
    ensures MessageFor(ValidationCode(t).value) != Some(FailedSave)
  {
  }

  /** updateInfo: the spinner position for a configuration's proxy settings. */
  function SpinnerPositionFor(ps: ProxySettings): (pos: int)
    ensures pos in {PROXY_NONE, PROXY_STATIC, PROXY_PAC}
  {
    match ps
    case ProxyStatic => PROXY_STATIC
    case ProxyPac => PROXY_PAC
    case _ => PROXY_NONE
  }

  /**
   * The proxy views: the spinner's position, whether the static-proxy and
   * PAC text views have been looked up yet (they start out null), and the
   * text they hold.
   */
  datatype ProxyViews = ProxyViews(
    position: int, hostViewsCreated: bool, pacViewCreated: bool,
    host: string, port: string, exclusionList: string, pacUrl: string)

  /**
   * setProxy: NONE with no proxy, unless the spinner is on STATIC with its
   * views created (STATIC, with a direct proxy only when the port parses and
   * `validate` accepts) or on PAC with its view created (PAC with that URL).
   * `validate` stands for ProxySelector.validate (0 = valid).
   */
  function ProxyFromViews(v: ProxyViews, validate: (string, string, string) -> int): (ProxySettings, Option<ProxyInfo>)
  {
    if v.position == PROXY_STATIC && v.hostViewsCreated then
      var port := ParseInt(v.port);
      var result := if port.None? then INVALID_PORT_ERROR else validate(v.host, v.port, v.exclusionList);
      (ProxyStatic, if result == 0 then Some(DirectProxy(v.host, port.value, v.exclusionList)) else None)
    else if v.position == PROXY_PAC && v.pacViewCreated then
      (ProxyPac, Some(PacProxy(v.pacUrl)))
    else
      (ProxyNone, None)
  }

  /**
   * The mode setProxy picks, read back through updateInfo's mapping, is the
   * spinner position it came from (positions outside 0..2 read back as 0),
   * and the other way round for NONE, STATIC and PAC.
   */
  lemma ProxyMappingRoundTrip(v: ProxyViews, validate: (string, string, string) -> int)
    requires v.hostViewsCreated && v.pacViewCreated
    ensures v.position in {PROXY_NONE, PROXY_STATIC, PROXY_PAC} ==>
              SpinnerPositionFor(ProxyFromViews(v, validate).0) == v.position
    ensures v.position !in {PROXY_NONE, PROXY_STATIC, PROXY_PAC} ==>
              ProxyFromViews(v, validate) == (ProxyNone, None)
    ensures forall ps :: ps in {ProxyNone, ProxyStatic, ProxyPac} ==>
              ProxyFromViews(v.(position := SpinnerPositionFor(ps)), validate).0 == ps
  {
  }

  /**
   * Once the spinner's selection has created the views it shows, setProxy
   * records the selected mode: NONE, STATIC or PAC for positions 0, 1 and 2,
   * and NONE for any other position.
   */
  lemma SelectedModeSaved(v: ProxyViews, validate: (string, string, string) -> int)
    requires v.position == PROXY_STATIC ==> v.hostViewsCreated
    requires v.position == PROXY_PAC ==> v.pacViewCreated
    ensures ProxyFromViews(v, validate).0 ==
              if v.position == PROXY_STATIC then ProxyStatic
              else if v.position == PROXY_PAC then ProxyPac
              else ProxyNone
    ensures v.position in {PROXY_NONE, PROXY_STATIC, PROXY_PAC} ==>
              SpinnerPositionFor(ProxyFromViews(v, validate).0) == v.position
  {
  }

  /** An unparsable port keeps the STATIC mode but records no proxy. */
  lemma BadPortKeepsStatic(v: ProxyViews, validate: (string, string, string) -> int)
    requires v.position == PROXY_STATIC && v.hostViewsCreated && ParseInt(v.port).None?
    ensures ProxyFromViews(v, validate) == (ProxyStatic, None)
  {
  }

  /** Without its views, STATIC or PAC falls back to NONE. */
  lemma NoViewsNoProxy(v: ProxyViews, validate: (string, string, string) -> int)
    requires !v.hostViewsCreated && !v.pacViewCreated
    ensures ProxyFromViews(v, validate) == (ProxyNone, None)
  {
  }

  /**
   * The static address setStatic uses: only when the text is non-empty and
   * `parse` (InetAddresses.parseNumericAddress; None for its
   * IllegalArgumentException) gives an IPv4 address (an IPv6 one is the
   * caught ClassCastException).
   */
  function StaticAddressOf(text: string, parse: string -> Option<InetAddr>): Option<InetAddr>
  {
    if text == "" then None
    else match parse(text)
      case Some(Inet4(h)) => Some(Inet4(h))
      case _ => None
  }

  /** The gateway setStatic sets: none for empty text or a parse failure. */
  function GatewayOf(text: string, parse: string -> Option<InetAddr>): Option<InetAddr>
  {
    if text == "" then None else parse(text)
  }

  /**
   * The DNS list setStatic builds: dns1 if it parses, then dns2 if it parses,
   * but dns2 is only looked at once dns1 has parsed.
   */
  function DnsServersOf(dns1: string, dns2: string, parse: string -> Option<InetAddr>): (r: seq<InetAddr>)
    ensures |r| <= 2
    ensures |r| >= 1 ==> dns1 != "" && parse(dns1) == Some(r[0])
    ensures |r| == 2 ==> dns2 != "" && parse(dns2) == Some(r[1])
  {
    if dns1 == "" then []
    else match parse(dns1)
      case None => []
      case Some(a) =>
        if dns2 == "" then [a]
        else match parse(dns2)
          case None => [a]
          case Some(b) => [a, b]
  }

  /** setStatic's nested DNS parsing, step by step. */
  method BuildDnsServers(dns1: string, dns2: string, parse: string -> Option<InetAddr>) returns (servers: seq<InetAddr>)
    ensures servers == DnsServersOf(dns1, dns2, parse)
  {
    servers := [];
    if dns1 != "" {
      var d1 := parse(dns1);
      if d1.Some? {
        servers := servers + [d1.value];
        if dns2 != "" {
          var d2 := parse(dns2);
          if d2.Some? {
            servers := servers + [d2.value];
          }
        }
      }
    }
  }

  /**
   * The StaticIpConfiguration setStatic builds, or None when it throws: the
   * prefix does not parse, or `new LinkAddress` rejects a missing address,
   * a multicast address or a prefix length outside [0, 32].
   */
  function StaticConfigOf(t: StaticTexts, parse: string -> Option<InetAddr>): Option<StaticIpConfiguration>
  {
    var addr := StaticAddressOf(t.ipaddr, parse);
    var prefix := ParseInt(t.prefixLen);
    if prefix.None? || addr.None? || IsMulticast(addr.value) || prefix.value < 0 || prefix.value > 32 then None
    else Some(StaticIpConfiguration(LinkAddress(addr.value, prefix.value),
                                    GatewayOf(t.gw, parse), DnsServersOf(t.dns1, t.dns2, parse)))
  }

  /**
   * Once validation has passed, the static configuration fails to build
   * exactly when the address text is not an IPv4 address to the platform
   * parser or is a multicast one; the gateway and DNS fields never make it
   * fail.
   */
  lemma ValidatedSaveNeedsOnlyAddress(t: StaticTexts, parse: string -> Option<InetAddr>)
    requires ValidationCode(t) == Some(0)
    ensures StaticConfigOf(t, parse).Some? <==>
              StaticAddressOf(t.ipaddr, parse).Some? && !IsMulticast(StaticAddressOf(t.ipaddr, parse).value)
    ensures StaticConfigOf(t, parse).Some? ==>
              StaticConfigOf(t, parse).value.ipAddress.prefixLength == ParseInt(t.prefixLen).value
  {
  }

  /**
   * getEthernetInfo's pre-fill when the EthernetInfo was built: each text
   * from the digest, or its default when the digest has none. The prefix
   * length is shown only when it is a valid IPv4 prefix length.
   */
  function PrefilledTexts(d: Digest): StaticTexts
  {
    StaticTexts(
      if d.ipV4Address.Some? then d.ipV4Address.value else DEFAULT_ADDRESS,
      if PrefixLengthToSubnetMask(d.prefixLen).Some? then IntToString(d.prefixLen) else DEFAULT_PREFIX_LEN,
      if d.gatewayAddress.Some? then d.gatewayAddress.value else DEFAULT_ADDRESS,
      if d.dns1Address.Some? then d.dns1Address.value else DEFAULT_ADDRESS,
      if d.dns2Address.Some? then d.dns2Address.value else DEFAULT_ADDRESS)
  }

  /** When building the EthernetInfo throws, every text, the prefix length included, is "0.0.0.0". */
  const FALLBACK_TEXTS: StaticTexts :=
    StaticTexts(DEFAULT_ADDRESS, DEFAULT_ADDRESS, DEFAULT_ADDRESS, DEFAULT_ADDRESS, DEFAULT_ADDRESS)

  /** A pre-filled prefix length always parses, and lies in [0, 32]. */
  lemma PrefilledPrefixParses(d: Digest)
    ensures ParseInt(PrefilledTexts(d).prefixLen).Some?
    ensures 0 <= ParseInt(PrefilledTexts(d).prefixLen).value <= 32
  {
    if PrefixLengthToSubnetMask(d.prefixLen).Some? {
      ParseIntToString(d.prefixLen);
    } else {
      ParseIntToString(24);
      assert IntToString(24) == DEFAULT_PREFIX_LEN;
    }
  }

  /**
   * The fallback prefix text "0.0.0.0" is not a number, so validating it
   * throws: a static save after that fallback does nothing and says nothing.
   */
  lemma FallbackPrefixThrows()
    ensures ParseInt(FALLBACK_TEXTS.prefixLen).None?
    ensures ValidationCode(FALLBACK_TEXTS).None?
  {
    assert !IsDigit(DEFAULT_ADDRESS[1]);
  }

  /** The dialog's buttons. */
  datatype Button = Positive | Negative | Neutral

  /**
   * The dialog. `availableInterfaces` is the ArrayMap the link-state
   * listener maintains; its keys are Option because setDhcp may put under a
   * null name. `requests` records the updateConfiguration calls made to the
   * EthernetManager, `messages` the toasts shown.
   */
  class EthernetDialog {
    var availableInterfaces: map<Option<string>, IpConfiguration>
    var ipConfiguration: IpConfiguration
    var ipAssignment: IpAssignment
    var proxySettings: ProxySettings
    var httpProxy: Option<ProxyInfo>
    var texts: StaticTexts
    var dhcpChecked: bool
    var manualChecked: bool
    var addrLayoutVisible: bool
    var proxyViews: ProxyViews
    var proxyFieldsVisible: bool
    var pacFieldVisible: bool
    var messages: seq<ErrorMessage>
    var requests: seq<(Option<string>, IpConfiguration)>
    /** Whether the EthernetManager handed to the dialog is non-null (getSystemService may answer null). */
    const hasManager: bool

    /** A freshly built dialog: no interfaces, nothing assigned, no proxy views looked up yet. */
    constructor(hasManager: bool)
      ensures this.hasManager == hasManager
      ensures availableInterfaces == map[] && ipConfiguration == EMPTY_IP_CONFIGURATION
      ensures ipAssignment == IpUnassigned && proxySettings == ProxyUnassigned && httpProxy.None?
      ensures !proxyViews.hostViewsCreated && !proxyViews.pacViewCreated
      ensures messages == [] && requests == []
    {
      this.hasManager := hasManager;
      availableInterfaces := map[];
      ipConfiguration := EMPTY_IP_CONFIGURATION;
      ipAssignment := IpUnassigned;
      proxySettings := ProxyUnassigned;
      httpProxy := None;
      texts := StaticTexts("", "", "", "", "");
      dhcpChecked := false;
      manualChecked := false;
      addrLayoutVisible := false;
      proxyViews := ProxyViews(PROXY_NONE, false, false, "", "", "", "");
      proxyFieldsVisible := false;
      pacFieldVisible := false;
      messages := [];
      requests := [];
    }

    /** mEthernetListener: a link that comes up is recorded with its configuration; any other state removes it. */
    method OnInterfaceStateChanged(iface: string, state: InterfaceState, configuration: IpConfiguration)
      requires hasManager
      modifies this`availableInterfaces
      ensures state == StateLinkUp ==> availableInterfaces == old(availableInterfaces)[Some(iface) := configuration]
      ensures state != StateLinkUp ==> availableInterfaces == old(availableInterfaces) - {Some(iface)}
    {
      if state == StateLinkUp {
        availableInterfaces := availableInterfaces[Some(iface) := configuration];
      } else {
        availableInterfaces := availableInterfaces - {Some(iface)};
      }
    }

    /**
     * getEthernetInterfaceName: null for an empty table, else the key at
     * index 0 of the ArrayMap, whose order is hash-based: some key of the
     * table. None covers both Java nulls.
     */
    method GetEthernetInterfaceName() returns (name: Option<string>)
      ensures |availableInterfaces| == 0 ==> name.None?
      ensures |availableInterfaces| > 0 ==> name in availableInterfaces
      ensures None !in availableInterfaces ==> (name.None? <==> |availableInterfaces| == 0)
    {
      if |availableInterfaces| == 0 {
        return None;
      }
      var k :| k in availableInterfaces;
      return k;
    }

    /**
     * getifaceName: the array it fills always has length 2, so it returns
     * getEthernetInterfaceName()'s answer and never DEFAULT_IFACE unless that
     * is a key of the table.
     */
    method GetIfaceName() returns (name: Option<string>)
      ensures |availableInterfaces| == 0 ==> name.None?
      ensures |availableInterfaces| > 0 ==> name in availableInterfaces
      ensures name == Some(DEFAULT_IFACE) ==> Some(DEFAULT_IFACE) in availableInterfaces
    {
      var ifaces: seq<Option<string>> := [None, None];
      var first := GetEthernetInterfaceName();
      ifaces := ifaces[0 := first];
      if |ifaces| > 0 {
        return ifaces[0];
      }
      return Some(DEFAULT_IFACE);
    }

    /** getEthernetIpConfiguration: null for an empty table, else the dialog's own configuration. */
    function EthernetIpConfiguration(): (c: Option<IpConfiguration>)
      reads this
      ensures c.Some? <==> |availableInterfaces| > 0
    {
      if |availableInterfaces| == 0 then None else Some(ipConfiguration)
    }

    /** setProxy: records the mode and proxy the spinner and its views describe. */
    method SetProxy(validate: (string, string, string) -> int)
      modifies this`proxySettings, this`httpProxy
      ensures (proxySettings, httpProxy) == ProxyFromViews(proxyViews, validate)
    {
      var selectedPosition := proxyViews.position;
      proxySettings := ProxyNone;
      httpProxy := None;
      if selectedPosition == PROXY_STATIC && proxyViews.hostViewsCreated {
        proxySettings := ProxyStatic;
        var host := proxyViews.host;
        var portStr := proxyViews.port;
        var exclusionList := proxyViews.exclusionList;
        var port := 0;
        var result := 0;
        var parsed := ParseInt(portStr);
        if parsed.Some? {
          port := parsed.value;
          result := validate(host, portStr, exclusionList);
        } else {
          result := INVALID_PORT_ERROR;
        }
        if result == 0 {
          httpProxy := Some(DirectProxy(host, port, exclusionList));
        }
      } else if selectedPosition == PROXY_PAC && proxyViews.pacViewCreated {
        proxySettings := ProxyPac;
        httpProxy := Some(PacProxy(proxyViews.pacUrl));
      }
    }

    /**
     * setDhcp: the proxy from the views, then the dialog's configuration
     * switched to DHCP with that proxy and stored under getifaceName(), which
     * is the null name when the table is empty. It cannot fail.
     */
    method SetDhcp(validate: (string, string, string) -> int) returns (ok: bool)
      modifies this`proxySettings, this`httpProxy, this`ipConfiguration, this`availableInterfaces
      ensures ok
      ensures (proxySettings, httpProxy) == ProxyFromViews(proxyViews, validate)
      ensures ipConfiguration == old(ipConfiguration).(ipAssignment := Dhcp, proxySettings := proxySettings, httpProxy := httpProxy)
      ensures exists name: Option<string> :: (|old(availableInterfaces)| == 0 ==> name.None?)
                && (|old(availableInterfaces)| > 0 ==> name in old(availableInterfaces))
                && availableInterfaces == old(availableInterfaces)[name := ipConfiguration]
    {
      SetProxy(validate);
      ipConfiguration := ipConfiguration.(ipAssignment := Dhcp);
      ipConfiguration := ipConfiguration.(proxySettings := proxySettings);
      ipConfiguration := ipConfiguration.(httpProxy := httpProxy);
      var name := GetIfaceName();
      availableInterfaces := availableInterfaces[name := ipConfiguration];
      return true;
    }

    /**
     * setStatic: the proxy from the views, the assignment switched to STATIC,
     * then the static configuration built from the texts; if building it
     * throws, the method answers false with only those first changes made.
     * Otherwise the configuration takes the static part and the proxy, and is
     * sent for some interface of the table (the null name if it is empty).
     * Sending through a null manager, or for the null interface name (the
     * table is empty, or its first key is the null one a DHCP save stored),
     * throws after the configuration is complete, so the method then answers
     * false with no request made.
     */
    method SetStatic(validate: (string, string, string) -> int, parse: string -> Option<InetAddr>)
      returns (ok: bool)
      modifies this`proxySettings, this`httpProxy, this`ipConfiguration, this`requests
      ensures (proxySettings, httpProxy) == ProxyFromViews(proxyViews, validate)
      ensures ok ==> StaticConfigOf(texts, parse).Some? && hasManager && |availableInterfaces| > 0
      ensures (StaticConfigOf(texts, parse).Some? && hasManager && |availableInterfaces| > 0
               && None !in availableInterfaces) ==> ok
      ensures !ok ==> requests == old(requests)
      ensures StaticConfigOf(texts, parse).None? ==> ipConfiguration == old(ipConfiguration).(ipAssignment := Static)
      ensures StaticConfigOf(texts, parse).Some? ==>
                ipConfiguration == IpConfiguration(Static, StaticConfigOf(texts, parse), proxySettings, httpProxy)
      ensures ok ==> exists name: string :: Some(name) in availableInterfaces
                       && requests == old(requests) + [(Some(name), ipConfiguration)]
    {
      SetProxy(validate);
      ipConfiguration := ipConfiguration.(ipAssignment := Static);
      var inetAddr: Option<InetAddr> := None;
      if texts.ipaddr != "" {
        inetAddr := StaticAddressOf(texts.ipaddr, parse);
      }
      var networkPrefixLength := ParseInt(texts.prefixLen);
      if networkPrefixLength.None? {
        return false;
      }
      if inetAddr.None? || IsMulticast(inetAddr.value) || networkPrefixLength.value < 0 || networkPrefixLength.value > 32 {
        return false;
      }
      var ipAddress := LinkAddress(inetAddr.value, networkPrefixLength.value);
      var gateway: Option<InetAddr> := None;
      if texts.gw != "" {
        gateway := parse(texts.gw);
      }
      var dnsServers := BuildDnsServers(texts.dns1, texts.dns2, parse);
      ipConfiguration := ipConfiguration.(staticIpConfiguration := Some(StaticIpConfiguration(ipAddress, gateway, dnsServers)));
      ipConfiguration := ipConfiguration.(proxySettings := proxySettings);
      ipConfiguration := ipConfiguration.(httpProxy := httpProxy);
      var name := GetEthernetInterfaceName();
      if !hasManager || name.None? {
        return false;
      }
      requests := requests + [(name, ipConfiguration)];
      return true;
    }

    /** isValidAddress: the code of the last failing check, None when the prefix does not parse. */
    method IsValidAddress() returns (r: Option<int>)
      ensures r == ValidationCode(texts)
    {
      var errorType := 0;
      var bad := NotIpAddress(texts.ipaddr);
      if bad {
        errorType := 2;
      }
      var prefix := ParseInt(texts.prefixLen);
      if prefix.None? {
        return None;
      }
      if prefix.value < 0 || prefix.value > 32 {
        errorType := 3;
      }
      bad := NotIpAddress(texts.gw);
      if bad {
        errorType := 4;
      }
      bad := NotIpAddress(texts.dns1);
      if !bad {
        bad := NotIpAddress(texts.dns2);
      }
      if bad {
        errorType := 5;
      }
      return Some(errorType);
    }

    /** printErrorMsg: shows the code's toast, if it has one. */
    method PrintErrorMsg(code: int)
      modifies this`messages
      ensures MessageFor(code).Some? ==> messages == old(messages) + [MessageFor(code).value]
      ensures MessageFor(code).None? ==> messages == old(messages)
    {
      var m := MessageFor(code);
      if m.Some? {
        messages := messages + [m.value];
      }
    }

    /** A static save that went through: no message, and one request for a named interface of the table. */
    twostate predicate StaticRequestSent()
      reads this
    {
      && messages == old(messages)
      && exists name: string :: Some(name) in availableInterfaces
           && requests == old(requests) + [(Some(name), ipConfiguration)]
    }

    /** A static save that failed: the save-failure message and no request. */
    twostate predicate SaveFailureShown()
      reads this
    {
      messages == old(messages) + [FailedSave] && requests == old(requests)
    }

    /**
     * handle_saveconf: with DHCP checked, setDhcp (message 1 if it fails);
     * otherwise validate, and save statically only on code 0, showing the
     * code's message otherwise and message 1 if the save fails. A prefix
     * that does not parse ends the save silently.
     */
    method HandleSaveConf(validate: (string, string, string) -> int, parse: string -> Option<InetAddr>)
      modifies this`proxySettings, this`httpProxy, this`ipConfiguration, this`availableInterfaces,
               this`requests, this`messages
      ensures dhcpChecked ==> messages == old(messages) && requests == old(requests)
      ensures dhcpChecked ==> (proxySettings, httpProxy) == ProxyFromViews(proxyViews, validate)
      ensures dhcpChecked ==>
                ipConfiguration == old(ipConfiguration).(ipAssignment := Dhcp, proxySettings := proxySettings, httpProxy := httpProxy)
      ensures dhcpChecked ==>
                exists name: Option<string> :: (|old(availableInterfaces)| == 0 ==> name.None?)
                  && (|old(availableInterfaces)| > 0 ==> name in old(availableInterfaces))
                  && availableInterfaces == old(availableInterfaces)[name := ipConfiguration]
      ensures !dhcpChecked && ValidationCode(texts) != Some(0) ==>
                ipConfiguration == old(ipConfiguration) && requests == old(requests)
                && availableInterfaces == old(availableInterfaces)
                && proxySettings == old(proxySettings) && httpProxy == old(httpProxy)
      ensures !dhcpChecked && ValidationCode(texts).None? ==> messages == old(messages)
      ensures !dhcpChecked && ValidationCode(texts).Some? && ValidationCode(texts).value != 0 ==>
                messages == old(messages) + [MessageFor(ValidationCode(texts).value).value]
      ensures !dhcpChecked && ValidationCode(texts) == Some(0) ==>
                availableInterfaces == old(availableInterfaces)
                && (proxySettings, httpProxy) == ProxyFromViews(proxyViews, validate)
      ensures !dhcpChecked && ValidationCode(texts) == Some(0) && StaticConfigOf(texts, parse).None? ==>
                ipConfiguration == old(ipConfiguration).(ipAssignment := Static)
      ensures !dhcpChecked && ValidationCode(texts) == Some(0) && StaticConfigOf(texts, parse).Some? ==>
                ipConfiguration == IpConfiguration(Static, StaticConfigOf(texts, parse), proxySettings, httpProxy)
      ensures !dhcpChecked && ValidationCode(texts) == Some(0) ==> StaticRequestSent() || SaveFailureShown()
      ensures (!dhcpChecked && ValidationCode(texts) == Some(0) && StaticConfigOf(texts, parse).Some? && hasManager
               && |availableInterfaces| > 0 && None !in availableInterfaces) ==> StaticRequestSent()
      ensures (!dhcpChecked && ValidationCode(texts) == Some(0)
               && (StaticConfigOf(texts, parse).None? || !hasManager || |availableInterfaces| == 0)) ==> SaveFailureShown()
    {
      if dhcpChecked {
        var ok := SetDhcp(validate);
        if !ok {
          // setDhcp has no failing path here: its only throw is a call off the UI thread
          assert false;
        }
      } else {
        var result := IsValidAddress();
        if result.None? {
          return;
        }
        if result.value == 0 {
          var ok := SetStatic(validate, parse);
          if !ok {
            PrintErrorMsg(1);
          }
        } else {
          PrintErrorMsg(result.value);
        }
      }
    }

    /** onClick: the positive button saves; any other button does nothing. */
    method OnClick(which: Button, validate: (string, string, string) -> int, parse: string -> Option<InetAddr>)
      modifies this`proxySettings, this`httpProxy, this`ipConfiguration, this`availableInterfaces,
               this`requests, this`messages
      ensures which != Positive ==> unchanged(this)
      ensures which == Positive && dhcpChecked ==>
                messages == old(messages) && requests == old(requests)
                && ipConfiguration == old(ipConfiguration).(ipAssignment := Dhcp, proxySettings := proxySettings, httpProxy := httpProxy)
                && (proxySettings, httpProxy) == ProxyFromViews(proxyViews, validate)
      ensures which == Positive && dhcpChecked ==>
                exists name: Option<string> :: (|old(availableInterfaces)| == 0 ==> name.None?)
                  && (|old(availableInterfaces)| > 0 ==> name in old(availableInterfaces))
                  && availableInterfaces == old(availableInterfaces)[name := ipConfiguration]
      ensures which == Positive && !dhcpChecked && ValidationCode(texts) != Some(0) ==>
                ipConfiguration == old(ipConfiguration) && requests == old(requests)
                && availableInterfaces == old(availableInterfaces)
                && proxySettings == old(proxySettings) && httpProxy == old(httpProxy)
      ensures which == Positive && !dhcpChecked && ValidationCode(texts).None? ==> messages == old(messages)
      ensures which == Positive && !dhcpChecked && ValidationCode(texts).Some? && ValidationCode(texts).value != 0 ==>
                messages == old(messages) + [MessageFor(ValidationCode(texts).value).value]
      ensures which == Positive && !dhcpChecked && ValidationCode(texts) == Some(0) ==>
                availableInterfaces == old(availableInterfaces)
                && (proxySettings, httpProxy) == ProxyFromViews(proxyViews, validate)
                && (StaticConfigOf(texts, parse).Some? ==>
                      ipConfiguration == IpConfiguration(Static, StaticConfigOf(texts, parse), proxySettings, httpProxy))
                && (StaticConfigOf(texts, parse).None? ==> ipConfiguration == old(ipConfiguration).(ipAssignment := Static))
      ensures which == Positive && !dhcpChecked && ValidationCode(texts) == Some(0) ==>
                StaticRequestSent() || SaveFailureShown()
      ensures (which == Positive && !dhcpChecked && ValidationCode(texts) == Some(0) && StaticConfigOf(texts, parse).Some?
               && hasManager && |availableInterfaces| > 0 && None !in availableInterfaces) ==> StaticRequestSent()
      ensures (which == Positive && !dhcpChecked && ValidationCode(texts) == Some(0)
               && (StaticConfigOf(texts, parse).None? || !hasManager || |availableInterfaces| == 0)) ==> SaveFailureShown()
    {
      if which == Positive {
        HandleSaveConf(validate, parse);
      }
    }

    /**
     * getEthernetInfo: fills the five texts from a new EthernetInfo (link
     * properties `lp`, hardware lookup `hw`), or all with "0.0.0.0" when
     * building it throws.
     */
    method GetEthernetInfo(lp: Option<LinkProperties>, hw: HardwareAddress, infoThrows: bool)
      modifies this`texts
      ensures infoThrows ==> texts == FALLBACK_TEXTS
      ensures !infoThrows ==> texts == PrefilledTexts(DigestOf(lp, hw))
    {
      if infoThrows {
        texts := FALLBACK_TEXTS;
        return;
      }
      var info := new EthernetInfo(lp, hw);
      var ipaddr := if info.ipV4Address.Some? then info.ipV4Address.value else DEFAULT_ADDRESS;
      var prefixLen := if PrefixLengthToSubnetMask(info.prefixLen).Some? then IntToString(info.prefixLen) else DEFAULT_PREFIX_LEN;
      var gw := if info.gatewayAddress.Some? then info.gatewayAddress.value else DEFAULT_ADDRESS;
      var dns1 := if info.dns1Address.Some? then info.dns1Address.value else DEFAULT_ADDRESS;
      var dns2 := if info.dns2Address.Some? then info.dns2Address.value else DEFAULT_ADDRESS;
      texts := StaticTexts(ipaddr, prefixLen, gw, dns1, dns2);
    }

    /**
     * updateInfo, given whether the active network is Ethernet: only when
     * Ethernet is available (a manager and a non-empty table) and connected,
     * the radio buttons,
     * address layout and spinner follow the dialog's configuration, and a
     * STATIC one also pre-fills the texts.
     */
    method UpdateInfo(connected: bool, lp: Option<LinkProperties>, hw: HardwareAddress, infoThrows: bool)
      modifies this`ipAssignment, this`dhcpChecked, this`manualChecked, this`addrLayoutVisible,
               this`texts, this`proxySettings, this`proxyViews
      ensures !(hasManager && |availableInterfaces| > 0 && connected) ==>
                && ipAssignment == old(ipAssignment) && proxySettings == old(proxySettings)
                && proxyViews == old(proxyViews) && texts == old(texts)
                && dhcpChecked == old(dhcpChecked) && manualChecked == old(manualChecked)
                && addrLayoutVisible == old(addrLayoutVisible)
      ensures hasManager && |availableInterfaces| > 0 && connected ==>
                && ipAssignment == ipConfiguration.ipAssignment
                && dhcpChecked == (ipAssignment != Static) && manualChecked == (ipAssignment == Static)
                && addrLayoutVisible == (ipAssignment == Static)
                && (ipAssignment != Static ==> texts == old(texts))
                && (ipAssignment == Static && infoThrows ==> texts == FALLBACK_TEXTS)
                && (ipAssignment == Static && !infoThrows ==> texts == PrefilledTexts(DigestOf(lp, hw)))
                && proxySettings == ipConfiguration.proxySettings
                && proxyViews == old(proxyViews).(position := SpinnerPositionFor(proxySettings))
    {
      var ethernetConnected := false;
      if hasManager && |availableInterfaces| > 0 {
        ethernetConnected := connected;
      }
      if ethernetConnected {
        var config := EthernetIpConfiguration();
        if config.Some? {
          ShowIpAssignment(config.value.ipAssignment, lp, hw, infoThrows);
          SelectProxyPosition(config.value.proxySettings);
        }
      }
    }

    /** updateInfo's first half: the assignment, the radio buttons, and for STATIC the layout and pre-fill. */
    method ShowIpAssignment(assignment: IpAssignment, lp: Option<LinkProperties>, hw: HardwareAddress, infoThrows: bool)
      modifies this`ipAssignment, this`dhcpChecked, this`manualChecked, this`addrLayoutVisible, this`texts
      ensures ipAssignment == assignment
      ensures dhcpChecked == (assignment != Static) && manualChecked == (assignment == Static)
      ensures addrLayoutVisible == (assignment == Static)
      ensures assignment != Static ==> texts == old(texts)
      ensures assignment == Static && infoThrows ==> texts == FALLBACK_TEXTS
      ensures assignment == Static && !infoThrows ==> texts == PrefilledTexts(DigestOf(lp, hw))
    {
      ipAssignment := assignment;
      if ipAssignment == Static {
        dhcpChecked := false;
        manualChecked := true;
        addrLayoutVisible := true;
        GetEthernetInfo(lp, hw, infoThrows);
      } else {
        dhcpChecked := true;
        manualChecked := false;
        addrLayoutVisible := false;
      }
    }

    /** updateInfo's second half: the proxy mode, and the spinner moved to its position. */
    method SelectProxyPosition(settings: ProxySettings)
      modifies this`proxySettings, this`proxyViews
      ensures proxySettings == settings
      ensures proxyViews == old(proxyViews).(position := SpinnerPositionFor(settings))
    {
      proxySettings := settings;
      if proxySettings == ProxyStatic {
        proxyViews := proxyViews.(position := PROXY_STATIC);
      } else if proxySettings == ProxyPac {
        proxyViews := proxyViews.(position := PROXY_PAC);
      } else {
        proxyViews := proxyViews.(position := PROXY_NONE);
      }
    }

    /**
     * showProxyFields: shows the section of the selected mode, looks its
     * views up, and copies in the configuration's proxy when it is of that
     * mode's kind.
     */
    method ShowProxyFields()
      modifies this`proxyViews, this`proxyFieldsVisible, this`pacFieldVisible
      ensures proxyFieldsVisible == (proxyViews.position == PROXY_STATIC)
      ensures pacFieldVisible == (proxyViews.position == PROXY_PAC)
      ensures proxyViews.position == old(proxyViews.position)
      ensures proxyViews.hostViewsCreated == (old(proxyViews.hostViewsCreated) || proxyViews.position == PROXY_STATIC)
      ensures proxyViews.pacViewCreated == (old(proxyViews.pacViewCreated) || proxyViews.position == PROXY_PAC)
      ensures var c := EthernetIpConfiguration();
              proxyViews.position == PROXY_STATIC && c.Some? && c.value.httpProxy.Some?
              && c.value.httpProxy.value.DirectProxy? ==>
                var p := c.value.httpProxy.value;
                proxyViews.host == p.host && proxyViews.port == IntToString(p.port)
                && proxyViews.exclusionList == p.exclusionList
      ensures var c := EthernetIpConfiguration();
              proxyViews.position == PROXY_PAC && c.Some? && c.value.httpProxy.Some?
              && c.value.httpProxy.value.PacProxy? ==>
                proxyViews.pacUrl == c.value.httpProxy.value.pacFileUrl
    {
      var config := EthernetIpConfiguration();
      if proxyViews.position == PROXY_STATIC {
        proxyFieldsVisible := true;
        pacFieldVisible := false;
        proxyViews := proxyViews.(hostViewsCreated := true);
        if config.Some? && config.value.httpProxy.Some? && config.value.httpProxy.value.DirectProxy? {
          var p := config.value.httpProxy.value;
          proxyViews := proxyViews.(host := p.host, port := IntToString(p.port), exclusionList := p.exclusionList);
        }
      } else if proxyViews.position == PROXY_PAC {
        proxyFieldsVisible := false;
        pacFieldVisible := true;
        proxyViews := proxyViews.(pacViewCreated := true);
        if config.Some? && config.value.httpProxy.Some? && config.value.httpProxy.value.PacProxy? {
          proxyViews := proxyViews.(pacUrl := config.value.httpProxy.value.pacFileUrl);
        }
      } else {
        proxyFieldsVisible := false;
        pacFieldVisible := false;
      }
    }

    /**
     * onItemSelected on the proxy spinner: the new position, then
     * showProxyFields. SelectedModeSaved then says a save records the mode
     * of the selected position.
     */
    method OnProxyItemSelected(position: int)
      modifies this`proxyViews, this`proxyFieldsVisible, this`pacFieldVisible
      ensures proxyViews.position == position
      ensures proxyFieldsVisible == (position == PROXY_STATIC) && pacFieldVisible == (position == PROXY_PAC)
      ensures proxyViews.hostViewsCreated == (old(proxyViews.hostViewsCreated) || position == PROXY_STATIC)
      ensures proxyViews.pacViewCreated == (old(proxyViews.pacViewCreated) || position == PROXY_PAC)
      ensures var c := EthernetIpConfiguration();
              position == PROXY_STATIC && c.Some? && c.value.httpProxy.Some? && c.value.httpProxy.value.DirectProxy? ==>
                var p := c.value.httpProxy.value;
                proxyViews.host == p.host && proxyViews.port == IntToString(p.port)
                && proxyViews.exclusionList == p.exclusionList
      ensures var c := EthernetIpConfiguration();
              position == PROXY_PAC && c.Some? && c.value.httpProxy.Some? && c.value.httpProxy.value.PacProxy? ==>
                proxyViews.pacUrl == c.value.httpProxy.value.pacFileUrl
    {
      proxyViews := proxyViews.(position := position);
      ShowProxyFields();
    }

    /** The manual radio button: checked, address layout shown, STATIC, texts pre-filled. */
    method OnManualClick(lp: Option<LinkProperties>, hw: HardwareAddress, infoThrows: bool)
      modifies this`dhcpChecked, this`manualChecked, this`addrLayoutVisible, this`ipAssignment, this`texts
      ensures manualChecked && !dhcpChecked && addrLayoutVisible && ipAssignment == Static
      ensures infoThrows ==> texts == FALLBACK_TEXTS
      ensures !infoThrows ==> texts == PrefilledTexts(DigestOf(lp, hw))
    {
      manualChecked := true;
      dhcpChecked := false;
      addrLayoutVisible := true;
      ipAssignment := Static;
      GetEthernetInfo(lp, hw, infoThrows);
    }

    /** The DHCP radio button: checked, address layout hidden, DHCP. */
    method OnDhcpClick()
      modifies this`dhcpChecked, this`manualChecked, this`addrLayoutVisible, this`ipAssignment
      ensures dhcpChecked && !manualChecked && !addrLayoutVisible && ipAssignment == Dhcp
    {
      dhcpChecked := true;
      manualChecked := false;
      addrLayoutVisible := false;
      ipAssignment := Dhcp;
    }
  }
}

=== FILE: ethernet_info.dfy ===
/**
 * EthernetInfo: the digest of the active network's link properties that the
 * Ethernet screens display. The constructor reads the link properties once
 * and picks, from the platform's lists, the address, prefix length, gateway
 * and DNS servers to show, and formats the interface's MAC address.
 */
module EthInfo {
  import opened JavaLang
  import opened NetPlatform

  /** What getMacAddress shows when it has no bytes to format. */
  const UNKNOWN_MAC: string := "??:??:??:??:??:??"

  /** `instanceof Inet4Address` (v4) or `instanceof Inet6Address` (not v4). */
  predicate IsFamily(a: LinkAddress, v4: bool)
  {
    if v4 then a.address.Inet4? else a.address.Inet6?
  }

  /** The index of the last address of the family, or -1 when there is none. */
  function LastIndexOfFamily(addrs: seq<LinkAddress>, v4: bool): (r: int)
    ensures -1 <= r < |addrs|
    ensures r >= 0 ==> IsFamily(addrs[r], v4)
    ensures r >= 0 ==> forall j :: r < j < |addrs| ==> !IsFamily(addrs[j], v4)
    ensures r == -1 <==> forall j :: 0 <= j < |addrs| ==> !IsFamily(addrs[j], v4)
    decreases |addrs|
  {
    if |addrs| == 0 then -1
    else if IsFamily(addrs[|addrs| - 1], v4) then |addrs| - 1
    else LastIndexOfFamily(addrs[..|addrs| - 1], v4)
  }

  /** The index of the first default route, or -1 when there is none. */
  function FirstDefaultIndex(routes: seq<RouteInfo>): (r: int)
    ensures -1 <= r < |routes|
    ensures r >= 0 ==> routes[r].isDefaultRoute
    ensures r >= 0 ==> forall j :: 0 <= j < r ==> !routes[j].isDefaultRoute
    ensures r == -1 <==> forall j :: 0 <= j < |routes| ==> !routes[j].isDefaultRoute
    decreases |routes|
  {
    if |routes| == 0 then -1
    else if routes[0].isDefaultRoute then 0
    else
      var r := FirstDefaultIndex(routes[1..]);
      if r == -1 then -1 else r + 1
  }

  /** The gateway the digest shows: first default route, else last route, else none. */
  function GatewayFor(routes: seq<RouteInfo>): Option<string>
  {
    if |routes| == 0 then None
    else
      var k := FirstDefaultIndex(routes);
      if k >= 0 then Some(routes[k].gateway) else Some(routes[|routes| - 1].gateway)
  }

  /** The gateway is always the gateway of some route: a default one whenever one exists. */
  lemma GatewayChoice(routes: seq<RouteInfo>)
    ensures GatewayFor(routes).None? <==> |routes| == 0
    ensures (exists j :: 0 <= j < |routes| && routes[j].isDefaultRoute) ==>
              exists j :: 0 <= j < |routes| && routes[j].isDefaultRoute
                && GatewayFor(routes) == Some(routes[j].gateway)
                && forall k :: 0 <= k < j ==> !routes[k].isDefaultRoute
    ensures |routes| > 0 && (forall j :: 0 <= j < |routes| ==> !routes[j].isDefaultRoute) ==>
              GatewayFor(routes) == Some(routes[|routes| - 1].gateway)
  {
    if exists j :: 0 <= j < |routes| && routes[j].isDefaultRoute {
      var k := FirstDefaultIndex(routes);
      assert k >= 0;
    }
  }

  /**
   * The MAC text for a run of bytes: each byte as two lowercase hex digits,
   * the groups separated by ':'.
   */
  function MacJoin(mac: seq<JByte>): string
    decreases |mac|
  {
    if |mac| == 0 then ""
    else if |mac| == 1 then HexByte(mac[0])
    else MacJoin(mac[..|mac| - 1]) + ":" + HexByte(mac[|mac| - 1])
  }

  /** getMacAddress's result for each outcome of the hardware-address lookup. */
  function MacText(hw: HardwareAddress): string
  {
    match hw
    case Bytes(mac) => MacJoin(mac)
    case _ => UNKNOWN_MAC
  }

  /**
   * EthernetInfo.getMacAddress: the placeholder when there is no interface,
   * the lookup throws or yields null; otherwise the bytes in "%02x" form,
   * a ':' before every group but the first.
   */
  method GetMacAddress(hw: HardwareAddress) returns (s: string)
    ensures s == MacText(hw)
  {
    if !hw.Bytes? {
      return UNKNOWN_MAC;
    }
    var mac := hw.mac;
    s := "";
    var i := 0;
    while i < |mac|
      invariant 0 <= i <= |mac|
      invariant s == MacJoin(mac[..i])
      invariant |s| == 0 <==> i == 0
    {
      if |s| > 0 {
        s := s + ":";
      }
      s := s + HexByte(mac[i]);
      assert mac[..i + 1][..i] == mac[..i];
      i := i + 1;
    }
    assert mac[..i] == mac;
  }

  /** n bytes give 3n - 1 characters of MAC text (none for n = 0). */
  lemma {:induction false} MacJoinLength(mac: seq<JByte>)
    ensures |MacJoin(mac)| == if |mac| == 0 then 0 else 3 * |mac| - 1
    decreases |mac|
  {
    if |mac| > 1 {
      MacJoinLength(mac[..|mac| - 1]);
    }
  }

  /** The last byte's group closes the text; everything before it is the text of the other bytes. */
  lemma MacJoinSplit(mac: seq<JByte>)
    requires |mac| > 1
    ensures var p := MacJoin(mac[..|mac| - 1]);
            MacJoin(mac)[..|p|] == p && MacJoin(mac)[|p|] == ':'
            && MacJoin(mac)[|p| + 1..] == HexByte(mac[|mac| - 1])
  {
  }

  /** Byte i is printed at positions 3i and 3i + 1. */
  lemma {:induction false} MacJoinGroups(mac: seq<JByte>)
    ensures |MacJoin(mac)| == if |mac| == 0 then 0 else 3 * |mac| - 1
    ensures forall i :: 0 <= i < |mac| ==> MacJoin(mac)[3 * i..3 * i + 2] == HexByte(mac[i])
    decreases |mac|
  {
    MacJoinLength(mac);
    if |mac| > 1 {
      var init := mac[..|mac| - 1];
      MacJoinGroups(init);
      MacJoinSplit(mac);
      var p := MacJoin(init);
      var s := MacJoin(mac);
      forall i | 0 <= i < |mac| ensures s[3 * i..3 * i + 2] == HexByte(mac[i]) {
        if i < |mac| - 1 {
          assert s[3 * i..3 * i + 2] == s[..|p|][3 * i..3 * i + 2];
        }
      }
    }
  }

  /** Consecutive groups are separated by ':' at positions 3i + 2. */
  lemma {:induction false} MacJoinSeparators(mac: seq<JByte>)
    ensures |MacJoin(mac)| == if |mac| == 0 then 0 else 3 * |mac| - 1
    ensures forall i :: 0 <= i < |mac| - 1 ==> MacJoin(mac)[3 * i + 2] == ':'
    decreases |mac|
  {
    MacJoinLength(mac);
    if |mac| > 1 {
      var init := mac[..|mac| - 1];
      MacJoinSeparators(init);
      MacJoinSplit(mac);
      var p := MacJoin(init);
      var s := MacJoin(mac);
      forall i | 0 <= i < |mac| - 1 ensures s[3 * i + 2] == ':' {
        if i < |mac| - 2 {
          assert s[3 * i + 2] == s[..|p|][3 * i + 2];
        }
      }
    }
  }

  /** Two bytes with the same "%02x" text are the same byte. */
  lemma HexByteInjective(a: JByte, b: JByte)
    requires HexByte(a) == HexByte(b)
    ensures a == b
  {
    HexByteRoundTrip(a);
    HexByteRoundTrip(b);
  }

  /** The MAC text determines the bytes: different addresses never display alike. */
  lemma MacJoinInjective(a: seq<JByte>, b: seq<JByte>)
    requires MacJoin(a) == MacJoin(b)
    ensures a == b
  {
    MacJoinGroups(a);
    MacJoinGroups(b);
    assert |a| == |b|;
    forall i | 0 <= i < |a| ensures a[i] == b[i] {
      HexByteInjective(a[i], b[i]);
    }
  }

  /** The placeholder is never the text of real bytes, so it cannot be mistaken for one. */
  lemma UnknownMacIsNotBytes(mac: seq<JByte>)
    ensures MacJoin(mac) != UNKNOWN_MAC
  {
    MacJoinGroups(mac);
    if |mac| == 6 {
      HexByteRoundTrip(mac[0]);
      var g := MacJoin(mac)[0..2];
      assert g == HexByte(mac[0]);
      assert HexDigitValue(g[0]) >= 0;
      assert UNKNOWN_MAC[0] == '?';
    }
  }

  /** The DNS servers the digest shows: the first, and the second when there is one. */
  function Dns1For(dns: seq<InetAddr>): Option<string>
  {
    if |dns| > 0 then Some(dns[0].host) else None
  }

  function Dns2For(dns: seq<InetAddr>): Option<string>
  {
    if |dns| > 1 then Some(dns[1].host) else None
  }

  /** The fields of a constructed EthernetInfo that the Ethernet screens read. */
  datatype Digest = Digest(
    interfaceName: Option<string>,
    hwAddress: Option<string>,
    ipV4Address: Option<string>,
    ipV6Address: Option<string>,
    prefixLen: int,
    gatewayAddress: Option<string>,
    dns1Address: Option<string>,
    dns2Address: Option<string>)

  /** Every field at its initial value: strings null, prefixLen 0. */
  const EMPTY_DIGEST: Digest := Digest(None, None, None, None, 0, None, None, None)

  /**
   * What `new EthernetInfo(cm)` holds for link properties `lp` (None: the
   * null the platform returns without an active network) and the outcome
   * `hw` of the hardware-address lookup.
   */
  function DigestOf(lp: Option<LinkProperties>, hw: HardwareAddress): Digest
  {
    match lp
    case None => EMPTY_DIGEST
    case Some(p) =>
      Digest(Some(p.interfaceName), Some(MacText(hw)),
             EthernetInfo.AddressAfter(p.linkAddresses, true, None),
             EthernetInfo.AddressAfter(p.linkAddresses, false, None),
             EthernetInfo.PrefixAfter(p.linkAddresses, 0),
             GatewayFor(p.routes), Dns1For(p.dnsServers), Dns2For(p.dnsServers))
  }

  /**
   * The digest itself. Fields hold Java's null as None; prefixLen starts at 0.
   * The list-valued text fields (the toString of the address, DNS and route
   * lists, the domains, type, state and bandwidth strings) are not modelled.
   */
  class EthernetInfo {
    var interfaceName: Option<string>
    var hwAddress: Option<string>
    var ipV4Address: Option<string>
    var ipV6Address: Option<string>
    var prefixLen: int
    var gatewayAddress: Option<string>
    var dns1Address: Option<string>
    var dns2Address: Option<string>

    /** The fields the screens read, as one value. */
    function Snapshot(): Digest
      reads this
    {
      Digest(interfaceName, hwAddress, ipV4Address, ipV6Address, prefixLen,
             gatewayAddress, dns1Address, dns2Address)
    }

    /** The value of the v4 or v6 field after the address loop, given its value before. */
    static function AddressAfter(addrs: seq<LinkAddress>, v4: bool, before: Option<string>): Option<string>
    {
      var k := LastIndexOfFamily(addrs, v4);
      if k == -1 then before else Some(addrs[k].address.host)
    }

    static function PrefixAfter(addrs: seq<LinkAddress>, before: int): int
    {
      var k := LastIndexOfFamily(addrs, true);
      if k == -1 then before else addrs[k].prefixLength
    }

    /**
     * `new EthernetInfo(cm)`: every field at its initial value, then getEthInfo
     * on the active network's link properties `lp` and the outcome `hw` of
     * the interface's hardware-address lookup.
     */
    constructor(lp: Option<LinkProperties>, hw: HardwareAddress)
      ensures Snapshot() == DigestOf(lp, hw)
    {
      interfaceName := None;
      hwAddress := None;
      ipV4Address := None;
      ipV6Address := None;
      prefixLen := 0;
      gatewayAddress := None;
      dns1Address := None;
      dns2Address := None;
      new;
      if lp.Some? {
        GetEthInfo(lp.value, hw);
      }
    }

    /**
     * The body of getEthInfo once the link properties are known to be
     * non-null: each field is the selection rule applied to its list, or
     * keeps its previous value where the rule selects nothing.
     */
    method GetEthInfo(lp: LinkProperties, hw: HardwareAddress)
      modifies this
      ensures interfaceName == Some(lp.interfaceName)
      ensures hwAddress == Some(MacText(hw))
      ensures ipV4Address == AddressAfter(lp.linkAddresses, true, old(ipV4Address))
      ensures prefixLen == PrefixAfter(lp.linkAddresses, old(prefixLen))
      ensures ipV6Address == AddressAfter(lp.linkAddresses, false, old(ipV6Address))
      ensures gatewayAddress == (if |lp.routes| == 0 then old(gatewayAddress) else GatewayFor(lp.routes))
      ensures dns1Address == (if |lp.dnsServers| == 0 then old(dns1Address) else Dns1For(lp.dnsServers))
      ensures dns2Address == (if |lp.dnsServers| <= 1 then old(dns2Address) else Dns2For(lp.dnsServers))
    {
      interfaceName := Some(lp.interfaceName);
      var mac := GetMacAddress(hw);
      hwAddress := Some(mac);
      SelectAddresses(lp.linkAddresses);
      SelectGateway(lp.routes);
      SelectDns(lp.dnsServers);
    }

    /** The loop over the link addresses: the last of each family wins. */
    method SelectAddresses(addrs: seq<LinkAddress>)
      modifies this`ipV4Address, this`prefixLen, this`ipV6Address
      ensures ipV4Address == AddressAfter(addrs, true, old(ipV4Address))
      ensures prefixLen == PrefixAfter(addrs, old(prefixLen))
      ensures ipV6Address == AddressAfter(addrs, false, old(ipV6Address))
    {
      var i := 0;
      while i < |addrs|
        invariant 0 <= i <= |addrs|
        invariant ipV4Address == AddressAfter(addrs[..i], true, old(ipV4Address))
        invariant prefixLen == PrefixAfter(addrs[..i], old(prefixLen))
        invariant ipV6Address == AddressAfter(addrs[..i], false, old(ipV6Address))
      {
        assert addrs[..i + 1][..i] == addrs[..i];
        var addr := addrs[i];
        if addr.address.Inet4? {
          ipV4Address := Some(addr.address.host);
          prefixLen := addr.prefixLength;
        } else if addr.address.Inet6? {
          ipV6Address := Some(addr.address.host);
        }
        i := i + 1;
      }
      assert addrs[..i] == addrs;
    }

    /**
     * The gateway: the first default route stops the search; with none, the
     * last route; with no routes at all the field is left alone.
     */
    method SelectGateway(routes: seq<RouteInfo>)
      modifies this`gatewayAddress
      ensures gatewayAddress == (if |routes| == 0 then old(gatewayAddress) else GatewayFor(routes))
    {
      if |routes| > 0 {
        var found := false;
        var j := 0;
        while j < |routes|
          invariant 0 <= j <= |routes|
          invariant forall k :: 0 <= k < j ==> !routes[k].isDefaultRoute
          invariant gatewayAddress == old(gatewayAddress) && !found
        {
          if routes[j].isDefaultRoute {
            gatewayAddress := Some(routes[j].gateway);
            found := true;
            break;
          }
          j := j + 1;
        }
        if !found {
          gatewayAddress := Some(routes[|routes| - 1].gateway);
        }
      }
    }

    /** The first two DNS servers; each field is only written when its server exists. */
    method SelectDns(dns: seq<InetAddr>)
      modifies this`dns1Address, this`dns2Address
      ensures dns1Address == (if |dns| == 0 then old(dns1Address) else Dns1For(dns))
      ensures dns2Address == (if |dns| <= 1 then old(dns2Address) else Dns2For(dns))
    {
      if |dns| > 0 {
        dns1Address := Some(dns[0].host);
        if |dns| > 1 {
          dns2Address := Some(dns[1].host);
        }
      }
    }
  }

  /**
   * The address loop keeps the last address of each family: the IPv4 text and
   * the prefix length come from the same (last) IPv4 entry.
   */
  lemma LastAddressWins(addrs: seq<LinkAddress>, a: LinkAddress)
    requires a.address.Inet4?
    ensures EthernetInfo.AddressAfter(addrs + [a], true, None) == Some(a.address.host)
    ensures EthernetInfo.PrefixAfter(addrs + [a], 0) == a.prefixLength
    ensures EthernetInfo.AddressAfter(addrs + [a], false, None) == EthernetInfo.AddressAfter(addrs, false, None)
  {
    var s := addrs + [a];
    assert s[..|s| - 1] == addrs;
  }

  /** With no address of a family, its field keeps the value it had. */
  lemma NoAddressKeepsDefault(addrs: seq<LinkAddress>, v4: bool, before: Option<string>)
    requires forall j :: 0 <= j < |addrs| ==> !IsFamily(addrs[j], v4)
    ensures EthernetInfo.AddressAfter(addrs, v4, before) == before
  {
  }

  /** Servers beyond the second are ignored. */
  lemma ExtraDnsIgnored(dns: seq<InetAddr>, more: seq<InetAddr>)
    requires |dns| >= 2
    ensures Dns1For(dns + more) == Dns1For(dns) && Dns2For(dns + more) == Dns2For(dns)
  {
  }
}

=== FILE: ethernet_settings.dfy ===
/**
 * EthernetSettings: the status screen. It keeps seven display strings (MAC,
 * IPv4 address, netmask, gateway, two DNS servers, IPv6 address), fills them
 * from an EthernetInfo digest or with the "0.0.0.0" placeholder, and copies
 * them into the summaries of seven preferences.
 */
module EthSettings {
  import opened JavaLang
  import opened NetPlatform
  import opened DottedQuad
  import opened EthInfo

  /** The placeholder shown for every missing value. */
  const NULL_IP_INFO: string := "0.0.0.0"

  /**
   * The per-field rule of getEthInfo: a null or empty value shows as the
   * placeholder, anything else as itself.
   */
  function Normalize(v: Option<string>): (r: string)
    ensures r != []
    ensures r == NULL_IP_INFO || v == Some(r)
  {
    if v.None? || v.value == "" then NULL_IP_INFO else v.value
  }

  /** Normalize keeps every value it can keep and replaces exactly the null and empty ones. */
  lemma NormalizeKeeps(v: Option<string>)
    ensures (v.Some? && v.value != []) <==> (v.Some? && Normalize(v) == v.value)
  {
  }

  /** Normalising a shown value again changes nothing. */
  lemma NormalizeIdempotent(v: Option<string>)
    ensures Normalize(Some(Normalize(v))) == Normalize(v)
  {
  }

  /** The preferences of the screen, by key: the seven status rows and any other. */
  datatype PrefKey =
    | MacAddressKey | IpAddressKey | NetmaskKey | GatewayKey
    | Dns1Key | Dns2Key | Ipv6AddressKey
    | OtherKey(name: string)

  /** The seven display strings, in the order setSummary writes them. */
  datatype StatusFields = StatusFields(
    mac: Option<string>, ip: Option<string>, netmask: Option<string>,
    gateway: Option<string>, dns1: Option<string>, dns2: Option<string>,
    ipv6: Option<string>)

  /** The summaries setSummary writes, key by key. */
  function SummaryWrites(f: StatusFields): (m: map<PrefKey, Option<string>>)
    ensures m.Keys == {MacAddressKey, IpAddressKey, NetmaskKey, GatewayKey, Dns1Key, Dns2Key, Ipv6AddressKey}
    ensures m[MacAddressKey] == f.mac && m[IpAddressKey] == f.ip && m[NetmaskKey] == f.netmask
    ensures m[GatewayKey] == f.gateway && m[Dns1Key] == f.dns1 && m[Dns2Key] == f.dns2
    ensures m[Ipv6AddressKey] == f.ipv6
  {
    map[MacAddressKey := f.mac, IpAddressKey := f.ip, NetmaskKey := f.netmask,
        GatewayKey := f.gateway, Dns1Key := f.dns1, Dns2Key := f.dns2,
        Ipv6AddressKey := f.ipv6]
  }

  /** The seven single writes of setSummary, one after the other, are the union with SummaryWrites. */
  lemma SevenWrites(m: map<PrefKey, Option<string>>, f: StatusFields)
    ensures m[MacAddressKey := f.mac][IpAddressKey := f.ip][NetmaskKey := f.netmask]
             [GatewayKey := f.gateway][Dns1Key := f.dns1][Dns2Key := f.dns2]
             [Ipv6AddressKey := f.ipv6] == m + SummaryWrites(f)
  {
    var l := m[MacAddressKey := f.mac][IpAddressKey := f.ip][NetmaskKey := f.netmask]
              [GatewayKey := f.gateway][Dns1Key := f.dns1][Dns2Key := f.dns2]
              [Ipv6AddressKey := f.ipv6];
    var r := m + SummaryWrites(f);
    assert l.Keys == r.Keys;
    forall k | k in l ensures l[k] == r[k] {
    }
  }

  /** getNullInfo: every field is the placeholder. */
  const NULL_FIELDS: StatusFields :=
    StatusFields(Some(NULL_IP_INFO), Some(NULL_IP_INFO), Some(NULL_IP_INFO), Some(NULL_IP_INFO),
                 Some(NULL_IP_INFO), Some(NULL_IP_INFO), Some(NULL_IP_INFO))

  /** getEthInfo: each field from the digest, normalised; the netmask from the prefix length. */
  function FieldsFrom(d: Digest): StatusFields
  {
    StatusFields(Some(Normalize(d.hwAddress)), Some(Normalize(d.ipV4Address)),
                 Some(Normalize(PrefixLengthToSubnetMask(d.prefixLen))),
                 Some(Normalize(d.gatewayAddress)), Some(Normalize(d.dns1Address)),
                 Some(Normalize(d.dns2Address)), Some(Normalize(d.ipV6Address)))
  }

  /** Every field holds a non-empty string. */
  predicate AllShown(f: StatusFields)
  {
    && f.mac.Some? && f.mac.value != [] && f.ip.Some? && f.ip.value != []
    && f.netmask.Some? && f.netmask.value != [] && f.gateway.Some? && f.gateway.value != []
    && f.dns1.Some? && f.dns1.value != [] && f.dns2.Some? && f.dns2.value != []
    && f.ipv6.Some? && f.ipv6.value != []
  }

  /** Normalising the fields field by field: what getEthInfo does to an already shown set. */
  function Renormalized(f: StatusFields): StatusFields
  {
    StatusFields(Some(Normalize(f.mac)), Some(Normalize(f.ip)), Some(Normalize(f.netmask)),
                 Some(Normalize(f.gateway)), Some(Normalize(f.dns1)), Some(Normalize(f.dns2)),
                 Some(Normalize(f.ipv6)))
  }

  /**
   * After either branch of UpdateEthStatus no field is null or empty, and
   * normalising the result again changes nothing.
   */
  lemma UpdatedFieldsShown(d: Digest)
    ensures AllShown(NULL_FIELDS) && AllShown(FieldsFrom(d))
    ensures Renormalized(FieldsFrom(d)) == FieldsFrom(d)
    ensures Renormalized(NULL_FIELDS) == NULL_FIELDS
  {
    NormalizeIdempotent(d.hwAddress);
    NormalizeIdempotent(d.ipV4Address);
    NormalizeIdempotent(PrefixLengthToSubnetMask(d.prefixLen));
    NormalizeIdempotent(d.gatewayAddress);
    NormalizeIdempotent(d.dns1Address);
    NormalizeIdempotent(d.dns2Address);
    NormalizeIdempotent(d.ipV6Address);
  }

  /** A valid prefix length shows its netmask; any other shows the placeholder. */
  lemma NetmaskShown(d: Digest)
    ensures 0 <= d.prefixLen <= 32 ==> FieldsFrom(d).netmask == PrefixLengthToSubnetMask(d.prefixLen)
    ensures !(0 <= d.prefixLen <= 32) ==> FieldsFrom(d).netmask == Some(NULL_IP_INFO)
  {
    if 0 <= d.prefixLen <= 32 {
      MaskTextAccepted(d.prefixLen);
      assert PrefixLengthToSubnetMask(d.prefixLen).value != [] by {
        EmptyRejected();
      }
    }
  }

  /**
   * The screen. The seven display strings are static fields in the source,
   * shared by every instance and null only until the first write; here they
   * are per instance and start out null. Every path to setSummary writes
   * all seven first, so the difference is never shown. `summaries` is the
   * summary each preference shows.
   */
  class EthernetSettings {
    var ethMacAddress: Option<string>
    var ethIpAddress: Option<string>
    var ethNetmask: Option<string>
    var ethGateway: Option<string>
    var ethDns1: Option<string>
    var ethDns2: Option<string>
    var ethIpV6Address: Option<string>
    var summaries: map<PrefKey, Option<string>>

    function Fields(): StatusFields
      reads this
    {
      StatusFields(ethMacAddress, ethIpAddress, ethNetmask, ethGateway, ethDns1, ethDns2, ethIpV6Address)
    }

    /** The screen before any update, showing the given summaries. */
    constructor(initial: map<PrefKey, Option<string>>)
      ensures Fields() == StatusFields(None, None, None, None, None, None, None)
      ensures summaries == initial
    {
      ethMacAddress := None;
      ethIpAddress := None;
      ethNetmask := None;
      ethGateway := None;
      ethDns1 := None;
      ethDns2 := None;
      ethIpV6Address := None;
      summaries := initial;
    }

    /** getNullInfo: all seven fields become the placeholder. */
    method GetNullInfo()
      modifies this`ethMacAddress, this`ethIpAddress, this`ethNetmask, this`ethGateway,
               this`ethDns1, this`ethDns2, this`ethIpV6Address
      ensures Fields() == NULL_FIELDS
    {
      ethMacAddress := Some(NULL_IP_INFO);
      ethIpAddress := Some(NULL_IP_INFO);
      ethNetmask := Some(NULL_IP_INFO);
      ethGateway := Some(NULL_IP_INFO);
      ethDns1 := Some(NULL_IP_INFO);
      ethDns2 := Some(NULL_IP_INFO);
      ethIpV6Address := Some(NULL_IP_INFO);
    }

    /**
     * getEthInfo once the EthernetInfo has been built: each field read from
     * it and normalised, the netmask computed from its prefix length.
     */
    method GetEthInfo(info: EthernetInfo)
      modifies this`ethMacAddress, this`ethIpAddress, this`ethNetmask, this`ethGateway,
               this`ethDns1, this`ethDns2, this`ethIpV6Address
      ensures Fields() == FieldsFrom(info.Snapshot())
    {
      ethMacAddress := Some(Normalize(info.hwAddress));
      ethIpAddress := Some(Normalize(info.ipV4Address));
      ethNetmask := Some(Normalize(PrefixLengthToSubnetMask(info.prefixLen)));
      ethGateway := Some(Normalize(info.gatewayAddress));
      ethDns1 := Some(Normalize(info.dns1Address));
      ethDns2 := Some(Normalize(info.dns2Address));
      ethIpV6Address := Some(Normalize(info.ipV6Address));
    }

    /**
     * setSummary: each field to the summary of its own preference, every
     * other preference's summary left as it was.
     */
    method SetSummary()
      modifies this`summaries
      ensures summaries == old(summaries) + SummaryWrites(Fields())
    {
      summaries := summaries[MacAddressKey := ethMacAddress];
      summaries := summaries[IpAddressKey := ethIpAddress];
      summaries := summaries[NetmaskKey := ethNetmask];
      summaries := summaries[GatewayKey := ethGateway];
      summaries := summaries[Dns1Key := ethDns1];
      summaries := summaries[Dns2Key := ethDns2];
      summaries := summaries[Ipv6AddressKey := ethIpV6Address];
      SevenWrites(old(summaries), Fields());
    }

    /**
     * UpdateEthStatus, given whether the active network is Ethernet, the
     * link properties and hardware-address lookup the EthernetInfo reads,
     * and whether building that EthernetInfo throws (a network with link
     * properties but no NetworkInfo or NetworkCapabilities). A throw is
     * caught here, before any field was written, and skips setSummary.
     */
    method UpdateEthStatus(connected: bool, lp: Option<LinkProperties>, hw: HardwareAddress, infoThrows: bool)
      modifies this
      ensures !connected ==> Fields() == NULL_FIELDS && summaries == old(summaries) + SummaryWrites(NULL_FIELDS)
      ensures connected && infoThrows ==> Fields() == old(Fields()) && summaries == old(summaries)
      ensures connected && !infoThrows ==>
                Fields() == FieldsFrom(DigestOf(lp, hw))
                && summaries == old(summaries) + SummaryWrites(FieldsFrom(DigestOf(lp, hw)))
    {
      if !connected {
        GetNullInfo();
        SetSummary();
      } else {
        if infoThrows {
          return;
        }
        var info := new EthernetInfo(lp, hw);
        GetEthInfo(info);
        SetSummary();
      }
    }
  }

  /** Preferences other than the seven status rows never change their summary. */
  lemma OtherSummariesUntouched(before: map<PrefKey, Option<string>>, f: StatusFields, name: string)
    ensures OtherKey(name) in before + SummaryWrites(f) <==> OtherKey(name) in before
    ensures OtherKey(name) in before ==> (before + SummaryWrites(f))[OtherKey(name)] == before[OtherKey(name)]
  {
  }
}

=== FILE: java_lang.dfy ===
/**
 * The few pieces of the Java class library that the Settings code leans on,
 * written out so that their edge cases are explicit: Integer.parseInt and
 * String.valueOf on `int`, String.indexOf(char, from), and "%02x" on a
 * signed Java `byte`.
 */
module JavaLang {

  /** A Java reference that may be null. */
  datatype Option<+T> = None | Some(value: T)

  const INT_MIN: int := -0x8000_0000
  const INT_MAX: int := 0x7fff_ffff

  /** A Java `byte`: signed, two's complement, eight bits. */
  newtype JByte = b: int | -128 <= b < 128

  predicate IsDigit(c: char) { '0' <= c <= '9' }

  /** Every character is a decimal digit (checked from the last one back, as DigitsValue reads them). */
  predicate AllDigits(s: string)
  {
    |s| == 0 || (AllDigits(s[..|s| - 1]) && IsDigit(s[|s| - 1]))
  }

  /** A digit run holds a digit at every position. */
  lemma {:induction false} AllDigitsAt(s: string, i: nat)
    requires AllDigits(s) && i < |s|
    ensures IsDigit(s[i])
    decreases |s|
  {
    if i < |s| - 1 {
      AllDigitsAt(s[..|s| - 1], i);
    }
  }

  function DigitValue(c: char): nat
    requires IsDigit(c)
  {
    (c as int) - ('0' as int)
  }

  function DigitChar(d: nat): (c: char)
    requires d < 10
    ensures IsDigit(c) && DigitValue(c) == d
  {
    ('0' as int + d) as char
  }

  /** The value of a run of decimal digits, most significant digit first. */
  function DigitsValue(s: string): nat
    requires AllDigits(s)
  {
    if |s| == 0 then 0 else 10 * DigitsValue(s[..|s| - 1]) + DigitValue(s[|s| - 1])
  }

  /**
   * Integer.parseInt(s) in radix 10. None stands for the NumberFormatException
   * it throws: empty text, a sign with no digits, a non-digit, or a value
   * outside the 32-bit range. One leading '+' or '-' is accepted.
   */
  function ParseInt(s: string): Option<int>
  {
    if |s| == 0 then None
    else
      var signed := s[0] == '-' || s[0] == '+';
      var digits := if signed then s[1..] else s;
      if |digits| == 0 || !AllDigits(digits) then None
      else
        var magnitude: int := DigitsValue(digits);
        var v := if s[0] == '-' then -magnitude else magnitude;
        if INT_MIN <= v <= INT_MAX then Some(v) else None
  }

  /** Decimal text of a natural number, no leading zeros. */
  function NatToString(n: nat): (s: string)
    decreases n
  {
    if n < 10 then [DigitChar(n)] else NatToString(n / 10) + [DigitChar(n % 10)]
  }

  /** String.valueOf(int) / Integer.toString(int). */
  function IntToString(i: int): string
  {
    if i < 0 then "-" + NatToString(-i) else NatToString(i)
  }

  lemma {:induction false} NatToStringDigits(n: nat)
    ensures |NatToString(n)| >= 1
    ensures AllDigits(NatToString(n))
    ensures DigitsValue(NatToString(n)) == n
    decreases n
  {
    if n >= 10 {
      NatToStringDigits(n / 10);
      var prefix := NatToString(n / 10);
      var s := NatToString(n);
      assert s == prefix + [DigitChar(n % 10)];
      assert s[..|s| - 1] == prefix;
    }
  }

  /** Parsing the decimal text of an `int` gives the `int` back. */
  lemma ParseIntToString(i: int)
    requires INT_MIN <= i <= INT_MAX
    ensures ParseInt(IntToString(i)) == Some(i)
  {
    var m := if i < 0 then -i else i;
    NatToStringDigits(m);
    var s := IntToString(i);
    if i < 0 {
      assert s[1..] == NatToString(m);
    } else {
      assert !(s[0] == '-' || s[0] == '+') by { AllDigitsAt(s, 0); }
    }
  }

  /** Leading zeros do not change the value of a digit run. */
  lemma {:induction false} DigitsValueLeadingZero(s: string)
    requires AllDigits(s)
    ensures AllDigits("0" + s) && DigitsValue("0" + s) == DigitsValue(s)
    decreases |s|
  {
    var t := "0" + s;
    if |s| > 0 {
      DigitsValueLeadingZero(s[..|s| - 1]);
      assert t[..|t| - 1] == "0" + s[..|s| - 1];
    }
  }

  /**
   * String.indexOf(c, from) for a non-negative `from`: the first index at or
   * after `from` that holds `c`, or -1 when there is none (also when `from`
   * is past the end).
   */
  function IndexOf(s: string, c: char, from: nat): (r: int)
    ensures r == -1 || (from <= r < |s| && s[r] == c)
    decreases |s| - from
  {
    if from >= |s| then -1 else if s[from] == c then from else IndexOf(s, c, from + 1)
  }

  /** IndexOf finds the first `c` at or after `from`: -1 exactly when there is none. */
  lemma {:induction false} IndexOfSpec(s: string, c: char, from: nat)
    ensures IndexOf(s, c, from) == -1 ==> forall k :: from <= k < |s| ==> s[k] != c
    ensures IndexOf(s, c, from) != -1 ==> forall k :: from <= k < IndexOf(s, c, from) ==> s[k] != c
    decreases |s| - from
  {
    if from < |s| && s[from] != c {
      IndexOfSpec(s, c, from + 1);
    }
  }

  const HEX_DIGITS: string := "0123456789abcdef"

  /** The unsigned value of a Java byte, as "%02x" reads it. */
  function Unsigned(b: JByte): (u: nat)
    ensures u < 256 && (u as int) % 256 == (b as int) % 256
  {
    if b < 0 then (b as int + 256) as nat else b as nat
  }

  /** String.format("%02x", b) for a Java byte: two lowercase hex digits. */
  function HexByte(b: JByte): string
  {
    var u := Unsigned(b);
    [HEX_DIGITS[u / 16], HEX_DIGITS[u % 16]]
  }

  function HexDigitValue(c: char): int
  {
    if '0' <= c <= '9' then c as int - '0' as int
    else if 'a' <= c <= 'f' then c as int - 'a' as int + 10
    else -1
  }

  /** Reading the two digits back gives the byte's unsigned value: no two bytes print alike. */
  lemma HexByteRoundTrip(b: JByte)
    ensures |HexByte(b)| == 2
    ensures 16 * HexDigitValue(HexByte(b)[0]) + HexDigitValue(HexByte(b)[1]) == Unsigned(b)
  {
    var u := Unsigned(b);
    forall d | 0 <= d < 16 ensures HexDigitValue(HEX_DIGITS[d]) == d {
    }
  }
}

=== FILE: net_platform.dfy ===
/**
 * Values that the Android networking platform hands to the Ethernet screens,
 * reduced to what the Settings code reads from them.
 */
module NetPlatform {
  import opened JavaLang

  /** An InetAddress: its family (the `instanceof` tests) and its host-address text. */
  datatype InetAddr = Inet4(host: string) | Inet6(host: string)

  /**
   * Inet4Address.isMulticastAddress: the address lies in 224.0.0.0/4, the
   * class-D block, so the first octet of its dotted host text is in
   * [224, 239]. An IPv6 address never reaches the static configuration.
   */
  predicate IsMulticast(a: InetAddr)
  {
    && a.Inet4?
    && var dot := IndexOf(a.host, '.', 0);
    && dot > 0
    && var first := ParseInt(a.host[..dot]);
    && first.Some? && 224 <= first.value <= 239
  }

  /** The class-D range in examples: both ends of it, and the addresses just outside. */
  lemma MulticastExamples()
    ensures IsMulticast(Inet4("224.0.0.1")) && IsMulticast(Inet4("239.255.255.250"))
    ensures !IsMulticast(Inet4("223.255.255.255")) && !IsMulticast(Inet4("240.0.0.1"))
    ensures !IsMulticast(Inet4("192.168.1.10")) && !IsMulticast(Inet6("ff02::1"))
  {
    ThreeDigitFirstOctet("224.0.0.1");
    ThreeDigitFirstOctet("239.255.255.250");
    ThreeDigitFirstOctet("223.255.255.255");
    ThreeDigitFirstOctet("240.0.0.1");
    ThreeDigitFirstOctet("192.168.1.10");
  }

  /** An IPv4 host text with a three-digit first block is multicast exactly when that block's value is in [224, 239]. */
  lemma {:induction false} ThreeDigitFirstOctet(host: string)
    requires |host| > 3 && host[3] == '.'
    requires IsDigit(host[0]) && IsDigit(host[1]) && IsDigit(host[2])
    ensures IsMulticast(Inet4(host)) <==>
              224 <= 100 * DigitValue(host[0]) + 10 * DigitValue(host[1]) + DigitValue(host[2]) <= 239
  {
    IndexOfSpec(host, '.', 0);
    assert IndexOf(host, '.', 0) == 3;
    var b := host[..3];
    assert b[..2][..1][..0] == [];
    assert AllDigits(b[..2][..1]) && DigitsValue(b[..2][..1]) == DigitValue(host[0]);
    assert AllDigits(b[..2]) && DigitsValue(b[..2]) == 10 * DigitValue(host[0]) + DigitValue(host[1]);
    assert AllDigits(b);
    assert ParseInt(b) == Some(DigitsValue(b));
  }

  /** A LinkAddress: an address and its prefix length. */
  datatype LinkAddress = LinkAddress(address: InetAddr, prefixLength: int)

  /** A RouteInfo: whether it is a default route, and the text of its gateway. */
  datatype RouteInfo = RouteInfo(isDefaultRoute: bool, gateway: string)

  /**
   * LinkProperties of the active network. Its lists are never null: the
   * digest calls toString on the route and DNS lists before it tests them.
   */
  datatype LinkProperties = LinkProperties(
    interfaceName: string,
    linkAddresses: seq<LinkAddress>,
    routes: seq<RouteInfo>,
    dnsServers: seq<InetAddr>)

  /**
   * What looking up the hardware address of the interface yields:
   * no NetworkInterface (getByName returned null or threw), a
   * SocketException from getHardwareAddress, a null byte array, or the bytes.
   */
  datatype HardwareAddress = NoInterface | LookupFailed | NullAddress | Bytes(mac: seq<JByte>)

  datatype IpAssignment = IpUnassigned | Static | Dhcp

  datatype ProxySettings = ProxyNone | ProxyStatic | ProxyUnassigned | ProxyPac

  /** ProxyInfo as built by buildDirectProxy or buildPacProxy. */
  datatype ProxyInfo =
    | DirectProxy(host: string, port: int, exclusionList: string)
    | PacProxy(pacFileUrl: string)

  datatype StaticIpConfiguration = StaticIpConfiguration(
    ipAddress: LinkAddress,
    gateway: Option<InetAddr>,
    dnsServers: seq<InetAddr>)

  datatype IpConfiguration = IpConfiguration(
    ipAssignment: IpAssignment,
    staticIpConfiguration: Option<StaticIpConfiguration>,
    proxySettings: ProxySettings,
    httpProxy: Option<ProxyInfo>)

  /** `new IpConfiguration()`: everything unassigned. */
  const EMPTY_IP_CONFIGURATION: IpConfiguration :=
    IpConfiguration(IpUnassigned, None, ProxyUnassigned, None)

  /** The interface states EthernetManager reports to a listener. */
  datatype InterfaceState = StateAbsent | StateLinkDown | StateLinkUp
}

=== FILE: preference_list.dfy ===
/**
 * The app-list bookkeeping of the battery-usage controller, as values: the
 * preference group is an ordered list of preferences, the preference cache
 * a map from key to preference. The functions here are the specifications
 * the controller's loops are proved against.
 */
module PreferenceList {
  import opened JavaLang
  import opened BatteryUsageRules

  /**
   * A preference of the list: its key, its order, the entry it shows (none
   * for the expand divider) and its summary lines.
   */
  datatype Pref = Pref(key: string, order: int, entry: Option<BatteryDiffEntry>, summary: Option<seq<UsageText>>)

  /** The group, the cache, and the next order addPreferenceToScreen hands out. */
  datatype ListState = ListState(group: seq<Pref>, cache: map<string, Pref>, prefIndex: int)

  /** The keys of the preferences in a group. */
  function KeysOf(g: seq<Pref>): set<string>
  {
    if g == [] then {} else {g[0].key} + KeysOf(g[1..])
  }

  /** No two preferences of the group share a key. */
  predicate UniqueKeys(g: seq<Pref>)
  {
    g == [] || (g[0].key !in KeysOf(g[1..]) && UniqueKeys(g[1..]))
  }

  /** The key of an entry: its history entry's key. */
  function EntryKey(e: BatteryDiffEntry): string
  {
    e.hist.key
  }

  /** The keys of a list of entries. */
  function EntryKeys(es: seq<BatteryDiffEntry>): set<string>
  {
    if es == [] then {} else {EntryKey(es[0])} + EntryKeys(es[1..])
  }

  /** No two entries share a key. */
  predicate DistinctEntryKeys(es: seq<BatteryDiffEntry>)
  {
    es == [] || (EntryKey(es[0]) !in EntryKeys(es[1..]) && DistinctEntryKeys(es[1..]))
  }

  /** findPreference: the index of the first preference with the key, or -1. */
  function FindPreference(g: seq<Pref>, key: string): (j: int)
    ensures -1 <= j < |g|
    ensures j == -1 <==> key !in KeysOf(g)
    ensures j >= 0 ==> g[j].key == key && forall i :: 0 <= i < j ==> g[i].key != key
  {
    if g == [] then -1
    else if g[0].key == key then 0
    else
      var r := FindPreference(g[1..], key);
      if r < 0 then -1 else r + 1
  }

  lemma {:induction false} MemberKey(g: seq<Pref>, p: Pref)
    requires p in g
    ensures p.key in KeysOf(g)
  {
    if g[0] != p {
      MemberKey(g[1..], p);
    }
  }

  lemma {:induction false} KeysOfAppend(g: seq<Pref>, p: Pref)
    ensures KeysOf(g + [p]) == KeysOf(g) + {p.key}
  {
    if g != [] {
      assert (g + [p])[1..] == g[1..] + [p];
      KeysOfAppend(g[1..], p);
    } else {
      assert (g + [p])[1..] == [];
    }
  }

  lemma {:induction false} KeysOfUpdate(g: seq<Pref>, j: int, p: Pref)
    requires 0 <= j < |g| && p.key == g[j].key
    ensures KeysOf(g[j := p]) == KeysOf(g)
    ensures UniqueKeys(g) ==> UniqueKeys(g[j := p])
  {
    if j > 0 {
      assert g[j := p][1..] == g[1..][j - 1 := p];
      KeysOfUpdate(g[1..], j - 1, p);
    } else {
      assert g[j := p][1..] == g[1..];
    }
  }

  lemma {:induction false} UniqueAppend(g: seq<Pref>, p: Pref)
    requires UniqueKeys(g) && p.key !in KeysOf(g)
    ensures UniqueKeys(g + [p])
  {
    if g != [] {
      assert (g + [p])[1..] == g[1..] + [p];
      UniqueAppend(g[1..], p);
      KeysOfAppend(g[1..], p);
    } else {
      assert (g + [p])[1..] == [];
    }
  }

  /** An entry addPreferenceToScreen keeps: a non-empty label and an icon. */
  predicate HasResources(e: BatteryDiffEntry)
  {
    e.appLabel.Some? && e.appLabel.value != "" && e.hasIcon
  }

  /** The entries addPreferenceToScreen keeps, in order. */
  function Kept(es: seq<BatteryDiffEntry>): (k: seq<BatteryDiffEntry>)
    ensures |k| <= |es|
    ensures forall e :: e in k ==> e in es && HasResources(e)
    ensures forall e :: e in es && HasResources(e) ==> e in k
  {
    if es == [] then []
    else if HasResources(es[0]) then [es[0]] + Kept(es[1..])
    else Kept(es[1..])
  }

  /**
   * The preference for an entry at an order: keyed by the entry, showing it,
   * with setPreferenceSummary's summary. `hidden` stands for the package
   * test of isValidToShowSummary (DataProcessor.contains over the hidden
   * packages).
   */
  function PrefFor(e: BatteryDiffEntry, order: int, hidden: Option<string> -> bool): Pref
  {
    Pref(EntryKey(e), order, Some(e), PreferenceSummary(e, !hidden(e.packageName)))
  }

  /**
   * One iteration of addPreferenceToScreen: an entry without resources is
   * skipped; otherwise its preference, at the next order, replaces the one
   * with its key in the group, or is appended and cached.
   */
  function PlaceEntry(s: ListState, e: BatteryDiffEntry, hidden: Option<string> -> bool): ListState
  {
    if !HasResources(e) then s
    else
      var p := PrefFor(e, s.prefIndex, hidden);
      var j := FindPreference(s.group, p.key);
      if j >= 0 then ListState(s.group[j := p], s.cache, s.prefIndex + 1)
      else ListState(s.group + [p], s.cache[p.key := p], s.prefIndex + 1)
  }

  /** The whole loop of addPreferenceToScreen. */
  function PlaceAll(s: ListState, es: seq<BatteryDiffEntry>, hidden: Option<string> -> bool): ListState
    decreases |es|
  {
    if es == [] then s else PlaceAll(PlaceEntry(s, es[0], hidden), es[1..], hidden)
  }

  /** addPreferenceToScreen from a group and cache: orders start at the group's size. */
  function Placed(g: seq<Pref>, c: map<string, Pref>, es: seq<BatteryDiffEntry>, hidden: Option<string> -> bool): ListState
  {
    PlaceAll(ListState(g, c, |g|), es, hidden)
  }

  lemma PlaceEntryFacts(s: ListState, e: BatteryDiffEntry, hidden: Option<string> -> bool)
    ensures var r := PlaceEntry(s, e, hidden);
            && KeysOf(r.group) == KeysOf(s.group) + (if HasResources(e) then {EntryKey(e)} else {})
            && (UniqueKeys(s.group) ==> UniqueKeys(r.group))
            && r.prefIndex == s.prefIndex + (if HasResources(e) then 1 else 0)
            && s.cache.Keys <= r.cache.Keys
            && KeysOf(r.group) - KeysOf(s.group) <= r.cache.Keys
            && |s.group| <= |r.group|
            && forall i :: 0 <= i < |s.group| && (!HasResources(e) || s.group[i].key != EntryKey(e)) ==> r.group[i] == s.group[i]
  {
    if HasResources(e) {
      var p := PrefFor(e, s.prefIndex, hidden);
      var j := FindPreference(s.group, p.key);
      if j >= 0 {
        KeysOfUpdate(s.group, j, p);
      } else {
        KeysOfAppend(s.group, p);
        if UniqueKeys(s.group) {
          UniqueAppend(s.group, p);
        }
      }
    }
  }

  /**
   * After addPreferenceToScreen the group's keys are the old ones plus those
   * of the kept entries; distinct keys stay distinct; the next order has
   * advanced once per kept entry; every key new to the group is cached and
   * no cached key is lost; and a preference whose key no kept entry carries
   * stays where it was.
   */
  lemma {:induction false} PlaceAllFacts(s: ListState, es: seq<BatteryDiffEntry>, hidden: Option<string> -> bool)
    ensures var r := PlaceAll(s, es, hidden);
            && KeysOf(r.group) == KeysOf(s.group) + EntryKeys(Kept(es))
            && (UniqueKeys(s.group) ==> UniqueKeys(r.group))
            && r.prefIndex == s.prefIndex + |Kept(es)|
            && s.cache.Keys <= r.cache.Keys
            && KeysOf(r.group) - KeysOf(s.group) <= r.cache.Keys
            && |s.group| <= |r.group|
            && forall i :: 0 <= i < |s.group| && s.group[i].key !in EntryKeys(Kept(es)) ==> r.group[i] == s.group[i]
    decreases |es|
  {
    if es != [] {
      var s1 := PlaceEntry(s, es[0], hidden);
      PlaceEntryFacts(s, es[0], hidden);
      PlaceAllFacts(s1, es[1..], hidden);
      if HasResources(es[0]) {
        assert Kept(es) == [es[0]] + Kept(es[1..]);
        assert EntryKeys(Kept(es)) == {EntryKey(es[0])} + EntryKeys(Kept(es[1..]));
      } else {
        assert Kept(es) == Kept(es[1..]);
      }
    }
  }

  /** Every kept entry's key is in the group afterwards. */
  lemma KeptEntriesShown(g: seq<Pref>, c: map<string, Pref>, es: seq<BatteryDiffEntry>, hidden: Option<string> -> bool)
    ensures forall e :: e in Kept(es) ==> EntryKey(e) in KeysOf(Placed(g, c, es, hidden).group)
  {
    PlaceAllFacts(ListState(g, c, |g|), es, hidden);
    forall e | e in Kept(es)
      ensures EntryKey(e) in EntryKeys(Kept(es))
    {
      EntryKeyMember(Kept(es), e);
    }
  }

  lemma {:induction false} EntryKeyMember(es: seq<BatteryDiffEntry>, e: BatteryDiffEntry)
    requires e in es
    ensures EntryKey(e) in EntryKeys(es)
  {
    if es[0] != e {
      EntryKeyMember(es[1..], e);
    }
  }

  /** The preferences for fresh entries, at consecutive orders from `start`. */
  function FreshPrefs(ks: seq<BatteryDiffEntry>, start: int, hidden: Option<string> -> bool): (r: seq<Pref>)
    ensures |r| == |ks|
  {
    if ks == [] then [] else [PrefFor(ks[0], start, hidden)] + FreshPrefs(ks[1..], start + 1, hidden)
  }

  /**
   * When the kept entries have distinct keys, none of them in the group yet,
   * addPreferenceToScreen appends one preference per kept entry, in order,
   * with consecutive orders from the starting index.
   */
  lemma {:induction false} PlaceAllFresh(s: ListState, es: seq<BatteryDiffEntry>, hidden: Option<string> -> bool)
    requires DistinctEntryKeys(Kept(es))
    requires EntryKeys(Kept(es)) !! KeysOf(s.group)
    ensures PlaceAll(s, es, hidden).group == s.group + FreshPrefs(Kept(es), s.prefIndex, hidden)
    decreases |es|, 1
  {
    if es == [] {
      assert s.group + [] == s.group;
    } else if !HasResources(es[0]) {
      assert Kept(es) == Kept(es[1..]);
      PlaceAllFresh(s, es[1..], hidden);
    } else {
      PlaceAllFreshKept(s, es, hidden);
    }
  }

  /** PlaceAllFresh when the first entry is kept. */
  lemma {:induction false} PlaceAllFreshKept(s: ListState, es: seq<BatteryDiffEntry>, hidden: Option<string> -> bool)
    requires es != [] && HasResources(es[0])
    requires DistinctEntryKeys(Kept(es))
    requires EntryKeys(Kept(es)) !! KeysOf(s.group)
    ensures PlaceAll(s, es, hidden).group == s.group + FreshPrefs(Kept(es), s.prefIndex, hidden)
    decreases |es|, 0
  {
    var p := PrefFor(es[0], s.prefIndex, hidden);
    var rest := Kept(es[1..]);
    FreshFirst(s, es, p);
    PlaceNew(s, es[0], hidden);
    var s' := ListState(s.group + [p], s.cache[p.key := p], s.prefIndex + 1);
    assert PlaceAll(s, es, hidden) == PlaceAll(s', es[1..], hidden);
    PlaceAllFresh(s', es[1..], hidden);
    assert Kept(es)[0] == es[0] && Kept(es)[1..] == rest;
    FreshStep(s.group, Kept(es), s.prefIndex, hidden);
  }

  /** Appending the first fresh preference, then the rest, appends them all. */
  lemma FreshStep(g: seq<Pref>, ks: seq<BatteryDiffEntry>, start: int, hidden: Option<string> -> bool)
    requires ks != []
    ensures (g + [PrefFor(ks[0], start, hidden)]) + FreshPrefs(ks[1..], start + 1, hidden)
            == g + FreshPrefs(ks, start, hidden)
  {
    var p := PrefFor(ks[0], start, hidden);
    var tail := FreshPrefs(ks[1..], start + 1, hidden);
    assert FreshPrefs(ks, start, hidden) == [p] + tail;
    assert (g + [p]) + tail == g + ([p] + tail);
  }

  /** An entry with resources whose key is not in the group is appended and cached. */
  lemma PlaceNew(s: ListState, e: BatteryDiffEntry, hidden: Option<string> -> bool)
    requires HasResources(e) && EntryKey(e) !in KeysOf(s.group)
    ensures PlaceEntry(s, e, hidden) == ListState(s.group + [PrefFor(e, s.prefIndex, hidden)],
              s.cache[EntryKey(e) := PrefFor(e, s.prefIndex, hidden)], s.prefIndex + 1)
  {
    assert FindPreference(s.group, EntryKey(e)) == -1;
  }

  /** After the first kept entry of a fresh list is appended, the rest stay fresh. */
  lemma FreshFirst(s: ListState, es: seq<BatteryDiffEntry>, p: Pref)
    requires es != [] && HasResources(es[0]) && p.key == EntryKey(es[0])
    requires DistinctEntryKeys(Kept(es))
    requires EntryKeys(Kept(es)) !! KeysOf(s.group)
    ensures Kept(es) == [es[0]] + Kept(es[1..])
    ensures EntryKey(es[0]) !in KeysOf(s.group)
    ensures DistinctEntryKeys(Kept(es[1..]))
    ensures EntryKeys(Kept(es[1..])) !! KeysOf(s.group + [p])
  {
    var k := Kept(es);
    var rest := Kept(es[1..]);
    assert k == [es[0]] + rest;
    assert k[1..] == rest;
    assert EntryKeys(k) == {p.key} + EntryKeys(rest);
    KeysOfAppend(s.group, p);
  }

  /**
   * removeAndCacheAllPrefs' loop: each preference with a non-empty key put
   * into the cache under it, first to last.
   */
  function CacheAll(c: map<string, Pref>, g: seq<Pref>): map<string, Pref>
    decreases |g|
  {
    if g == [] then c
    else
      var before := CacheAll(c, g[..|g| - 1]);
      var p := g[|g| - 1];
      if p.key == "" then before else before[p.key := p]
  }

  /** The cache afterwards holds its old keys plus every non-empty key of the group. */
  lemma {:induction false} CacheAllKeys(c: map<string, Pref>, g: seq<Pref>)
    ensures CacheAll(c, g).Keys == c.Keys + (KeysOf(g) - {""})
    decreases |g|
  {
    if g != [] {
      var n := |g| - 1;
      CacheAllKeys(c, g[..n]);
      assert g == g[..n] + [g[n]];
      KeysOfAppend(g[..n], g[n]);
    }
  }

  /** A keyed preference that no later preference shares its key with is what the cache holds for it. */
  lemma {:induction false} CacheAllLast(c: map<string, Pref>, g: seq<Pref>, i: int)
    requires 0 <= i < |g| && g[i].key != ""
    requires forall j :: i < j < |g| ==> g[j].key != g[i].key
    ensures g[i].key in CacheAll(c, g) && CacheAll(c, g)[g[i].key] == g[i]
    decreases |g|
  {
    var n := |g| - 1;
    if i < n {
      CacheAllLast(c, g[..n], i);
    }
  }

  /** Keys not in the group keep their cache entry, or their absence. */
  lemma {:induction false} CacheAllOther(c: map<string, Pref>, g: seq<Pref>, k: string)
    requires k !in KeysOf(g)
    ensures k in CacheAll(c, g) <==> k in c
    ensures k in c ==> CacheAll(c, g)[k] == c[k]
    decreases |g|
  {
    if g != [] {
      var n := |g| - 1;
      assert g == g[..n] + [g[n]];
      KeysOfAppend(g[..n], g[n]);
      CacheAllOther(c, g[..n], k);
    }
  }

  /** The group without the preferences whose key is in K, order kept. */
  function Without(g: seq<Pref>, K: set<string>): seq<Pref>
  {
    if g == [] then []
    else (if g[0].key in K then [] else [g[0]]) + Without(g[1..], K)
  }

  lemma {:induction false} WithoutFacts(g: seq<Pref>, K: set<string>)
    ensures KeysOf(Without(g, K)) == KeysOf(g) - K
    ensures UniqueKeys(g) ==> UniqueKeys(Without(g, K))
    ensures KeysOf(g) !! K ==> Without(g, K) == g
  {
    if g != [] {
      WithoutFacts(g[1..], K);
      var w := Without(g, K);
      if g[0].key !in K {
        assert w == [g[0]] + Without(g[1..], K);
        assert w[1..] == Without(g[1..], K);
        assert KeysOf(w) == {g[0].key} + KeysOf(Without(g[1..], K));
        if KeysOf(g) !! K {
          assert g == [g[0]] + g[1..];
        }
      } else {
        assert w == Without(g[1..], K);
      }
    }
  }

  lemma {:induction false} WithoutMember(g: seq<Pref>, K: set<string>, p: Pref)
    ensures p in Without(g, K) <==> p in g && p.key !in K
  {
    if g != [] {
      WithoutMember(g[1..], K, p);
      assert p in g <==> p == g[0] || p in g[1..];
    }
  }

  lemma {:induction false} WithoutTwice(g: seq<Pref>, A: set<string>, B: set<string>)
    ensures Without(Without(g, A), B) == Without(g, A + B)
  {
    if g != [] {
      WithoutTwice(g[1..], A, B);
      var wa := Without(g, A);
      if g[0].key !in A {
        assert wa == [g[0]] + Without(g[1..], A);
        assert wa[0] == g[0] && wa[1..] == Without(g[1..], A);
        assert Without(wa, B) == (if g[0].key in B then [] else [g[0]]) + Without(Without(g[1..], A), B);
      } else {
        assert wa == Without(g[1..], A);
      }
    }
  }

  /** In a group with distinct keys, removing the first preference with a key removes every one. */
  lemma {:induction false} RemoveFirstIsWithout(g: seq<Pref>, k: string)
    requires UniqueKeys(g)
    ensures var j := FindPreference(g, k);
            (if j < 0 then g else g[..j] + g[j + 1..]) == Without(g, {k})
  {
    var j := FindPreference(g, k);
    if j < 0 {
      WithoutFacts(g, {k});
    } else if j == 0 {
      WithoutFacts(g[1..], {k});
      assert g[..0] + g[1..] == g[1..];
    } else {
      RemoveFirstIsWithout(g[1..], k);
      assert FindPreference(g[1..], k) == j - 1;
      assert g[..j] + g[j + 1..] == [g[0]] + (g[1..][..j - 1] + g[1..][j..]);
    }
  }

  /**
   * One iteration of the collapsed refreshExpandUi: the first preference
   * with the entry's key leaves the group and goes into the cache.
   */
  function RemoveEntry(s: ListState, e: BatteryDiffEntry): ListState
  {
    var j := FindPreference(s.group, EntryKey(e));
    if j < 0 then s
    else ListState(s.group[..j] + s.group[j + 1..], s.cache[s.group[j].key := s.group[j]], s.prefIndex)
  }

  /** The whole loop of the collapsed refreshExpandUi. */
  function CollapseAll(s: ListState, es: seq<BatteryDiffEntry>): ListState
    decreases |es|
  {
    if es == [] then s else CollapseAll(RemoveEntry(s, es[0]), es[1..])
  }

  /**
   * With distinct keys in the group, collapsing leaves exactly the
   * preferences whose key no system entry carries, in their order.
   */
  lemma {:induction false} CollapseAllGroup(s: ListState, es: seq<BatteryDiffEntry>)
    requires UniqueKeys(s.group)
    ensures CollapseAll(s, es).group == Without(s.group, EntryKeys(es))
    ensures UniqueKeys(CollapseAll(s, es).group)
    decreases |es|
  {
    if es == [] {
      WithoutFacts(s.group, {});
    } else {
      var s1 := RemoveEntry(s, es[0]);
      RemoveFirstIsWithout(s.group, EntryKey(es[0]));
      WithoutFacts(s.group, {EntryKey(es[0])});
      CollapseAllGroup(s1, es[1..]);
      WithoutTwice(s.group, {EntryKey(es[0])}, EntryKeys(es[1..]));
    }
  }

  /** A key not in the group is never written by the collapse. */
  lemma {:induction false} CollapseUntouched(s: ListState, es: seq<BatteryDiffEntry>, k: string)
    requires k !in KeysOf(s.group)
    ensures k in CollapseAll(s, es).cache <==> k in s.cache
    ensures k in s.cache ==> CollapseAll(s, es).cache[k] == s.cache[k]
    decreases |es|
  {
    if es != [] {
      var s1 := RemoveEntry(s, es[0]);
      var j := FindPreference(s.group, EntryKey(es[0]));
      if j >= 0 {
        KeysOfRemove(s.group, j);
      }
      CollapseUntouched(s1, es[1..], k);
    }
  }

  /** The collapse only adds to the cache. */
  lemma {:induction false} CollapseCacheGrows(s: ListState, es: seq<BatteryDiffEntry>)
    ensures s.cache.Keys <= CollapseAll(s, es).cache.Keys
    decreases |es|
  {
    if es != [] {
      CollapseCacheGrows(RemoveEntry(s, es[0]), es[1..]);
    }
  }

  /** Taking one preference out of a group adds no key. */
  lemma {:induction false} KeysOfRemove(g: seq<Pref>, j: int)
    requires 0 <= j < |g|
    ensures KeysOf(g[..j] + g[j + 1..]) <= KeysOf(g)
    decreases j
  {
    var r := g[..j] + g[j + 1..];
    if j == 0 {
      assert r == g[1..];
    } else {
      var t := g[1..];
      KeysOfRemove(t, j - 1);
      assert r[0] == g[0];
      assert r[1..] == t[..j - 1] + t[j..];
    }
  }

  lemma {:induction false} KeysOfConcat(a: seq<Pref>, b: seq<Pref>)
    ensures KeysOf(a + b) == KeysOf(a) + KeysOf(b)
  {
    if a != [] {
      assert (a + b)[1..] == a[1..] + b;
      KeysOfConcat(a[1..], b);
    } else {
      assert a + b == b;
    }
  }

  /**
   * With distinct keys in the group, every preference the collapse removes
   * ends up in the cache under its key.
   */
  lemma {:induction false} CollapseAllCaches(s: ListState, es: seq<BatteryDiffEntry>, p: Pref)
    requires UniqueKeys(s.group)
    requires p in s.group && p.key in EntryKeys(es)
    ensures p.key in CollapseAll(s, es).cache && CollapseAll(s, es).cache[p.key] == p
    decreases |es|
  {
    var s1 := RemoveEntry(s, es[0]);
    var k0 := EntryKey(es[0]);
    RemoveFirstIsWithout(s.group, k0);
    WithoutFacts(s.group, {k0});
    if p.key == k0 {
      MemberKey(s.group, p);
      var j := FindPreference(s.group, k0);
      UniqueAt(s.group, p, j);
      assert s1.cache[p.key] == p;
      CollapseUntouched(s1, es[1..], p.key);
    } else {
      WithoutMember(s.group, {k0}, p);
      CollapseAllCaches(s1, es[1..], p);
    }
  }

  /** In a group with distinct keys, the preference with a given key is the one at its index. */
  lemma {:induction false} UniqueAt(g: seq<Pref>, p: Pref, j: int)
    requires UniqueKeys(g) && p in g && 0 <= j < |g| && g[j].key == p.key
    ensures g[j] == p
  {
    if g[0] == p {
      if j > 0 {
        assert g[j] in g[1..];
        MemberKey(g[1..], g[j]);
      }
    } else {
      if j == 0 {
        assert p in g[1..];
        MemberKey(g[1..], p);
      } else {
        UniqueAt(g[1..], p, j - 1);
      }
    }
  }

  /** The expand divider, at an order. */
  function Divider(dividerKey: string, order: int): Pref
  {
    Pref(dividerKey, order, None, None)
  }

  /**
   * addAllPreferences once the slot's data exists: the app entries, then the
   * divider when there are system entries, then refreshExpandUi, which adds
   * the system entries when expanded and removes them when collapsed.
   */
  function AllPrefs(g: seq<Pref>, c: map<string, Pref>, data: BatteryDiffData, expanded: bool,
                    dividerKey: string, hidden: Option<string> -> bool): ListState
  {
    var s1 := Placed(g, c, data.appEntries, hidden);
    var g2 := if data.systemEntries == [] then s1.group else s1.group + [Divider(dividerKey, |s1.group|)];
    if expanded then Placed(g2, s1.cache, data.systemEntries, hidden)
    else CollapseAll(ListState(g2, s1.cache, 0), data.systemEntries)
  }

  /**
   * What the list shows after a refresh, which starts from an empty group:
   * expanded, the kept app and system entries and the divider when there are
   * system entries; collapsed, the kept app entries and the divider, less any
   * whose key a system entry carries. Unless the divider shares a key with an
   * app entry, no key shows twice.
   */
  lemma AllPrefsShown(c: map<string, Pref>, data: BatteryDiffData, expanded: bool,
                      dividerKey: string, hidden: Option<string> -> bool)
    ensures var r := AllPrefs([], c, data, expanded, dividerKey, hidden);
            var shown := EntryKeys(Kept(data.appEntries)) + (if data.systemEntries == [] then {} else {dividerKey});
            && (expanded ==> KeysOf(r.group) == shown + EntryKeys(Kept(data.systemEntries)))
            && (!expanded && dividerKey !in EntryKeys(Kept(data.appEntries)) ==>
                  KeysOf(r.group) == shown - EntryKeys(data.systemEntries))
            && (dividerKey !in EntryKeys(Kept(data.appEntries)) ==> UniqueKeys(r.group))
  {
    var s1 := Placed([], c, data.appEntries, hidden);
    PlaceAllFacts(ListState([], c, 0), data.appEntries, hidden);
    var g2 := if data.systemEntries == [] then s1.group else s1.group + [Divider(dividerKey, |s1.group|)];
    if data.systemEntries != [] {
      KeysOfAppend(s1.group, Divider(dividerKey, |s1.group|));
      if dividerKey !in EntryKeys(Kept(data.appEntries)) {
        UniqueAppend(s1.group, Divider(dividerKey, |s1.group|));
      }
    }
    if expanded {
      PlaceAllFacts(ListState(g2, s1.cache, |g2|), data.systemEntries, hidden);
    } else if dividerKey !in EntryKeys(Kept(data.appEntries)) {
      CollapseAllGroup(ListState(g2, s1.cache, 0), data.systemEntries);
      WithoutFacts(g2, EntryKeys(data.systemEntries));
    }
  }
}
